=== FILE: README.md ===
# Flowise Python execution bridge, in Dafny

This project models how Flowise runs user-written Python in a child
interpreter, and proves properties of that model. It covers three parts.

- **The Python tool** (`DynamicStructuredPythonTool`, module `ToolCall`
  with `ToolCode` and `ToolScript`):
  - checks the argument against the tool's schema;
  - builds the JSON payload `{input, vars, flow}`;
  - rewrites `$name` to `name` and a line-leading `return` to
    `__flowise_return =`;
  - embeds the code in a `'''` literal inside a fixed script, escaping
    only `'''` (the literal with backslashes escaped as well is kept
    beside it as the corrected version, see Findings);
  - reads the interpreter and the timeout from the environment;
  - settles the call on the child's `error` or `close` event, then
    decodes and stringifies the result.

  `ToolScript` also models the script's own behaviour:
  - the preamble bindings;
  - the copying of identifier-named input properties into the globals
    (after `vars` and `flow`);
  - the result order `__flowise_user_func` > `__flowise_return` >
    `result` > `None`;
  - the final `print(json.dumps(...))`;
  - what happens when a global hides a builtin the script calls: an
    input property named `isinstance`, `str` or `globals` stops the
    copying, one named `Exception` can end the script, and `exec`,
    `globals`, `callable`, `print`, `json` or `str` break the part after
    the user code.
- **The Custom Python Function node** (`init` / `executePythonScript`,
  module `FunctionNode`):
  - the ending-node guard;
  - parsing and normalising the input variables;
  - the script data merge;
  - the inlined JSON literal, escaped with backslashes doubled and then
    quotes escaped;
  - one binding line per variable;
  - the body indented under `def custom_function():`;
  - settling the run, which has no timeout;
  - cleanup and post-processing of the result.
- **The node service** (`nodes/index.ts`, module `NodesService`):
  - catalog lookups over the registry;
  - the icon-extension check;
  - async options;
  - the custom-function endpoint: `$name` extraction, `vars` filtering,
    the `looksLikePython` heuristic, routing between the Python node,
    the JS node and not-found, and the Python node's inputs;
  - rewrapping of every error as a 500.

Shared pieces:
- `Text`: JavaScript white space, `trim`, `split` and `join`, decimal text.
- `Assoc`: ordered objects, with spread and delete.
- `Js`: values, truthiness, `??`, `||` and `?.`.
- `PyLiteral`: how Python reads a `'''` literal back, and how the
  interpreter turns `\r\n` and a lone `\r` into `\n` when it reads a
  script file.
- `Process`: the child's settling event and its exit-code text.

Foreign helpers are fields of `Js.Host`. They are `JSON.parse`,
`JSON.stringify`, Python's `json.load` and `json.dumps`,
`handleEscapeCharacters` and `prepareSandboxVars`. The outside world
enters as parameters:
- the environment map;
- the child's settling event, its output streams and whether the timer
  fired first;
- whether removing the script file works;
- the variable store's answer;
- the effect of the user's code (`exec`);
- the JavaScript node's `init`.

## Model

| member | source | states |
|---|---|---|
| ToolCode.StripSigilsSpec | packages/components/nodes/tools/CustomToolPython/core.ts:133 | each `$` before `[A-Za-z_]` is dropped and nothing else changes: the length falls by the number of matches and every other character reappears, shifted left by the matches before it |
| ToolCode.StripSigilsUnchanged | packages/components/nodes/tools/CustomToolPython/core.ts:133 | the sigil rewrite leaves the code unchanged if and only if no `$identifier` occurs in it |
| ToolCode.StripSigilsNotIdempotent | packages/components/nodes/tools/CustomToolPython/core.ts:133 | `$$a` becomes `$a`, and a second pass would give `a` |
| ToolCode.RewriteReturnsUnchanged | packages/components/nodes/tools/CustomToolPython/core.ts:137 | the return rewrite changes the code if and only if some line starts with optional white space and the word `return`, with a word boundary after it; `returned` and `returns` do not match |
| ToolCode.RewriteFromChanges | packages/components/nodes/tools/CustomToolPython/core.ts:137 | any match of `^\s*return\b` (multiline) changes the text |
| ToolCode.LeadingSpaceConsumed | packages/components/nodes/tools/CustomToolPython/core.ts:137 | when the code starts with white space and then the word `return`, all that white space is replaced along with it, blank lines included, because `\s` matches line breaks |
| ToolCode.IndentedReturnDedented | packages/components/nodes/tools/CustomToolPython/core.ts:137 | as written, a `return` at the start of a later line loses the white space before it along with the word, so an indented `return` leaves its block |
| ToolCode.IndentKept | packages/components/nodes/tools/CustomToolPython/core.ts:137 | the corrected rewrite keeps that white space and replaces only the word `return`, so a `return` in a top-level block stays in its block |
| ToolCode.KeepingIndentUnchanged | packages/components/nodes/tools/CustomToolPython/core.ts:137 | the corrected rewrite, like the one as written, changes the code if and only if some line starts with optional white space and the word `return` |
| ToolCode.EscapeTripleQuotesUnchanged | packages/components/nodes/tools/CustomToolPython/core.ts:143 | the `'''` escape changes the code if and only if the code contains `'''` |
| ToolCode.TripleEscapeSoundWithoutBackslash | packages/components/nodes/tools/CustomToolPython/core.ts:143 | in source text whose line endings are already `\n`, the literal embedding code without backslashes, closed on the line after it, reads back as exactly the code |
| ToolCode.TripleEscapeLosesBackslash | packages/components/nodes/tools/CustomToolPython/core.ts:143 | as written, `\n` inside user code is read by the literal as a line break, so the interpreter gets different code |
| ToolCode.EmbeddedCodeReadsBack | packages/components/nodes/tools/CustomToolPython/core.ts:143 | with backslashes escaped as well, the literal embedding any code between two line breaks reads back as exactly that text, in source text whose line endings are already `\n` |
| ToolCode.NewlinesEscapeTriple | packages/components/nodes/tools/CustomToolPython/core.ts:143-150 | escaping `'''` and normalising line endings commute, so the escaped code in the file the interpreter reads is the escape of the normalised code |
| PyLiteral.SourceNewlines | packages/components/nodes/tools/CustomToolPython/core.ts:145-150 | the script as the interpreter reads it from the file has no `\r` left, and text without `\r` is read unchanged |
| PyLiteral.NewlinesAppend | packages/components/nodes/tools/CustomToolPython/core.ts:145-150 | normalising a concatenation normalises each part, unless a `\r` ends the first part and a `\n` starts the second |
| PyLiteral.NewlinesEscapeLiteral | packages/components/nodes/utilities/CustomPythonFunction/CustomPythonFunction.ts:138 | doubling backslashes and escaping quotes commutes with normalising line endings |
| PyLiteral.ReadEscapedLiteral | packages/components/nodes/utilities/CustomPythonFunction/CustomPythonFunction.ts:138 | doubling backslashes and then escaping `'` gives text that a `'''` literal reads back exactly: no quote closes it early, and every escape decodes to the original character |
| Text.JoinSplit | packages/components/nodes/utilities/CustomPythonFunction/CustomPythonFunction.ts:151-155 | splitting text on a separator and joining the parts with that separator gives the text back |
| Text.SplitJoin | packages/components/nodes/utilities/CustomPythonFunction/CustomPythonFunction.ts:146-155 | splitting a join of separator-free parts gives back the parts |
| Text.TrimPadded | packages/components/nodes/tools/CustomToolPython/core.ts:194 | a text with no white space at either end, followed by any white space (such as the line break after the printed JSON), trims back to exactly that text |
| Assoc.RemoveKeysWhere | packages/server/src/services/nodes/index.ts:128-134 | deleting the keys a test selects keeps exactly the other keys, with their values |
| ToolScript.ScriptCarriesCode | packages/components/nodes/tools/CustomToolPython/core.ts:143-150 | as the tool writes the script, code without backslashes is the script's `user_code` with only its line endings turned into `\n`, between two line breaks and followed by the fixed tail, even when it contains `'''`; code without `\r` arrives exactly |
| ToolScript.UserCodeText | packages/components/nodes/tools/CustomToolPython/core.ts:143-150 | the text `exec` receives has no `\r`, and for code without `\r` it is the code between two line breaks |
| ToolScript.WindowsLineEndings | packages/components/nodes/tools/CustomToolPython/core.ts:143-150 | code whose lines end in `\r\n` reaches `user_code` with `\n` line endings, not as written |
| ToolScript.ScriptReinterpretsEscapes | packages/components/nodes/tools/CustomToolPython/core.ts:143 | as written, code holding `\n` reaches `user_code` with a real line break in its place, which differs from the code the user wrote even after line endings are normalised |
| ToolScript.CorrectedScriptCarriesCode | packages/components/nodes/tools/CustomToolPython/core.ts:143-150 | with backslashes escaped as well, any code is the script's `user_code` with only its line endings turned into `\n`, and exactly the code when it holds no `\r` |
| ToolScript.PyGet | packages/components/nodes/tools/CustomToolPython/core.ts:143 | `payload.get(k, default)` gives the stored value when the key exists and the default otherwise |
| ToolScript.InjectLookup | packages/components/nodes/tools/CustomToolPython/core.ts:143 | while no input key is named `isinstance`, `str` or `globals`, the loop runs to the end; each identifier-named input key is then a global holding its input value, every other name keeps its earlier binding, and `_k` and `_v` are bound |
| ToolScript.InjectAfterBreak | packages/components/nodes/tools/CustomToolPython/core.ts:143 | once `isinstance`, `str` or `globals` is a global, no later property is bound and every other name keeps its binding; the loop still finishes while `Exception` is not a global, and ends the script when `isinstance` or `str` and `Exception` are all globals and there is a property left |
| ToolScript.InjectNoCrash | packages/components/nodes/tools/CustomToolPython/core.ts:143 | the loop cannot end the script unless `Exception` is already a global or an input key |
| ToolScript.Preamble | packages/components/nodes/tools/CustomToolPython/core.ts:143 | the preamble fails unless the payload and its `input` are dicts, succeeds for dicts without an input key `Exception`, and binds `payload`, `vars` and `flow` |
| ToolScript.UserCodePropertyReplaced | packages/components/nodes/tools/CustomToolPython/core.ts:143 | an input property named `user_code` is bound by the injection loop and then replaced by the code text, since the `user_code` assignment follows the loop; every other global the loop leaves reaches `exec` unchanged |
| ToolScript.PreambleShadowing | packages/components/nodes/tools/CustomToolPython/core.ts:143 | while no input key names a builtin the loop calls, the preamble succeeds and an input property named `vars` or `flow` replaces the payload's entry of that name, because injection runs after those bindings |
| ToolScript.SelectResultFrame | packages/components/nodes/tools/CustomToolPython/core.ts:143 | result selection depends only on `__flowise_user_func`, `__flowise_return`, `result`, `payload` and the builtins `globals`, `callable` and `Exception` |
| ToolScript.SelectResultFirstBound | packages/components/nodes/tools/CustomToolPython/core.ts:143 | without a callable user function, and with `globals` and `callable` untouched, the result is the binding of the first of `__flowise_return` and `result` that is bound, and `None` when neither is |
| ToolScript.RunScript | packages/components/nodes/tools/CustomToolPython/core.ts:143 | a script whose literal does not close before the fixed tail fails with status 1 and empty stdout; a clean status-0 run implies the script had the intended shape |
| ToolScript.Printed | packages/components/nodes/tools/CustomToolPython/core.ts:143 | the final `print` succeeds exactly when `print` and the `json` module are untouched and the result is data or `str` is untouched, and it prints the result's JSON rendering |
| ToolScript.ExecUnreachableFails | packages/components/nodes/tools/CustomToolPython/core.ts:143 | when `exec` or `globals` is a global after the preamble, the script exits 1 with empty stdout before the user code runs |
| ToolScript.PrintBrokenFails | packages/components/nodes/tools/CustomToolPython/core.ts:143 | when the final `print(json.dumps(...))` raises, the script exits 1 with nothing on stdout from that line |
| ToolScript.QuietRunPrintsResult | packages/components/nodes/tools/CustomToolPython/core.ts:143 | in the script as written, for code without backslashes: when `exec` of the code (line endings normalised) prints nothing, nothing else prints and no builtin the script calls is hidden, the run exits 0 and its stdout is the JSON of the selected result plus a line break |
| ToolScript.CorrectedRunPrintsResult | packages/components/nodes/tools/CustomToolPython/core.ts:143 | the same for any code once the literal escapes backslashes too |
| ToolScript.InputPropertyBecomesResult | packages/components/nodes/tools/CustomToolPython/core.ts:143 | if the user code binds nothing, an input property named `result` or `__flowise_return` becomes the selected result, provided no input key names `isinstance`, `str` or `globals`, nor `callable` next to `__flowise_user_func` |
| ToolScript.GlobalsPropertyStopsScript | packages/components/nodes/tools/CustomToolPython/core.ts:143 | with input `{"globals": 0, "a": 1}`, `a` is never bound and the script exits 1 whatever backslash-free code it runs |
| ToolScript.JsonPropertyBreaksPrint | packages/components/nodes/tools/CustomToolPython/core.ts:143 | with input `{"json": 1}`, code that only sets `result = 2` makes the script exit 1 |
| ToolCall.ToNumber | packages/components/nodes/tools/CustomToolPython/core.ts:148 | `Number(text)` reads decimal digits, ignores surrounding white space, and reads blank text as 0 |
| ToolCall.EnvOrIsOr | packages/components/nodes/tools/CustomToolPython/core.ts:147-148 | reading a variable with a fallback is JavaScript's `||` on `process.env[name]`: the variable is kept exactly when its value is truthy |
| ToolCall.PythonPath | packages/components/nodes/tools/CustomToolPython/core.ts:147 | the interpreter name is never empty |
| ToolCall.ConfigDefaults | packages/components/nodes/tools/CustomToolPython/core.ts:147-148 | the defaults are `python` and 10000 ms; a decimal timeout is read as its value |
| ToolCall.BlankTimeoutIsZero | packages/components/nodes/tools/CustomToolPython/core.ts:148 | a blank timeout is not replaced by the default, and it means 0 ms |
| ToolCall.Payload | packages/components/nodes/tools/CustomToolPython/core.ts:117-121 | the payload has exactly the keys `input`, `vars` and `flow`, in that order; `input` is the parsed argument and `vars` is the sandboxed variables |
| ToolCall.FlowOverride | packages/components/nodes/tools/CustomToolPython/core.ts:120 | in `flow`, a key of the call's flow configuration always wins; the tool's flow object fills the rest only when it is set |
| ToolCall.ScriptRunsUserCode | packages/components/nodes/tools/CustomToolPython/core.ts:130-150 | rewritten code without backslashes reaches the interpreter as `user_code` with only its line endings normalised (`''` when there is none); code with no backslash, no `\r`, no sigil and no line-leading `return` arrives exactly as written |
| ToolCall.Settle | packages/components/nodes/tools/CustomToolPython/core.ts:180-196 | a start failure rejects with its own message; the call resolves if and only if the child closed with code 0 before the timer fired, and then with the trimmed stdout |
| ToolCall.SettleFailures | packages/components/nodes/tools/CustomToolPython/core.ts:186-193 | a timed-out run rejects, naming the timeout, whatever its exit code; a failed exit reports the code and stderr; stdout never affects a failure |
| Text.Trim | packages/components/nodes/tools/CustomToolPython/core.ts:194 | the trimmed text has no JavaScript white space at either end and is an infix whose outside is all white space |
| Js.DecodeOrRawRoundTrip | packages/components/nodes/tools/CustomToolPython/core.ts:198-203 | thin: a stringified value comes back whenever the host's parser reads the text back to it (assumed, not proved), and unparsable text comes back as itself |
| ToolCall.StringifyResult | packages/components/nodes/tools/CustomToolPython/core.ts:102-104 | a truthy non-string result becomes its `JSON.stringify` text; strings and falsy values pass through; the result is a string or falsy |
| ToolCall.StringifyResultParsesBack | packages/components/nodes/tools/CustomToolPython/core.ts:102-104 | a truthy non-string result whose JSON text parses back to it is returned as text that decodes to that same result |
| ToolCall.RunTool | packages/components/nodes/tools/CustomToolPython/core.ts:112-204 | `_call` writes the script as written, starts the configured interpreter and sends the stringified payload; it succeeds exactly when settling succeeds, with the decoded trimmed stdout; the file is left behind only if unlinking fails |
| ToolCall.Call | packages/components/nodes/tools/CustomToolPython/core.ts:61-107 | a schema rejection throws `ToolInputParsingException` carrying `JSON.stringify(arg)`, before anything is written or started; a result is a string or falsy |
| ToolCall.CleanupIrrelevant | packages/components/nodes/tools/CustomToolPython/core.ts:181-188 | whether unlinking works changes nothing except whether the file is left |
| ToolCall.ToolScriptPrintsResult | packages/components/nodes/tools/CustomToolPython/core.ts:143 | when the rewritten code has no backslash, no builtin the script calls is hidden, and `exec` of that code (line endings normalised) prints nothing and leaves a result, the tool's script exits 0 with exactly the JSON of that result on one line |
| ToolCall.CallReturnsPrintedResult | packages/components/nodes/tools/CustomToolPython/core.ts:194-203 | that output, once trimmed and parsed back, is what the call returns, stringified when it is a truthy non-string |
| ToolCall.CallOnCleanExit | packages/components/nodes/tools/CustomToolPython/core.ts:186-203 | on a clean exit before the timer, the call returns the value the trimmed stdout parses to |
| Process.CodeText | packages/components/nodes/tools/CustomToolPython/core.ts:191 | a signal-ended process prints its code as `null` |
| Assoc.PutLookup | packages/server/src/services/nodes/index.ts:123-125 | after an assignment `m[k] = v`, reading `k` gives `v` and every other key reads as before |
| Assoc.Put | packages/server/src/services/nodes/index.ts:123-125 | an assigned key keeps its place when present and is appended otherwise |
| Assoc.SpreadLookup | packages/components/nodes/tools/CustomToolPython/core.ts:120 | in `{...a, ...b}` a key of `b` takes `b`'s value, and any other key keeps `a`'s |
| Assoc.SpreadKeys | packages/components/nodes/utilities/CustomPythonFunction/CustomPythonFunction.ts:123-128 | a spread keeps the left keys first, in order, adds only right keys, and never repeats a key |
| FunctionNode.EntriesOf | packages/components/nodes/utilities/CustomPythonFunction/CustomPythonFunction.ts:109-121 | an object's entries are its fields; a failing enumeration is a TypeError |
| FunctionNode.VariableEntries | packages/components/nodes/utilities/CustomPythonFunction/CustomPythonFunction.ts:99-107 | a falsy input means no variables; an object is used as is; unparsable text raises the `Invalid JSON in the Custom Python Function Input Variables: ` error |
| FunctionNode.VariableEntriesFromText | packages/components/nodes/utilities/CustomPythonFunction/CustomPythonFunction.ts:99-107 | text holding a JSON object yields its entries; text that does not parse fails with the documented prefix |
| FunctionNode.NormaliseString | packages/components/nodes/utilities/CustomPythonFunction/CustomPythonFunction.ts:110-119 | a string variable becomes the parsed value when its text after the reverse escape handling (`handleEscapeCharacters(…, true)`) is braced and parses, and otherwise that text |
| FunctionNode.NormaliseStringifiedObject | packages/components/nodes/utilities/CustomPythonFunction/CustomPythonFunction.ts:110-119 | a variable holding an object's JSON text, which the reverse escape handling leaves alone and which parses back, is handed to the script as that object |
| FunctionNode.Normalise | packages/components/nodes/utilities/CustomPythonFunction/CustomPythonFunction.ts:109-121 | keys and order are kept; non-string values are untouched; each string is normalised |
| FunctionNode.NormalisePlainString | packages/components/nodes/utilities/CustomPythonFunction/CustomPythonFunction.ts:109-121 | a string that the reverse escape handling leaves alone and that is not braced stays unchanged |
| FunctionNode.ScriptDataOverride | packages/components/nodes/utilities/CustomPythonFunction/CustomPythonFunction.ts:123-128 | a variable named `input_text`, `vars` or `flow` overrides the built-in entry, and other names keep their built-in values; the built-ins come first (for variable names that are not array indices) and no key repeats |
| FunctionNode.ScriptCarriesData | packages/components/nodes/utilities/CustomPythonFunction/CustomPythonFunction.ts:133-138 | `json.loads` gets the JSON text of the script data exactly, and the rest of the script follows the literal |
| FunctionNode.BindingLineNamesKey | packages/components/nodes/utilities/CustomPythonFunction/CustomPythonFunction.ts:146-148 | a binding line starts with `k = input_data.get('`, and two keys with the same binding line are the same key |
| FunctionNode.BindingBlockLines | packages/components/nodes/utilities/CustomPythonFunction/CustomPythonFunction.ts:146-148 | read line by line, the block is exactly those binding lines |
| FunctionNode.IndentLines | packages/components/nodes/utilities/CustomPythonFunction/CustomPythonFunction.ts:151-155 | indenting keeps the line count and prefixes each line with four spaces; removing the prefix recovers the body |
| FunctionNode.SettleFunction | packages/components/nodes/utilities/CustomPythonFunction/CustomPythonFunction.ts:201-226 | a start failure reports `Failed to start Python process: `; the run succeeds if and only if it closed with code 0, then with the trimmed stdout; there is no timer |
| FunctionNode.SettleFunctionReports | packages/components/nodes/utilities/CustomPythonFunction/CustomPythonFunction.ts:215-218 | a failed exit reports stderr, with stdout irrelevant, or stdout when stderr is empty |
| FunctionNode.PythonPathOf | packages/components/nodes/utilities/CustomPythonFunction/CustomPythonFunction.ts:87 | a falsy `pythonPath` means `python`, a truthy string is used as it is, and a truthy non-string gives no interpreter, so the start fails |
| FunctionNode.Init | packages/components/nodes/utilities/CustomPythonFunction/CustomPythonFunction.ts:81-199 | an ending node outside a run returns `undefined` with nothing written or started; otherwise unparsable `functionInputVariables` throws the invalid-JSON error, and a `pythonFunction` that is not a string throws a TypeError, both before anything is written; a started run has written its script, sends nothing on stdin and removes the file unless unlinking fails; success requires a clean exit |
| FunctionNode.InitWritesScript | packages/components/nodes/utilities/CustomPythonFunction/CustomPythonFunction.ts:123-170 | the script `init` writes carries the JSON text of the built-ins overlaid with the normalised variables, and then the bindings of those variables, in order, and the function body |
| FunctionNode.InitCleanup | packages/components/nodes/utilities/CustomPythonFunction/CustomPythonFunction.ts:172-198 | the script is removed on both the success path and the failure path, and a failing unlink changes nothing else |
| FunctionNode.InitSuccess | packages/components/nodes/utilities/CustomPythonFunction/CustomPythonFunction.ts:172-191 | a clean exit returns the decoded trimmed stdout, a string after the forward escape handling (`handleEscapeCharacters(…, false)`) |
| NodesService.Rewrap | packages/server/src/services/nodes/index.ts:57-59 | every rethrown error is a 500 whose message starts `Error: nodesService.` and ends with the inner message |
| NodesService.GetAllNodes | packages/server/src/services/nodes/index.ts:12-24 | every registered node is returned, in registry order |
| NodesService.GetAllNodesForCategory | packages/server/src/services/nodes/index.ts:27-45 | only nodes of the category are returned, and all of them |
| NodesService.CategoryFilterOrder | packages/server/src/services/nodes/index.ts:31-37 | the filter keeps registry order: filtering two parts of a registry is filtering each part in turn |
| NodesService.CategoryFilterIsAllNodesOfCategory | packages/server/src/services/nodes/index.ts:27-45 | a node is in the category list if and only if it is among all nodes and has that category |
| NodesService.GetNodeByName | packages/server/src/services/nodes/index.ts:48-60 | the lookup succeeds if and only if the name is registered, and returns that node |
| NodesService.GetSingleNodeIcon | packages/server/src/services/nodes/index.ts:63-87 | the lookup succeeds if and only if the node exists and its icon is set and ends in `.svg`, `.png` or `.jpg`; it then returns the icon |
| NodesService.GetSingleNodeAsyncOptions | packages/server/src/services/nodes/index.ts:89-116 | only an unknown node is an error; a method found under the body's `loadMethod` that succeeds answers with its result |
| Js.ArrayText | packages/server/src/services/nodes/index.ts:96 | `String(v)`: an empty array is the empty text and a one-element array is the text of its element (`null` and `undefined` counting as empty); an object is `[object Object]` |
| NodesService.MethodNameConverts | packages/server/src/services/nodes/index.ts:96 | the method name is `String(loadMethod || '')`: `["m"]` names `m`, an object names `[object Object]`, and a falsy value names nothing |
| NodesService.AsyncOptionsArrayName | packages/server/src/services/nodes/index.ts:96-103 | `loadMethod: ["toString"]` on a node that does not declare `toString` answers `"[object Object]"` |
| NodesService.LoadMethod | packages/server/src/services/nodes/index.ts:96-98 | no method is found on a node without methods, and a method the node declares is found as declared |
| NodesService.AsyncOptionsFromDeclaredMethod | packages/server/src/services/nodes/index.ts:93-103 | the node `getNodeByName` finds answers with the options its declared method returns for the body |
| NodesService.AsyncOptionsInherited | packages/server/src/services/nodes/index.ts:94-106 | a name the node does not declare selects what every object inherits: `toString` answers `"[object Object]"`, `valueOf` the node, `constructor` the body, and the empty name no options |
| NodesService.AsyncOptionsFailure | packages/server/src/services/nodes/index.ts:94-106 | a method name found neither among the node's load methods nor among the members every object inherits, or a method that fails, yields `[]` |
| NodesService.ServiceErrorsAre500 | packages/server/src/services/nodes/index.ts:48-116 | every failure, not-found included, is a 500 under the `Error: nodesService.` prefix |
| NodesService.TokensFromNames | packages/server/src/services/nodes/index.ts:124 | a name is found if and only if some `$` followed by `[A-Za-z0-9_]` introduces it as its whole word run; a leading digit is allowed |
| NodesService.UndefinedsSpec | packages/server/src/services/nodes/index.ts:123-125 | `Object.fromEntries` keeps each distinct name once, maps it to `undefined`, and adds nothing else |
| NodesService.ExtractedVariables | packages/server/src/services/nodes/index.ts:123-134 | after filtering, no key contains `vars` and no key repeats |
| NodesService.ExtractedVariablesNames | packages/server/src/services/nodes/index.ts:123-134 | a name survives if and only if the code introduces it and it does not contain `vars`; it maps to `undefined` |
| NodesService.NoCodeNoVariables | packages/server/src/services/nodes/index.ts:124 | without code there are no variables |
| NodesService.ScanLooksLikePython | packages/server/src/services/nodes/index.ts:137-140 | the scan returns false for empty or non-string input, and otherwise true if and only if `\bdef\b`, `\bimport\b` or `\bprint\(` occurs |
| NodesService.RouteDecidesRunner | packages/server/src/services/nodes/index.ts:142-215 | the route alone decides the runner: on the Python route the JS node plays no part, on the JS route neither the variable store nor the child process nor the clean-up does, and with neither node registered the answer is an error |
| NodesService.EmptyPythonFunctionWins | packages/server/src/services/nodes/index.ts:142-168 | when the JS code only looks like Python, an empty `pythonFunction` still selects the Python route and is the code handed to the Python node as written |
| NodesService.PyNodeInputsOverride | packages/server/src/services/nodes/index.ts:169 | `pythonFunction`, `pythonPath` and `functionName` override variables of the same name; every other key comes from the variables |
| NodesService.SpreadVariablesAreLost | packages/server/src/services/nodes/index.ts:127-169 | as written, variables spread at the top level never reach the node's `functionInputVariables` unless they themselves hold that key |
| NodesService.SpreadVariablesAreLostExample | packages/server/src/services/nodes/index.ts:127-169 | the concrete body `{pythonFunction: "return a", functionInputVariables: {a: 1}}` leaves the node with no variables |
| NodesService.PyNodeInputsCorrected | packages/server/src/services/nodes/index.ts:169 | the corrected inputs have distinct keys |
| NodesService.CorrectedInputsReachNode | packages/server/src/services/nodes/index.ts:166-169 | with the correction, the node sees exactly the body's variables and runs `pythonFunction ?? javascriptFunction` |
| NodesService.TransportUndoesPostProcess | packages/server/src/services/nodes/index.ts:166-174 | thin: a non-string result crosses the node's forward and the endpoint's reverse escape handling unchanged; for a string, only when the two directions are assumed inverse on it |
| NodesService.ExecuteCustomFunction | packages/server/src/services/nodes/index.ts:119-215 | as written, with the variables spread at the top level of the Python node's inputs: every failure is a 500 under `Error: nodesService.`; with neither node registered, the error is `Node customFunction not found` |
| NodesService.JsInputsOverride | packages/server/src/services/nodes/index.ts:123-135 | the JavaScript node's inputs `{ functionInputVariables, ...body }`: each body field is passed as it is, a body field `functionInputVariables` replaces the extracted variables, which are present otherwise, and no other key appears |
| NodesService.JsRouteResult | packages/server/src/services/nodes/index.ts:135-205 | on the JavaScript route the node gets `{ inputs: { functionInputVariables, ...body } }`; a string answer comes back after the reverse escape handling, other answers unchanged, and a failure becomes a 500 `Error: nodesService.executeCustomFunction - Error running custom function: …`; both endpoint versions agree there |
| NodesService.ExecuteCustomFunctionCorrected | packages/server/src/services/nodes/index.ts:160-174 | the endpoint with the variables passed under `functionInputVariables`: the same error guarantees |
| NodesService.EndpointRunsPython | packages/server/src/services/nodes/index.ts:160-174 | through the endpoint as written, the node runs `pythonFunction ?? javascriptFunction`; when the body's variables hold no `functionInputVariables` key of their own, a clean run answers with the node's decoded result, after the node's forward and the endpoint's reverse escape handling when it is a string |
| NodesService.IndexedVariablesAreLost | packages/server/src/services/nodes/index.ts:127-169 | as written, an array or a string as the variables spreads into index keys, none of which is `functionInputVariables`: the node sees no variable, so `functionInputVariables: "x"` runs the code instead of failing to parse `x` |
| NodesService.InputsCarryCode | packages/server/src/services/nodes/index.ts:166-169 | as written, the node's `pythonFunction` is `pythonFunction ?? javascriptFunction` and its `pythonPath` is the body's, whatever the variables hold |
| NodesService.CorrectedEndpointRunsPython | packages/server/src/services/nodes/index.ts:160-174 | with the correction, a body whose variables are an object runs with those variables, and a clean run answers with the node's decoded result |
| NodesService.PythonRunsCleanly | packages/server/src/services/nodes/index.ts:160-174 | on the Python route, a node whose inputs hold usable variables, a string function and a usable interpreter path answers a clean run with its decoded output, after the reverse escape handling |

## Left out

- Process spawning, pipes, `setTimeout`, `kill` and the event race are not modelled. The first settling event, whether the timer fired and the collected output are parameters.
- Temporary file names (`Date.now()` and `Math.random()`) are not modelled. Nor are write failures of `writeFileSync`: the script is taken to be written.
- Python's `exec` of user code is a parameter. It returns the new globals, or how the code ended: an exception, `sys.exit`, or what it printed.
- The body of the function node's script is not modelled. The model stops at the script text and at the literal reading back.
- Zod validation, `JSON.parse`, `JSON.stringify`, `json.load`, `json.dumps`, `handleEscapeCharacters`, `prepareSandboxVars` and `getVars` are opaque host functions.
- Tracebacks and the text of engine `TypeError`s are represented by fixed words (`SyntaxError`, `AttributeError`, `TypeError`).
- The LangChain callback manager in `call` is not modelled.
- `require.cache` reloading, `getRunningExpressApp`, `cloneDeep` and database options are not modelled. `getErrorMessage` is taken to be the error's message.
- A failing module load in `executeCustomFunction` is not modelled.
- The GoogleBooks tool files are outside this model.
- ToolCall.ToNumber: reads only an optional sign and decimal digits. Fractions, exponents, hexadecimal and `Infinity` give `NaN`, because numbers are integers here.
- ToolScript.InjectLookup: Python's `isidentifier` is limited to ASCII identifiers.
- ToolScript.InjectLookup: stated while no input key is named `isinstance`, `str` or `globals`; ToolScript.InjectAfterBreak states what happens otherwise.
- ToolScript.PreambleShadowing: stated under the same condition, for the same reason.
- ToolScript.InputPropertyBecomesResult: stated under the same condition, and without `callable` beside `__flowise_user_func`, where the selection itself raises.
- ToolScript.ScriptCarriesCode: stated for code without backslashes; ToolScript.ScriptReinterpretsEscapes shows what a backslash does (see Findings).
- ToolScript.QuietRunPrintsResult: stated for code without backslashes, for the same reason.
- ToolCall.ScriptRunsUserCode: stated for code without backslashes, for the same reason.
- ToolCall.ToolScriptPrintsResult: stated for code without backslashes, for the same reason.
- ToolScript.SelectResult: any global named after a builtin the script calls counts as hiding it, even one the user code binds to a function of its own. Such code is taken to make that call raise.
- ToolScript.SelectResult: a `payload` global that is not data is passed to the user function as its JSON rendering.
- ToolCode.IndentKept: the corrected rewrite still replaces a `return` inside a `def` the user writes, so that function assigns `__flowise_return` and returns `None`. Telling a top-level block from a function body needs Python's block structure, which the rewrite does not parse.
- ToolScript.RunScript: only an `Exception` global present when `exec` starts turns a `sys.exit` inside the user code into status 1. A rebinding made by the user code before it exits is not seen.
- ToolScript.AsJson: a module prints as `<module 'name'>`. Python's own text adds `from '…'` or `(built-in)`, so the text differs.
- PyLiteral.ReadTripleQuoted: octal, `\x`, `\u`, `\U` and `\N{}` escapes are read as unrecognised escapes, which keep their backslash. The escapes that PyLiteral.EscapeLiteral produces are only `\\` and `\'`, and both are modelled exactly.
- ToolScript.RunScript: a script whose literal closes anywhere except right before the fixed tail is treated as not compiling.
- ToolScript.Binding: a callable returns JSON-like data, and a callable's return value is not itself a callable.
- NodesService.GetAllNodes: registry order is insertion order. Node names that look like array indices would be enumerated first in JavaScript.
- Assoc.Put: a new key goes last. JavaScript lists keys that are array indices (`"0"`, `"1"`, …) first, in numeric order.
- Assoc.Spread: the key order assumes no key is an array index, for the same reason.
- NodesService.Undefineds: the key order assumes no extracted name is an array index. A name such as `$1` would come first in JavaScript.
- FunctionNode.ScriptDataOverride: `input_text`, `vars` and `flow` come first only when no variable name is an array index. Such a variable would precede them, so the JSON text would list it first.
- FunctionNode.Init: the normalisation loop writes its results back into an object- or array-valued `functionInputVariables`, so the caller's node data changes. The model returns no updated node data; each caller here reads the node data once.
- NodesService.Inherited: for a body that is not an object, `hasOwnProperty` and `propertyIsEnumerable` are taken as `false`, though the body's text could name an own property of the node. A node class that defines its own `toString` or `valueOf` is not modelled.
- ToolCode.TripleEscapeSoundWithoutBackslash: speaks of source text whose line endings are already `\n`. Raw code holding `\r` is covered end to end by ToolScript.ScriptCarriesCode, which promises the code with its line endings normalised, not the code as written.
- ToolCode.EmbeddedCodeReadsBack: speaks of source text whose line endings are already `\n`, for the same reason.
- ToolScript.CorrectedScriptCarriesCode: promises the code with its line endings normalised. A `\r` in the code does not survive the interpreter reading the script file, even with backslashes escaped.
- ToolScript.ScriptCarriesCode: a `\r` in the code does not survive either; it arrives as `\n`, as ToolScript.WindowsLineEndings shows.
- ToolScript.UserCodeText: the line-ending translation `exec` itself applies to a string is not modelled; the text has no `\r` left by then.
- NodesService.EndpointRunsPython: stated for bodies whose variables hold no `functionInputVariables` key of their own. Such a key reaches the node and is parsed there, which FunctionNode.VariableEntries describes.
- Js.ToText: numbers are integers, so the text of fractions and exponents is not modelled.
- NodesService.ExecuteCustomFunction: a non-string `javascriptFunction` is reported as a TypeError, as `matchAll` throws.

## Findings

| source | as written | input that shows it | evidently intended | confidence | as-written member | corrected member |
|---|---|---|---|---|---|---|
| packages/components/nodes/tools/CustomToolPython/core.ts:143 | only `'''` is escaped before the code goes into a non-raw `'''` literal, so backslash escapes in the code are interpreted by the literal | user code `print("a\nb")`: the interpreter gets a real line break inside the string, and the code no longer parses | the code reaches `exec` as written, up to the interpreter's normalisation of line endings (backslashes escaped too, as the function node does) | medium, not executed | ToolScript.ScriptReinterpretsEscapes | ToolScript.CorrectedScriptCarriesCode |
| packages/server/src/services/nodes/index.ts:169 | `body.functionInputVariables` is spread into the Python node's inputs at the top level, but the node reads `inputs.functionInputVariables` | body `{pythonFunction: "return a", functionInputVariables: {a: 1}}`: no variable `a` is bound in the script | pass the variables under `functionInputVariables` | medium, not executed | NodesService.SpreadVariablesAreLostExample | NodesService.CorrectedEndpointRunsPython |
| packages/components/nodes/tools/CustomToolPython/core.ts:137 | `^\s*return\b` consumes the white space before a line-leading `return` and puts nothing back | user code `if a:\n  return b`: the rewrite gives `if a:\n__flowise_return = b`, an `if` with an empty block, which Python rejects | a `return` in a block at the top level of the code (under an `if`, `for` or `while`) keeps its indentation and only the word is replaced, as the comment at core.ts:135 asks for top-level returns; a `return` inside a `def` of the user's is not meant to change | medium, not executed | ToolCode.IndentedReturnDedented | ToolCode.IndentKept |

=== FILE: assoc.dfy ===
/** Ordered string-keyed maps: the model of a JavaScript object's own
    properties (insertion order, one entry per key) and of the node
    registry. Object spread `{ ...a, ...b }` is `Spread(a, b)`. */
module Assoc {
  import opened Wrappers

  type Assoc<V> = seq<(string, V)>

  function Keys<V>(m: Assoc<V>): (ks: seq<string>)
    ensures |ks| == |m|
    ensures forall i :: 0 <= i < |m| ==> ks[i] == m[i].0
  {
    if |m| == 0 then [] else [m[0].0] + Keys(m[1..])
  }

  predicate Distinct(ks: seq<string>) {
    forall i, j :: 0 <= i < j < |ks| ==> ks[i] != ks[j]
  }

  /** A proper object: no key twice. */
  predicate WellFormed<V>(m: Assoc<V>) {
    Distinct(Keys(m))
  }

  /** The value stored under `k`; `None` when there is no such key. */
  function Lookup<V>(m: Assoc<V>, k: string): (r: Option<V>)
    ensures r.Some? <==> k in Keys(m)
  {
    if |m| == 0 then None
    else if m[0].0 == k then Some(m[0].1)
    else
      assert Keys(m) == [m[0].0] + Keys(m[1..]);
      Lookup(m[1..], k)
  }

  /** Property assignment `m[k] = v`: an existing key keeps its place,
      a new key goes last. */
  function Put<V>(m: Assoc<V>, k: string, v: V): (r: Assoc<V>)
    ensures k in Keys(m) ==> Keys(r) == Keys(m)
    ensures k !in Keys(m) ==> Keys(r) == Keys(m) + [k]
  {
    if |m| == 0 then [(k, v)]
    else
      var rest := if m[0].0 == k then m[1..] else Put(m[1..], k, v);
      var r := [if m[0].0 == k then (k, v) else m[0]] + rest;
      assert r[1..] == rest;
      assert Keys(m) == [m[0].0] + Keys(m[1..]);
      assert Keys(r) == [m[0].0] + Keys(rest);
      r
  }

  /** After `m[k] = v`, reading `k` gives `v` and every other key reads
      as before. */
  lemma {:induction false} PutLookup<V>(m: Assoc<V>, k: string, v: V, j: string)
    ensures Lookup(Put(m, k, v), j) == if j == k then Some(v) else Lookup(m, j)
    decreases |m|
  {
    if |m| > 0 {
      var r := Put(m, k, v);
      if m[0].0 == k {
        assert r[1..] == m[1..];
      } else {
        assert r[1..] == Put(m[1..], k, v);
        PutLookup(m[1..], k, v, j);
      }
    }
  }

  /** Assignment never repeats a key. */
  lemma PutWellFormed<V>(m: Assoc<V>, k: string, v: V)
    requires WellFormed(m)
    ensures WellFormed(Put(m, k, v))
  {
    if k !in Keys(m) {
      assert Keys(Put(m, k, v)) == Keys(m) + [k];
    }
  }

  /** `{ ...a, ...b }`: the entries of `b` assigned onto `a`, in order. */
  function Spread<V>(a: Assoc<V>, b: Assoc<V>): Assoc<V>
    decreases |b|
  {
    if |b| == 0 then a else Spread(Put(a, b[0].0, b[0].1), b[1..])
  }

  /** Every key of a spread comes from one of the two sides, and the
      right-hand side wins on a shared key. */
  lemma {:induction false} SpreadLookup<V>(a: Assoc<V>, b: Assoc<V>, k: string)
    requires WellFormed(b)
    ensures Lookup(Spread(a, b), k) == if k in Keys(b) then Lookup(b, k) else Lookup(a, k)
    decreases |b|
  {
    if |b| > 0 {
      var a' := Put(a, b[0].0, b[0].1);
      assert Keys(b) == [b[0].0] + Keys(b[1..]);
      assert WellFormed(b[1..]) by {
        forall i, j | 0 <= i < j < |b[1..]|
          ensures Keys(b[1..])[i] != Keys(b[1..])[j]
        {
          assert Keys(b[1..])[i] == Keys(b)[i + 1];
          assert Keys(b[1..])[j] == Keys(b)[j + 1];
        }
      }
      SpreadLookup(a', b[1..], k);
      PutLookup(a, b[0].0, b[0].1, k);
      if k == b[0].0 {
        assert k !in Keys(b[1..]) by {
          forall j | 0 <= j < |b[1..]| ensures Keys(b[1..])[j] != k {
            assert Keys(b[1..])[j] == Keys(b)[j + 1];
          }
        }
      }
    }
  }

  /** A spread keeps the left-hand keys first, in their order, adds only
      keys of the right-hand side, and keeps keys distinct. */
  lemma SpreadKeys<V>(a: Assoc<V>, b: Assoc<V>)
    requires WellFormed(a)
    ensures WellFormed(Spread(a, b))
    ensures |Keys(a)| <= |Keys(Spread(a, b))|
    ensures Keys(Spread(a, b))[..|a|] == Keys(a)
    ensures forall k :: k in Keys(Spread(a, b)) <==> k in Keys(a) || k in Keys(b)
  {
    SpreadKeysOrder(a, b);
    SpreadWellFormed(a, b);
  }

  lemma {:induction false} SpreadKeysOrder<V>(a: Assoc<V>, b: Assoc<V>)
    ensures |Keys(a)| <= |Keys(Spread(a, b))|
    ensures Keys(Spread(a, b))[..|a|] == Keys(a)
    ensures forall k :: k in Keys(Spread(a, b)) <==> k in Keys(a) || k in Keys(b)
    decreases |b|
  {
    if |b| > 0 {
      var a' := Put(a, b[0].0, b[0].1);
      assert Keys(b) == [b[0].0] + Keys(b[1..]);
      SpreadKeysOrder(a', b[1..]);
      assert Keys(a')[..|a|] == Keys(a);
    }
  }

  lemma {:induction false} SpreadWellFormed<V>(a: Assoc<V>, b: Assoc<V>)
    requires WellFormed(a)
    ensures WellFormed(Spread(a, b))
    decreases |b|
  {
    if |b| > 0 {
      PutWellFormed(a, b[0].0, b[0].1);
      SpreadWellFormed(Put(a, b[0].0, b[0].1), b[1..]);
    }
  }

  /** `Object.keys(m).forEach(k => delete m[k] if drop(k))`: the entries
      whose key `drop` rejects, in their order. */
  function RemoveKeysWhere<V>(m: Assoc<V>, drop: string -> bool): (r: Assoc<V>)
    ensures forall k :: k in Keys(r) <==> k in Keys(m) && !drop(k)
    ensures forall k :: !drop(k) ==> Lookup(r, k) == Lookup(m, k)
    ensures |r| <= |m|
  {
    if |m| == 0 then []
    else
      var rest := RemoveKeysWhere(m[1..], drop);
      assert Keys(m) == [m[0].0] + Keys(m[1..]);
      if drop(m[0].0) then rest
      else
        assert Keys([m[0]] + rest) == [m[0].0] + Keys(rest);
        [m[0]] + rest
  }
}

=== FILE: function_node.dfy ===
/** The Custom Python Function node: its input variables, the script it
    writes (the inlined JSON literal, one binding line per variable, the
    body indented under `def custom_function():`), how the child process
    settles the run (there is no timeout on this path), and the
    post-processing of the result. */
module FunctionNode {
  import opened Wrappers
  import opened Text
  import opened Js
  import Assoc
  import opened PyLiteral
  import opened Process

  // ---------------------------------------------------------------------
  // the node and its input variables

  /** The parts of the node data `init` reads. */
  datatype NodeData = NodeData(inputs: Value, outputs: Value)

  /** The parts of the run options `init` reads. */
  datatype RunOptions = RunOptions(isRun: Value, chatflowid: Value, sessionId: Value, chatId: Value)

  predicate IsEndingNode(node: NodeData) {
    Field(node.outputs, "output") == Str("EndingNode")
  }

  const InvalidJsonPrefix: string := "Invalid JSON in the Custom Python Function Input Variables: "

  /** Stands for the text of the `TypeError`s the engine raises. */
  const TypeErrorMessage: string := "TypeError"

  /** The entries `for (key in vars)`, `{ ...vars }` and `Object.keys`
      see on the parsed variables. Assigning back into a non-empty string
      and `Object.keys(null)` throw. */
  function EntriesOf(v: Value): (r: Result<seq<(string, Value)>, string>)
    ensures v.Obj? ==> r == Ok(v.fields)
    ensures r.Err? ==> r.error == TypeErrorMessage
  {
    match v
    case Obj(fields) => Ok(fields)
    case Arr(items) => Ok(IndexFields(items))
    case Str(s) => if s == "" then Ok([]) else Err(TypeErrorMessage)
    case Null => Err(TypeErrorMessage)
    case _ => Ok([])
  }

  /** The input variables: none when the input is falsy, an object as it
      is, any other value through `JSON.parse`. */
  function VariableEntries(host: Host, raw: Value): (r: Result<seq<(string, Value)>, string>)
    ensures !Truthy(raw) ==> r == Ok([])
    ensures raw.Obj? ==> r == Ok(raw.fields)
    ensures Truthy(raw) && !raw.Obj? && !raw.Arr? && host.parse(ToText(raw)).None? ==>
      r == Err(InvalidJsonPrefix + host.parseError(ToText(raw)))
  {
    if !Truthy(raw) then Ok([])
    else if raw.Obj? || raw.Arr? then EntriesOf(raw)
    else
      match host.parse(ToText(raw))
      case None => Err(InvalidJsonPrefix + host.parseError(ToText(raw)))
      case Some(v) => EntriesOf(v)
  }

  /** A JSON object text as the variables yields its entries; text that
      does not parse fails with the documented prefix. */
  lemma VariableEntriesFromText(host: Host, text: string)
    requires text != ""
    ensures host.parse(text).Some? && host.parse(text).value.Obj? ==>
      VariableEntries(host, Str(text)) == Ok(host.parse(text).value.fields)
    ensures host.parse(text).None? ==>
      VariableEntries(host, Str(text)).Err? && StartsWith(VariableEntries(host, Str(text)).error, InvalidJsonPrefix)
  {
    if host.parse(text).None? {
      var e := InvalidJsonPrefix + host.parseError(text);
      assert e[..|InvalidJsonPrefix|] == InvalidJsonPrefix;
    }
  }

  /** One string variable after normalisation: passed through the
      reverse escape handling, then parsed when it looks like a JSON object
      and parses. */
  function NormaliseString(host: Host, s: string): (r: Value)
    ensures var u := host.handleEscape(s, true);
      r == Str(u) || (StartsWith(u, "{") && EndsWith(u, "}") && host.parse(u) == Some(r))
    ensures var u := host.handleEscape(s, true);
      StartsWith(u, "{") && EndsWith(u, "}") && host.parse(u).Some? ==> r == host.parse(u).value
  {
    var u := host.handleEscape(s, true);
    if StartsWith(u, "{") && EndsWith(u, "}") && host.parse(u).Some? then host.parse(u).value
    else Str(u)
  }

  /** The normalisation loop: only string values change. */
  function Normalise(host: Host, entries: seq<(string, Value)>): (r: seq<(string, Value)>)
    ensures |r| == |entries|
    ensures Assoc.Keys(r) == Assoc.Keys(entries)
    ensures forall i :: 0 <= i < |entries| && !entries[i].1.Str? ==> r[i] == entries[i]
    ensures forall i :: 0 <= i < |entries| && entries[i].1.Str? ==>
      r[i] == (entries[i].0, NormaliseString(host, entries[i].1.s))
  {
    seq(|entries|, i requires 0 <= i < |entries| =>
      if entries[i].1.Str? then (entries[i].0, NormaliseString(host, entries[i].1.s)) else entries[i])
  }

  /** A variable that holds an object's JSON text is handed to the
      script as that object again, provided the reverse escape handling
      leaves the text alone and it parses back to the object. */
  lemma NormaliseStringifiedObject(host: Host, v: Value)
    requires v.Obj?
    requires var t := host.stringify(v);
      host.handleEscape(t, true) == t && host.parse(t) == Some(v) && StartsWith(t, "{") && EndsWith(t, "}")
    ensures NormaliseString(host, host.stringify(v)) == v
  {
  }

  /** A string that the reverse escape handling leaves alone and that
      does not look like a JSON object is passed through untouched. */
  lemma NormalisePlainString(host: Host, entries: seq<(string, Value)>, i: int)
    requires 0 <= i < |entries| && entries[i].1.Str?
    requires host.handleEscape(entries[i].1.s, true) == entries[i].1.s
    requires !StartsWith(entries[i].1.s, "{") || !EndsWith(entries[i].1.s, "}")
    ensures Normalise(host, entries)[i] == entries[i]
  {
  }

  /** The flow object of this node. */
  function FlowOf(options: RunOptions, input: string): Value {
    Obj([("chatflowId", options.chatflowid), ("sessionId", options.sessionId),
         ("chatId", options.chatId), ("input", Str(input))])
  }

  function BuiltIns(host: Host, input: string, variables: Value, options: RunOptions): seq<(string, Value)> {
    [("input_text", Str(input)), ("vars", host.sandboxVars(variables)), ("flow", FlowOf(options, input))]
  }

  /** `{ input_text, vars, flow, ...inputVars }` */
  function ScriptData(host: Host, input: string, variables: Value, options: RunOptions,
                      entries: seq<(string, Value)>): seq<(string, Value)> {
    Assoc.Spread(BuiltIns(host, input, variables, options), entries)
  }

  /** The variables are spread last: a variable wins over the built-in
      entry of the same name (`input_text`, `vars`, `flow`), and every
      other name keeps its built-in value. The built-in names come first,
      and no name appears twice. */
  lemma ScriptDataOverride(host: Host, input: string, variables: Value, options: RunOptions,
                           entries: seq<(string, Value)>, k: string)
    requires Assoc.WellFormed(entries)
    ensures Assoc.Lookup(ScriptData(host, input, variables, options, entries), k) ==
      if k in Assoc.Keys(entries) then Assoc.Lookup(entries, k)
      else Assoc.Lookup(BuiltIns(host, input, variables, options), k)
    ensures Assoc.WellFormed(ScriptData(host, input, variables, options, entries))
    ensures |ScriptData(host, input, variables, options, entries)| >= 3
    ensures Assoc.Keys(ScriptData(host, input, variables, options, entries))[..3] == ["input_text", "vars", "flow"]
  {
    var b := BuiltIns(host, input, variables, options);
    Assoc.SpreadLookup(b, entries, k);
    assert Assoc.Keys(b) == ["input_text", "vars", "flow"] by {
      assert Assoc.Keys(b) == [b[0].0] + Assoc.Keys(b[1..]);
      assert Assoc.Keys(b[1..]) == [b[1].0] + Assoc.Keys(b[2..]);
    }
    assert Assoc.WellFormed(b);
    Assoc.SpreadKeys(b, entries);
  }

  // ---------------------------------------------------------------------
  // the script text

  /** Up to the literal holding the JSON of the script data. */
  const DataHead: string := "\nimport json\nimport sys\n\n# Load input data\ninput_data = json.loads('''"

  /** From the end of the literal to the binding lines. */
  const DataTailLines: seq<string> := [
    ")",
    "",
    "# Extract variables",
    "input_text = input_data.get('input_text', '')",
    "vars = input_data.get('vars', {})",
    "flow = input_data.get('flow', {})",
    "",
    "# Extract custom input variables",
    ""]

  const DataTail: string := Join(DataTailLines, '\n')

  /** From the binding lines to the body. */
  const FunctionHead: string := "\n\n# User's custom function\ndef custom_function():\n"

  /** After the body: call it and print the result as JSON. */
  const FunctionTailLines: seq<string> := [
    "",
    "",
    "# Execute and return result",
    "try:",
    "    result = custom_function()",
    "    # Convert result to JSON-compatible format",
    "    if result is not None:",
    "        print(json.dumps(result, default=str))",
    "    else:",
    "        print(json.dumps(None))",
    "except Exception as e:",
    "    print(json.dumps({'error': str(e)}), file=sys.stderr)",
    "    sys.exit(1)",
    ""]

  const FunctionTail: string := Join(FunctionTailLines, '\n')

  /** `${key} = input_data.get('${key}', None)` */
  function BindingLine(key: string): string {
    key + " = input_data.get('" + key + "', None)"
  }

  /** A binding line starts with its key and determines it: two keys
      with the same binding line are the same key. */
  lemma BindingLineNamesKey(a: string, b: string)
    ensures StartsWith(BindingLine(a), a + " = input_data.get('")
    ensures BindingLine(a) == BindingLine(b) ==> a == b
  {
    var line := BindingLine(a);
    assert line == (a + " = input_data.get('") + (a + "', None)");
    if BindingLine(a) == BindingLine(b) {
      assert |a| == |b|;
      assert a == BindingLine(a)[..|a|] == BindingLine(b)[..|b|] == b;
    }
  }

  function BindingLines(keys: seq<string>): (lines: seq<string>)
    ensures |lines| == |keys|
    ensures forall i :: 0 <= i < |keys| ==> lines[i] == BindingLine(keys[i])
  {
    seq(|keys|, i requires 0 <= i < |keys| => BindingLine(keys[i]))
  }

  /** The binding block: one line per key, in key order. */
  function BindingBlock(keys: seq<string>): string {
    Join(BindingLines(keys), '\n')
  }

  /** Read line by line, the block is exactly one binding line per
      variable in key order (keys hold no line break). */
  lemma BindingBlockLines(keys: seq<string>)
    requires |keys| >= 1
    requires forall i :: 0 <= i < |keys| ==> '\n' !in keys[i]
    ensures Split(BindingBlock(keys), '\n') == BindingLines(keys)
  {
    var lines := BindingLines(keys);
    forall i | 0 <= i < |lines| ensures '\n' !in lines[i] {
      var k := keys[i];
      assert lines[i] == k + (" = input_data.get('" + k + "', None)");
      assert " = input_data.get('" + k + "', None)" == " = input_data.get('" + (k + "', None)");
      assert '\n' !in " = input_data.get('" && '\n' !in "', None)";
    }
    SplitJoin(lines, '\n');
  }

  const Margin: string := "    "

  function Prefixed(lines: seq<string>): (r: seq<string>)
    ensures |r| == |lines|
    ensures forall i :: 0 <= i < |lines| ==> r[i] == Margin + lines[i]
  {
    seq(|lines|, i requires 0 <= i < |lines| => Margin + lines[i])
  }

  /** The body under `def custom_function():`: every line of the user's
      function gets four spaces in front. */
  function Indent(code: string): string {
    Join(Prefixed(Split(code, '\n')), '\n')
  }

  /** Removing four leading spaces from a line that has them. */
  function Unprefixed(lines: seq<string>): (r: seq<string>)
    ensures |r| == |lines|
    ensures forall i :: 0 <= i < |lines| ==> r[i] == if StartsWith(lines[i], Margin) then lines[i][4..] else lines[i]
  {
    seq(|lines|, i requires 0 <= i < |lines| => if StartsWith(lines[i], Margin) then lines[i][4..] else lines[i])
  }

  function Dedent(text: string): string {
    Join(Unprefixed(Split(text, '\n')), '\n')
  }

  /** Indentation keeps the line count, puts the margin in front of each
      original line, and taking the margin off gives the code back. */
  lemma IndentLines(code: string)
    ensures Split(Indent(code), '\n') == Prefixed(Split(code, '\n'))
    ensures |Split(Indent(code), '\n')| == |Split(code, '\n')|
    ensures Dedent(Indent(code)) == code
  {
    var lines := Split(code, '\n');
    var indented := Prefixed(lines);
    forall i | 0 <= i < |indented| ensures '\n' !in indented[i] {
      assert '\n' !in Margin;
    }
    SplitJoin(indented, '\n');
    assert Unprefixed(indented) == lines by {
      forall i | 0 <= i < |lines| ensures Unprefixed(indented)[i] == lines[i] {
        assert indented[i][..4] == Margin;
        assert indented[i][4..] == lines[i];
      }
    }
    JoinSplit(code, '\n');
  }

  /** The script for the JSON text of the script data, the variable names
      and the user's function body, with the JSON escaped for the
      literal: backslashes doubled, then every `'` preceded by one. */
  function FunctionScript(json: string, keys: seq<string>, code: string): string {
    DataHead + EscapeLiteral(json) + TripleQuote + AfterData(keys, code)
  }

  /** The script after the literal: the bindings and the function. */
  function AfterData(keys: seq<string>, code: string): string {
    DataTail + BindingBlock(keys) + FunctionHead + Indent(code) + FunctionTail
  }

  /** The literal hands `json.loads` the JSON text exactly: no quote in
      it can close the literal early and every backslash reads back as
      itself. */
  lemma ScriptCarriesData(json: string, keys: seq<string>, code: string)
    ensures StartsWith(FunctionScript(json, keys, code), DataHead)
    ensures ReadTripleQuoted(FunctionScript(json, keys, code)[|DataHead|..]) ==
      Some((json, AfterData(keys, code)))
  {
    LiteralAfter(DataHead, json, AfterData(keys, code));
  }

  lemma LiteralAfter(head: string, json: string, rest: string)
    ensures StartsWith(head + EscapeLiteral(json) + TripleQuote + rest, head)
    ensures ReadTripleQuoted((head + EscapeLiteral(json) + TripleQuote + rest)[|head|..]) == Some((json, rest))
  {
    var script := head + EscapeLiteral(json) + TripleQuote + rest;
    assert script == head + (EscapeLiteral(json) + TripleQuote + rest);
    assert script[|head|..] == EscapeLiteral(json) + TripleQuote + rest;
    ReadEscapedLiteral(json, rest);
  }

  // ---------------------------------------------------------------------
  // the process and the result

  const ExitPrefix: string := "Python script execution failed with code "
  const StartPrefix: string := "Failed to start Python process: "

  /** `executePythonScript`: a start failure, a non-zero code (stderr,
      or stdout when stderr is empty) or the trimmed stdout. No timer is
      involved. */
  function SettleFunction(event: ChildEvent, stdout: string, stderr: string): (r: Result<string, string>)
    ensures event.SpawnError? ==> r == Err(StartPrefix + event.message)
    ensures r.Ok? <==> event == Closed(Some(0))
    ensures r.Ok? ==> r.value == Trim(stdout)
  {
    match event
    case SpawnError(message) => Err(StartPrefix + message)
    case Closed(code) =>
      if code != Some(0) then Err(ExitPrefix + CodeText(code) + ": " + (if stderr != "" then stderr else stdout))
      else Ok(Trim(stdout))
  }

  /** A failed exit reports stderr whenever there is any, so stdout then
      plays no part; with an empty stderr it reports stdout instead. */
  lemma SettleFunctionReports(code: Option<int>, stdout: string, stderr: string, otherStdout: string)
    requires code != Some(0)
    ensures stderr != "" ==> SettleFunction(Closed(code), stdout, stderr) == SettleFunction(Closed(code), otherStdout, stderr)
    ensures stderr != "" ==> Contains(SettleFunction(Closed(code), stdout, stderr).error, stderr)
    ensures stderr == "" ==> Contains(SettleFunction(Closed(code), stdout, stderr).error, stdout)
  {
    ContainsSuffix(ExitPrefix + CodeText(code) + ": ", if stderr != "" then stderr else stdout);
  }

  /** The decoded result: a string goes through the forward escape
      handling unless the node is an ending node. */
  function PostProcess(host: Host, v: Value, ending: bool): (r: Value)
    ensures !v.Str? || ending ==> r == v
    ensures v.Str? && !ending ==> r == Str(host.handleEscape(v.s, false))
  {
    if v.Str? && !ending then Str(host.handleEscape(v.s, false)) else v
  }

  /** `(pythonPath as string) || 'python'`; a truthy non-string makes the
      process start throw. */
  function PythonPathOf(inputs: Value): (r: Option<string>)
    ensures !Truthy(Field(inputs, "pythonPath")) ==> r == Some("python")
    ensures Truthy(Field(inputs, "pythonPath")) && Field(inputs, "pythonPath").Str? ==>
      r == Some(Field(inputs, "pythonPath").s)
    ensures Truthy(Field(inputs, "pythonPath")) && !Field(inputs, "pythonPath").Str? ==> r.None?
  {
    var p := Field(inputs, "pythonPath");
    if !Truthy(p) then Some("python") else if p.Str? then Some(p.s) else None
  }

  /** `init`. `variables` is what the variable store returns for the
      node; `event`, `stdout` and `stderr` are how the child process
      ends; `unlinkOk` says whether removing the script works (a failure
      is only logged). Unparsable variables and a function that is not a
      string both throw before the script is written. */
  function Init(host: Host, node: NodeData, input: string, options: RunOptions, variables: Value,
                event: ChildEvent, stdout: string, stderr: string, unlinkOk: bool): (r: (Result<Value, string>, Effects))
    ensures IsEndingNode(node) && !Truthy(options.isRun) ==> r == (Ok(Undefined), NoEffects)
    ensures var vars := VariableEntries(host, Field(node.inputs, "functionInputVariables"));
      !(IsEndingNode(node) && !Truthy(options.isRun)) && vars.Err? ==> r == (Err(vars.error), NoEffects)
    ensures var vars := VariableEntries(host, Field(node.inputs, "functionInputVariables"));
      !(IsEndingNode(node) && !Truthy(options.isRun)) && vars.Ok? && !Field(node.inputs, "pythonFunction").Str? ==>
        r == (Err(TypeErrorMessage), NoEffects)
    ensures r.1.spawned.Some? ==> r.1.wrote.Some? && r.1.fileLeft == !unlinkOk && r.1.sent.None?
    ensures r.0.Ok? && r.1.wrote.Some? ==> event == Closed(Some(0))
  {
    if IsEndingNode(node) && !Truthy(options.isRun) then (Ok(Undefined), NoEffects)
    else
      match VariableEntries(host, Field(node.inputs, "functionInputVariables"))
      case Err(message) => (Err(message), NoEffects)
      case Ok(raw) =>
        var entries := Normalise(host, raw);
        var data := ScriptData(host, input, variables, options, entries);
        var code := Field(node.inputs, "pythonFunction");
        if !code.Str? then (Err(TypeErrorMessage), NoEffects)
        else
          var script := FunctionScript(host.stringify(Obj(data)), Assoc.Keys(entries), code.s);
          match PythonPathOf(node.inputs)
          case None => (Err(TypeErrorMessage), Effects(Some(script), None, None, !unlinkOk))
          case Some(path) =>
            var effects := Effects(Some(script), Some(path), None, !unlinkOk);
            match SettleFunction(event, stdout, stderr)
            case Err(message) => (Err(message), effects)
            case Ok(out) => (Ok(PostProcess(host, DecodeOrRaw(host, out), IsEndingNode(node))), effects)
  }

  /** Removing the script file is best effort on both paths: its outcome
      changes nothing but whether the file is left behind, and once a
      script is written it is removed whether the run succeeds or not. */
  lemma InitCleanup(host: Host, node: NodeData, input: string, options: RunOptions, variables: Value,
                    event: ChildEvent, stdout: string, stderr: string)
    ensures Init(host, node, input, options, variables, event, stdout, stderr, true).0
         == Init(host, node, input, options, variables, event, stdout, stderr, false).0
    ensures Init(host, node, input, options, variables, event, stdout, stderr, true).1.wrote.Some? ==>
      !Init(host, node, input, options, variables, event, stdout, stderr, true).1.fileLeft
  {
  }

  /** The script `init` writes: its literal reads back as the JSON text
      of the built-ins overlaid with the normalised variables, and what
      follows the literal binds those variables by name, in order, before
      the body of the function. */
  lemma InitWritesScript(host: Host, node: NodeData, input: string, options: RunOptions, variables: Value,
                         event: ChildEvent, stdout: string, stderr: string, unlinkOk: bool,
                         raw: seq<(string, Value)>)
    requires !(IsEndingNode(node) && !Truthy(options.isRun))
    requires VariableEntries(host, Field(node.inputs, "functionInputVariables")) == Ok(raw)
    requires Field(node.inputs, "pythonFunction").Str?
    ensures var w := Init(host, node, input, options, variables, event, stdout, stderr, unlinkOk).1.wrote;
      w.Some? && StartsWith(w.value, DataHead) &&
      ReadTripleQuoted(w.value[|DataHead|..]) ==
        Some((host.stringify(Obj(ScriptData(host, input, variables, options, Normalise(host, raw)))),
              AfterData(Assoc.Keys(raw), Field(node.inputs, "pythonFunction").s)))
  {
    var entries := Normalise(host, raw);
    var json := host.stringify(Obj(ScriptData(host, input, variables, options, entries)));
    InitWrites(host, node, input, options, variables, event, stdout, stderr, unlinkOk, raw);
    ScriptCarriesData(json, Assoc.Keys(raw), Field(node.inputs, "pythonFunction").s);
  }

  lemma InitWrites(host: Host, node: NodeData, input: string, options: RunOptions, variables: Value,
                   event: ChildEvent, stdout: string, stderr: string, unlinkOk: bool,
                   raw: seq<(string, Value)>)
    requires !(IsEndingNode(node) && !Truthy(options.isRun))
    requires VariableEntries(host, Field(node.inputs, "functionInputVariables")) == Ok(raw)
    requires Field(node.inputs, "pythonFunction").Str?
    ensures Init(host, node, input, options, variables, event, stdout, stderr, unlinkOk).1.wrote ==
      Some(FunctionScript(host.stringify(Obj(ScriptData(host, input, variables, options, Normalise(host, raw)))),
                          Assoc.Keys(raw), Field(node.inputs, "pythonFunction").s))
  {
    var entries := Normalise(host, raw);
    assert Assoc.Keys(entries) == Assoc.Keys(raw);
    var code := Field(node.inputs, "pythonFunction");
    var script := FunctionScript(host.stringify(Obj(ScriptData(host, input, variables, options, entries))),
                                 Assoc.Keys(entries), code.s);
    var r := Init(host, node, input, options, variables, event, stdout, stderr, unlinkOk);
    if PythonPathOf(node.inputs).None? {
      assert r.1 == Effects(Some(script), None, None, !unlinkOk);
    } else {
      assert r.1 == Effects(Some(script), PythonPathOf(node.inputs), None, !unlinkOk);
    }
  }

  /** A successful run of a non-ending node on a clean exit returns the
      decoded output, a string after the forward escape handling. */
  lemma InitSuccess(host: Host, node: NodeData, input: string, options: RunOptions, variables: Value,
                    stdout: string, unlinkOk: bool)
    requires !IsEndingNode(node)
    requires VariableEntries(host, Field(node.inputs, "functionInputVariables")).Ok?
    requires Field(node.inputs, "pythonFunction").Str?
    requires PythonPathOf(node.inputs).Some?
    ensures Init(host, node, input, options, variables, Closed(Some(0)), stdout, "", unlinkOk).0 ==
      Ok(PostProcess(host, DecodeOrRaw(host, Trim(stdout)), false))
  {
  }
}

=== FILE: js.dfy ===
/** JavaScript values as the bridge sees them, their truthiness, the
    operators `??`, `||` and `?.`, object spread, and the helpers the
    bridge calls without this model seeing their code. */
module Js {
  import opened Wrappers
  import opened Text
  import Assoc

  /** A JSON-like JavaScript value. Numbers are integers; an object is
      its own properties in insertion order. */
  datatype Value =
    | Undefined
    | Null
    | Bool(b: bool)
    | Num(n: int)
    | Str(s: string)
    | Arr(items: seq<Value>)
    | Obj(fields: seq<(string, Value)>)

  predicate Truthy(v: Value) {
    match v
    case Undefined => false
    case Null => false
    case Bool(b) => b
    case Num(n) => n != 0
    case Str(s) => s != ""
    case Arr(_) => true
    case Obj(_) => true
  }

  predicate Nullish(v: Value) {
    v.Undefined? || v.Null?
  }

  /** `a ?? b` */
  function Coalesce(a: Value, b: Value): Value {
    if Nullish(a) then b else a
  }

  /** `a || b` */
  function Or(a: Value, b: Value): Value {
    if Truthy(a) then a else b
  }

  /** `v?.[k]`: the property `k` of an object, `undefined` otherwise. */
  function Field(v: Value, k: string): Value {
    if v.Obj? then
      match Assoc.Lookup(v.fields, k)
      case Some(x) => x
      case None => Undefined
    else Undefined
  }

  /** Entries keyed by index, as arrays and strings expose them. */
  function IndexFields(items: seq<Value>): (f: seq<(string, Value)>)
    ensures |f| == |items|
    ensures forall i :: 0 <= i < |items| ==> f[i] == (IntText(i), items[i])
  {
    seq(|items|, i requires 0 <= i < |items| => (IntText(i), items[i]))
  }

  /** The own enumerable properties `{ ...v }` copies: an object's fields,
      the indexed elements of an array or the characters of a string, and
      nothing for any other value. */
  function SpreadFields(v: Value): seq<(string, Value)> {
    match v
    case Obj(fields) => fields
    case Arr(items) => IndexFields(items)
    case Str(s) => IndexFields(seq(|s|, i requires 0 <= i < |s| => Str([s[i]])))
    case _ => []
  }

  /** `String(v)`: an array is its elements' texts joined by commas,
      `null` and `undefined` elements counting as empty, and any other
      object is `"[object Object]"`. */
  function ToText(v: Value): string
    decreases v
  {
    match v
    case Str(s) => s
    case Num(n) => IntText(n)
    case Bool(b) => if b then "true" else "false"
    case Null => "null"
    case Undefined => "undefined"
    case Obj(_) => ObjectText
    case Arr(items) =>
      Join(seq(|items|, i requires 0 <= i < |items| => if Nullish(items[i]) then "" else ToText(items[i])), ',')
  }

  const ObjectText: string := "[object Object]"

  /** A one-element array reads as its element, so `String(["toString"])`
      is `"toString"`; an empty array is the empty text. */
  lemma ArrayText(x: Value)
    ensures ToText(Arr([])) == ""
    ensures ToText(Arr([x])) == if Nullish(x) then "" else ToText(x)
  {
    var parts := seq(1, i requires 0 <= i < 1 => if Nullish([x][i]) then "" else ToText([x][i]));
    assert parts == [if Nullish(x) then "" else ToText(x)];
  }

  /** The helpers outside the bridge, taken as given functions. */
  datatype Host = Host(
    /** `JSON.parse`; `None` when it throws */
    parse: string -> Option<Value>,
    /** the text of the exception `JSON.parse` throws on this input */
    parseError: string -> string,
    /** `JSON.stringify` */
    stringify: Value -> string,
    /** the child interpreter's `json.load`; `None` when it raises */
    pyLoad: string -> Option<Value>,
    /** the child interpreter's `json.dumps(value, default=str)` */
    pyDumps: Value -> string,
    /** `handleEscapeCharacters(text, reverse)`: the forward (`false`) and
        reverse (`true`) escape handling, given as one function */
    handleEscape: (string, bool) -> string,
    /** `prepareSandboxVars(variables)` */
    sandboxVars: Value -> Value)

  /** The decode step both strategies share: JSON when the text parses,
      the raw text otherwise. It never fails. */
  function DecodeOrRaw(host: Host, text: string): (r: Value)
    ensures host.parse(text).None? ==> r == Str(text)
    ensures host.parse(text).Some? ==> r == host.parse(text).value
  {
    match host.parse(text)
    case Some(v) => v
    case None => Str(text)
  }

  /** Decoding gives back a stringified value whenever the host's parser
      reads that text back to it, and unparsable text comes back as the
      same text. This is thin: the parser and `JSON.stringify` are not
      modelled, so the round trip is assumed of them rather than proved,
      and the second clause repeats what `DecodeOrRaw` promises. */
  lemma DecodeOrRawRoundTrip(host: Host, v: Value)
    requires host.parse(host.stringify(v)) == Some(v)
    ensures DecodeOrRaw(host, host.stringify(v)) == v
    ensures forall t :: host.parse(t).None? ==> ToText(DecodeOrRaw(host, t)) == t
  {
  }
}

=== FILE: nodes_service.dfy ===
/** The server's node service: catalog lookups over the registry of
    component nodes, and the custom-function endpoint that extracts
    `$name` variables, decides between the Python and the JavaScript
    custom-function node, and builds the Python node's inputs. Every
    failure leaves the service as an internal server error. */
module NodesService {
  import opened Wrappers
  import opened Text
  import opened Js
  import Assoc
  import FunctionNode
  import opened Process

  // ---------------------------------------------------------------------
  // the registry and its errors

  /** A component node as the catalog sees it. `loadMethods` is absent
      when the node declares none; a method maps the request body to its
      options or fails. `instance` is the node object itself as the
      response would serialise it. */
  datatype Node = Node(
    name: string,
    category: string,
    icon: Option<string>,
    loadMethods: Option<Assoc.Assoc<Value -> Result<Value, string>>>,
    instance: Value)

  /** The registry, keyed by node name in enumeration order. */
  type Registry = Assoc.Assoc<Node>

  const NotFound: int := 404
  const InternalServerError: int := 500

  datatype ServiceError = ServiceError(status: int, message: string)

  const ServicePrefix: string := "Error: nodesService."

  /** The outer `catch` of every operation: whatever was thrown comes out
      as a 500 carrying the operation's prefix and the inner message. */
  function Rewrap(operation: string, inner: ServiceError): (e: ServiceError)
    ensures e.status == InternalServerError
    ensures StartsWith(e.message, ServicePrefix) && EndsWith(e.message, inner.message)
  {
    var m := ServicePrefix + operation + " - " + inner.message;
    assert m[..|ServicePrefix|] == ServicePrefix;
    assert m[|m| - |inner.message|..] == inner.message;
    ServiceError(InternalServerError, m)
  }

  function NodeNotFound(name: string): ServiceError {
    ServiceError(NotFound, "Node " + name + " not found")
  }

  // ---------------------------------------------------------------------
  // catalog

  /** `getAllNodes`: every registered node, in registry order. */
  function GetAllNodes(registry: Registry): (r: seq<Node>)
    ensures |r| == |registry|
    ensures forall i :: 0 <= i < |registry| ==> r[i] == registry[i].1
  {
    seq(|registry|, i requires 0 <= i < |registry| => registry[i].1)
  }

  /** `getAllNodesForCategory`: the nodes of one category, in registry
      order. */
  function GetAllNodesForCategory(registry: Registry, category: string): (r: seq<Node>)
    ensures forall n :: n in r ==> n.category == category
    ensures forall i :: 0 <= i < |registry| && registry[i].1.category == category ==> registry[i].1 in r
    ensures |r| <= |registry|
  {
    if |registry| == 0 then []
    else
      var rest := GetAllNodesForCategory(registry[1..], category);
      assert forall i :: 1 <= i < |registry| ==> registry[i] == registry[1..][i - 1];
      if registry[0].1.category == category then [registry[0].1] + rest else rest
  }

  /** The filter keeps registry order: filtering a registry made of two
      parts is filtering each part in turn. */
  lemma {:induction false} CategoryFilterOrder(a: Registry, b: Registry, category: string)
    ensures GetAllNodesForCategory(a + b, category) ==
      GetAllNodesForCategory(a, category) + GetAllNodesForCategory(b, category)
  {
    if |a| > 0 {
      assert (a + b)[1..] == a[1..] + b;
      CategoryFilterOrder(a[1..], b, category);
    } else {
      assert a + b == b;
    }
  }

  /** Filtering by category keeps exactly the nodes of that category out
      of all nodes: nothing from another category, nothing dropped. */
  lemma CategoryFilterIsAllNodesOfCategory(registry: Registry, category: string, n: Node)
    ensures n in GetAllNodesForCategory(registry, category) <==> n in GetAllNodes(registry) && n.category == category
  {
    if n in GetAllNodes(registry) && n.category == category {
      var i :| 0 <= i < |registry| && GetAllNodes(registry)[i] == n;
    }
    if n in GetAllNodesForCategory(registry, category) {
      FilteredFromRegistry(registry, category, n);
    }
  }

  lemma {:induction false} FilteredFromRegistry(registry: Registry, category: string, n: Node)
    requires n in GetAllNodesForCategory(registry, category)
    ensures exists i :: 0 <= i < |registry| && registry[i].1 == n
  {
    if |registry| > 0 {
      if n == registry[0].1 {
        assert registry[0].1 == n;
      } else {
        FilteredFromRegistry(registry[1..], category, n);
        var i :| 0 <= i < |registry[1..]| && registry[1..][i].1 == n;
        assert registry[i + 1].1 == n;
      }
    }
  }

  /** `getNodeByName`. The not-found error is rewrapped under the prefix
      `getAllNodes`, as the source writes it. */
  function GetNodeByName(registry: Registry, name: string): (r: Result<Node, ServiceError>)
    ensures r.Ok? <==> name in Assoc.Keys(registry)
    ensures r.Ok? ==> Some(r.value) == Assoc.Lookup(registry, name)
  {
    match Assoc.Lookup(registry, name)
    case Some(node) => Ok(node)
    case None => Err(Rewrap("getAllNodes", NodeNotFound(name)))
  }

  predicate ImageFile(icon: string) {
    EndsWith(icon, ".svg") || EndsWith(icon, ".png") || EndsWith(icon, ".jpg")
  }

  /** `getSingleNodeIcon`: the icon path of a registered node whose icon
      is set and is an `.svg`, `.png` or `.jpg` file. */
  function GetSingleNodeIcon(registry: Registry, name: string): (r: Result<string, ServiceError>)
    ensures r.Ok? <==> name in Assoc.Keys(registry)
                       && Assoc.Lookup(registry, name).value.icon.Some?
                       && ImageFile(Assoc.Lookup(registry, name).value.icon.value)
    ensures r.Ok? ==> r.value == Assoc.Lookup(registry, name).value.icon.value
  {
    match Assoc.Lookup(registry, name)
    case None => Err(Rewrap("getSingleNodeIcon", NodeNotFound(name)))
    case Some(node) =>
      match node.icon
      case None => Err(Rewrap("getSingleNodeIcon", ServiceError(NotFound, "Node " + name + " icon not found")))
      case Some(icon) =>
        if ImageFile(icon) then Ok(icon)
        else Err(Rewrap("getSingleNodeIcon", ServiceError(InternalServerError, "Node " + name + " icon is missing icon")))
  }

  /** `loadMethods[name]` on the node's object of methods, failing when
      there is no such object. A name the node does not declare is looked
      up on `Object.prototype`, which the object inherits from. */
  function LoadMethod(node: Node, methodName: string): (r: Option<Value -> Result<Value, string>>)
    ensures node.loadMethods.None? ==> r.None?
    ensures node.loadMethods.Some? && methodName in Assoc.Keys(node.loadMethods.value) ==>
      r == Assoc.Lookup(node.loadMethods.value, methodName)
  {
    match node.loadMethods
    case None => None
    case Some(methods) =>
      match Assoc.Lookup(methods, methodName)
      case Some(load) => Some(load)
      case None => Inherited(node, methodName)
  }

  /** The members of `Object.prototype` that can be called, and what
      each gives when called with the node as `this` and the body as its
      argument: `Object(body)` is the body itself, `toString` and
      `toLocaleString` give `"[object Object]"`, `valueOf` the node, the
      three property tests `false`, the getter and setter lookups
      `undefined`; defining a getter or setter throws, as the second
      argument is not a function. `__proto__` and every other name find
      nothing callable. */
  function Inherited(node: Node, methodName: string): Option<Value -> Result<Value, string>> {
    if methodName == "constructor" then Some(body => Ok(body))
    else if methodName == "toString" || methodName == "toLocaleString" then Some(_ => Ok(Str(ObjectText)))
    else if methodName == "valueOf" then Some(_ => Ok(node.instance))
    else if methodName == "hasOwnProperty" || methodName == "isPrototypeOf" || methodName == "propertyIsEnumerable"
    then Some(_ => Ok(Bool(false)))
    else if methodName == "__lookupGetter__" || methodName == "__lookupSetter__" then Some(_ => Ok(Undefined))
    else if methodName == "__defineGetter__" || methodName == "__defineSetter__" then Some(_ => Err(TypeErrorText))
    else None
  }

  const TypeErrorText: string := "TypeError"

  /** The method name the body selects: `loadMethod || ''`. */
  function MethodName(body: Value): string {
    ToText(Or(Field(body, "loadMethod"), Str("")))
  }

  /** `getSingleNodeAsyncOptions`: run the load method the body names
      (`loadMethod || ''`) on the body. Any failure inside, a missing
      method included, yields no options; only an unknown node is an
      error. */
  function GetSingleNodeAsyncOptions(registry: Registry, name: string, body: Value): (r: Result<Value, ServiceError>)
    ensures r.Err? <==> name !in Assoc.Keys(registry)
    ensures (name in Assoc.Keys(registry) && !Nullish(body) &&
             LoadMethod(Assoc.Lookup(registry, name).value, MethodName(body)).Some? &&
             LoadMethod(Assoc.Lookup(registry, name).value, MethodName(body)).value(body).Ok?) ==>
      r == Ok(LoadMethod(Assoc.Lookup(registry, name).value, MethodName(body)).value(body).value)
  {
    match Assoc.Lookup(registry, name)
    case None => Err(Rewrap("getSingleNodeAsyncOptions", NodeNotFound(name)))
    case Some(node) =>
      if body.Undefined? || body.Null? then Ok(Arr([]))
      else
        match LoadMethod(node, MethodName(body))
        case None => Ok(Arr([]))
        case Some(load) =>
          match load(body)
          case Ok(options) => Ok(options)
          case Err(_) => Ok(Arr([]))
  }

  /** The name is `String` of the value the body gives: a one-element
      array names its element, an object names `"[object Object]"`, and a
      body without a truthy `loadMethod` names nothing. */
  lemma MethodNameConverts(body: Value, m: string)
    ensures Field(body, "loadMethod") == Arr([Str(m)]) ==> MethodName(body) == m
    ensures Field(body, "loadMethod").Obj? ==> MethodName(body) == ObjectText
    ensures !Truthy(Field(body, "loadMethod")) ==> MethodName(body) == ""
  {
    ArrayText(Str(m));
  }

  /** `loadMethod: ["toString"]` on a node that does not declare
      `toString` selects the inherited one and answers
      `"[object Object]"`. */
  lemma AsyncOptionsArrayName(registry: Registry, name: string, body: Value)
    requires name in Assoc.Keys(registry)
    requires body.Obj? && Field(body, "loadMethod") == Arr([Str("toString")])
    requires var node := Assoc.Lookup(registry, name).value;
      node.loadMethods.Some? && "toString" !in Assoc.Keys(node.loadMethods.value)
    ensures GetSingleNodeAsyncOptions(registry, name, body) == Ok(Str(ObjectText))
  {
    MethodNameConverts(body, "toString");
  }

  /** A failing or missing load method gives an empty option list. */
  lemma AsyncOptionsFailure(registry: Registry, name: string, body: Value)
    requires name in Assoc.Keys(registry)
    requires body.Obj?
    requires var m := LoadMethod(Assoc.Lookup(registry, name).value, MethodName(body));
      m.None? || m.value(body).Err?
    ensures GetSingleNodeAsyncOptions(registry, name, body) == Ok(Arr([]))
  {
  }

  /** The node `getNodeByName` finds answers the request with the options
      its declared method returns for the body. */
  lemma AsyncOptionsFromDeclaredMethod(registry: Registry, name: string, body: Value, node: Node,
                                       load: Value -> Result<Value, string>, options: Value)
    requires GetNodeByName(registry, name) == Ok(node)
    requires body.Obj? && node.loadMethods.Some?
    requires Assoc.Lookup(node.loadMethods.value, MethodName(body)) == Some(load)
    requires load(body) == Ok(options)
    ensures GetSingleNodeAsyncOptions(registry, name, body) == Ok(options)
  {
  }

  /** A name the node does not declare can still select a member every
      object inherits: `toString` answers `"[object Object]"`, `valueOf`
      the node itself and `constructor` the body, while a node without
      methods always answers with no options. */
  lemma AsyncOptionsInherited(registry: Registry, name: string, body: Value)
    requires name in Assoc.Keys(registry)
    requires body.Obj?
    ensures var node := Assoc.Lookup(registry, name).value;
      node.loadMethods.Some? && MethodName(body) !in Assoc.Keys(node.loadMethods.value) ==>
        (MethodName(body) == "toString" ==> GetSingleNodeAsyncOptions(registry, name, body) == Ok(Str("[object Object]")))
        && (MethodName(body) == "valueOf" ==> GetSingleNodeAsyncOptions(registry, name, body) == Ok(node.instance))
        && (MethodName(body) == "constructor" ==> GetSingleNodeAsyncOptions(registry, name, body) == Ok(body))
        && (MethodName(body) == "" ==> GetSingleNodeAsyncOptions(registry, name, body) == Ok(Arr([])))
    ensures Assoc.Lookup(registry, name).value.loadMethods.None? ==>
      GetSingleNodeAsyncOptions(registry, name, body) == Ok(Arr([]))
  {
  }

  // ---------------------------------------------------------------------
  // `$name` variables of the custom-function endpoint

  /** The length of the run of word characters starting at `i`. */
  function WordRun(s: string, i: nat): (n: nat)
    requires i <= |s|
    ensures i + n <= |s|
    ensures forall k :: i <= k < i + n ==> IsWordChar(s[k])
    ensures i + n == |s| || !IsWordChar(s[i + n])
    decreases |s| - i
  {
    if i < |s| && IsWordChar(s[i]) then 1 + WordRun(s, i + 1) else 0
  }

  /** A match of `\$([a-zA-Z0-9_]+)` starts at `i`. */
  predicate TokenAt(s: string, i: int) {
    0 <= i && i + 1 < |s| && s[i] == '$' && IsWordChar(s[i + 1])
  }

  /** The captured name of the match at `i`: the whole word run. */
  function TokenName(s: string, i: int): string
    requires TokenAt(s, i)
  {
    s[i + 1..i + 1 + WordRun(s, i + 1)]
  }

  /** `matchAll` from position `i`, left to right: the captured names in
      order, repeats included. */
  function TokensFrom(s: string, i: nat): seq<string>
    requires i <= |s|
    decreases |s| - i
  {
    if i == |s| then []
    else if TokenAt(s, i) then
      var n := WordRun(s, i + 1);
      [TokenName(s, i)] + TokensFrom(s, i + 1 + n)
    else TokensFrom(s, i + 1)
  }

  /** The names found are exactly the names of the `$` positions that
      start a match; since a name never contains `$`, no match hides
      another. */
  lemma {:induction false} TokensFromNames(s: string, i: nat, name: string)
    requires i <= |s|
    ensures name in TokensFrom(s, i) <==> exists j :: i <= j && TokenAt(s, j) && TokenName(s, j) == name
    decreases |s| - i
  {
    if i < |s| {
      if TokenAt(s, i) {
        var n := WordRun(s, i + 1);
        TokensFromNames(s, i + 1 + n, name);
        forall j | i < j < i + 1 + n ensures !TokenAt(s, j) {
          assert IsWordChar(s[j]);
        }
        if name == TokenName(s, i) {
          assert TokenAt(s, i);
        }
      } else {
        TokensFromNames(s, i + 1, name);
      }
    }
  }

  /** `Object.fromEntries(names.map(n => [n, undefined]))`: one entry per
      distinct name, at its first occurrence. */
  function Undefineds(names: seq<string>): Assoc.Assoc<Value>
    decreases |names|
  {
    if |names| == 0 then []
    else Assoc.Put(Undefineds(names[..|names| - 1]), names[|names| - 1], Undefined)
  }

  /** No name twice, exactly the names given, all `undefined`. */
  lemma UndefinedsSpec(names: seq<string>)
    ensures Assoc.WellFormed(Undefineds(names))
    ensures forall k :: k in Assoc.Keys(Undefineds(names)) <==> k in names
    ensures forall i :: 0 <= i < |Undefineds(names)| ==> Undefineds(names)[i].1 == Undefined
  {
    UndefinedsWellFormed(names);
    UndefinedsKeys(names);
    UndefinedsValues(names);
  }

  lemma {:induction false} UndefinedsWellFormed(names: seq<string>)
    ensures Assoc.WellFormed(Undefineds(names))
    decreases |names|
  {
    if |names| > 0 {
      UndefinedsWellFormed(names[..|names| - 1]);
      Assoc.PutWellFormed(Undefineds(names[..|names| - 1]), names[|names| - 1], Undefined);
    }
  }

  lemma {:induction false} UndefinedsKeys(names: seq<string>)
    ensures forall k :: k in Assoc.Keys(Undefineds(names)) <==> k in names
    decreases |names|
  {
    if |names| > 0 {
      var init := names[..|names| - 1];
      var last := names[|names| - 1];
      UndefinedsKeys(init);
      assert names == init + [last];
      assert forall k :: k in names <==> k in init || k == last;
    }
  }

  lemma {:induction false} UndefinedsValues(names: seq<string>)
    ensures forall i :: 0 <= i < |Undefineds(names)| ==> Undefineds(names)[i].1 == Undefined
    decreases |names|
  {
    if |names| > 0 {
      UndefinedsValues(names[..|names| - 1]);
      PutKeepsUndefined(Undefineds(names[..|names| - 1]), names[|names| - 1]);
    }
  }

  lemma {:induction false} PutKeepsUndefined(m: Assoc.Assoc<Value>, k: string)
    requires forall i :: 0 <= i < |m| ==> m[i].1 == Undefined
    ensures forall i :: 0 <= i < |Assoc.Put(m, k, Undefined)| ==> Assoc.Put(m, k, Undefined)[i].1 == Undefined
  {
    if |m| > 0 && m[0].0 != k {
      PutKeepsUndefined(m[1..], k);
    }
  }

  predicate MentionsVars(key: string) {
    Contains(key, "vars")
  }

  /** The JavaScript node's input variables: one `undefined` entry per
      distinct `$name` in the code, minus every name containing `vars`. */
  function ExtractedVariables(code: string): (r: Assoc.Assoc<Value>)
    ensures Assoc.WellFormed(r)
    ensures forall k :: k in Assoc.Keys(r) ==> !MentionsVars(k)
  {
    var all := Undefineds(TokensFrom(code, 0));
    UndefinedsSpec(TokensFrom(code, 0));
    RemovePreservesWellFormed(all, MentionsVars);
    Assoc.RemoveKeysWhere(all, MentionsVars)
  }

  lemma {:induction false} RemovePreservesWellFormed(m: Assoc.Assoc<Value>, drop: string -> bool)
    requires Assoc.WellFormed(m)
    ensures Assoc.WellFormed(Assoc.RemoveKeysWhere(m, drop))
  {
    if |m| > 0 {
      assert Assoc.Keys(m) == [m[0].0] + Assoc.Keys(m[1..]);
      assert Assoc.WellFormed(m[1..]) by {
        forall i, j | 0 <= i < j < |m[1..]|
          ensures Assoc.Keys(m[1..])[i] != Assoc.Keys(m[1..])[j]
        {
          assert Assoc.Keys(m[1..])[i] == Assoc.Keys(m)[i + 1];
          assert Assoc.Keys(m[1..])[j] == Assoc.Keys(m)[j + 1];
        }
      }
      RemovePreservesWellFormed(m[1..], drop);
      var rest := Assoc.RemoveKeysWhere(m[1..], drop);
      if !drop(m[0].0) {
        assert m[0].0 !in Assoc.Keys(m[1..]) by {
          forall j | 0 <= j < |m[1..]| ensures Assoc.Keys(m[1..])[j] != m[0].0 {
            assert Assoc.Keys(m[1..])[j] == Assoc.Keys(m)[j + 1];
          }
        }
        assert Assoc.Keys([m[0]] + rest) == [m[0].0] + Assoc.Keys(rest);
      }
    }
  }

  /** A name is kept exactly when some `$` in the code introduces it and
      it does not contain `vars`; every kept name maps to `undefined`. */
  lemma ExtractedVariablesNames(code: string, name: string)
    ensures name in Assoc.Keys(ExtractedVariables(code)) <==>
      !MentionsVars(name) && exists j :: 0 <= j && TokenAt(code, j) && TokenName(code, j) == name
    ensures name in Assoc.Keys(ExtractedVariables(code)) ==> Assoc.Lookup(ExtractedVariables(code), name) == Some(Undefined)
  {
    TokensFromNames(code, 0, name);
    UndefinedsSpec(TokensFrom(code, 0));
    var all := Undefineds(TokensFrom(code, 0));
    if name in Assoc.Keys(ExtractedVariables(code)) {
      assert Assoc.Lookup(ExtractedVariables(code), name) == Assoc.Lookup(all, name);
      LookupUndefined(all, name);
    }
  }

  lemma {:induction false} LookupUndefined(m: Assoc.Assoc<Value>, k: string)
    requires forall i :: 0 <= i < |m| ==> m[i].1 == Undefined
    requires k in Assoc.Keys(m)
    ensures Assoc.Lookup(m, k) == Some(Undefined)
  {
    assert Assoc.Keys(m) == [m[0].0] + Assoc.Keys(m[1..]);
    if m[0].0 != k {
      LookupUndefined(m[1..], k);
    }
  }

  /** No code (`javascriptFunction ?? ''`) means no variables. */
  lemma NoCodeNoVariables()
    ensures ExtractedVariables("") == []
  {
  }

  // ---------------------------------------------------------------------
  // the Python heuristic

  /** `\bw\b` at `i` for a word `w` of word characters. */
  predicate WordAt(s: string, i: int, w: string) {
    OccursAt(s, w, i) && (i == 0 || !IsWordChar(s[i - 1])) && (i + |w| == |s| || !IsWordChar(s[i + |w|]))
  }

  /** `\bprint\(` at `i`. */
  predicate PrintAt(s: string, i: int) {
    OccursAt(s, "print(", i) && (i == 0 || !IsWordChar(s[i - 1]))
  }

  predicate PythonMarkAt(s: string, i: int) {
    WordAt(s, i, "def") || WordAt(s, i, "import") || PrintAt(s, i)
  }

  /** `looksLikePython`: a non-empty string with `def` or `import` as a
      word, or `print(` after a word boundary, somewhere in it. */
  predicate LooksLikePython(code: Value) {
    code.Str? && code.s != "" && exists i :: 0 <= i < |code.s| && PythonMarkAt(code.s, i)
  }

  /** The regular-expression test as a left-to-right scan. */
  method ScanLooksLikePython(code: Value) returns (found: bool)
    ensures found == LooksLikePython(code)
  {
    if !code.Str? || code.s == "" {
      return false;
    }
    var s := code.s;
    var i := 0;
    found := false;
    while i < |s| && !found
      invariant 0 <= i <= |s|
      invariant !found ==> forall j :: 0 <= j < i ==> !PythonMarkAt(s, j)
      invariant found ==> PythonMarkAt(s, i - 1) && 0 < i
      decreases |s| - i, !found
    {
      if PythonMarkAt(s, i) {
        found := true;
      }
      i := i + 1;
    }
  }

  // ---------------------------------------------------------------------
  // routing and the Python node's inputs

  const PythonNodeName: string := "customPythonFunction"
  const JsNodeName: string := "customFunction"

  datatype Route = PythonNode | JsNode | NoNode

  predicate PrefersPython(body: Value) {
    Truthy(Field(body, "pythonFunction")) || LooksLikePython(Field(body, "javascriptFunction"))
  }

  function ChooseRoute(registry: Registry, body: Value): Route {
    if PrefersPython(body) && PythonNodeName in Assoc.Keys(registry) then PythonNode
    else if JsNodeName in Assoc.Keys(registry) then JsNode
    else NoNode
  }


  /** `pythonFunction ?? javascriptFunction`: an empty `pythonFunction`
      still wins; only `null` or `undefined` falls back. */
  function PythonCode(body: Value): (r: Value)
    ensures !Nullish(Field(body, "pythonFunction")) ==> r == Field(body, "pythonFunction")
    ensures Nullish(Field(body, "pythonFunction")) ==> r == Field(body, "javascriptFunction")
  {
    Coalesce(Field(body, "pythonFunction"), Field(body, "javascriptFunction"))
  }

  /** The fixed entries of the Python node's inputs. */
  function PythonEntries(body: Value): seq<(string, Value)> {
    [("pythonFunction", PythonCode(body)), ("pythonPath", Field(body, "pythonPath")),
     ("functionName", Field(body, "functionName"))]
  }

  /** `body.functionInputVariables ?? {}` */
  function BodyVariables(body: Value): Value {
    Coalesce(Field(body, "functionInputVariables"), Obj([]))
  }

  /** `{ ...variables, pythonFunction, pythonPath, functionName }`: as the
      source builds the Python node's inputs, the variables are spread in
      at the top level. */
  function PyNodeInputs(body: Value): seq<(string, Value)> {
    Assoc.Spread(SpreadFields(BodyVariables(body)), PythonEntries(body))
  }

  /** The three fixed entries win over variables of the same name. */
  lemma PyNodeInputsOverride(body: Value, k: string)
    ensures k in ["pythonFunction", "pythonPath", "functionName"] ==>
      Assoc.Lookup(PyNodeInputs(body), k) == Assoc.Lookup(PythonEntries(body), k)
    ensures k !in ["pythonFunction", "pythonPath", "functionName"] ==>
      Assoc.Lookup(PyNodeInputs(body), k) == Assoc.Lookup(SpreadFields(BodyVariables(body)), k)
  {
    var e := PythonEntries(body);
    assert Assoc.Keys(e) == ["pythonFunction", "pythonPath", "functionName"] by {
      assert Assoc.Keys(e) == [e[0].0] + Assoc.Keys(e[1..]);
      assert Assoc.Keys(e[1..]) == [e[1].0] + Assoc.Keys(e[2..]);
    }
    Assoc.SpreadLookup(SpreadFields(BodyVariables(body)), e, k);
  }

  /** But the Python node reads its variables from the single input
      `functionInputVariables`: spread at the top level they never reach
      it. With `{ pythonFunction: "return a", functionInputVariables:
      { a: 1 } }` the node sees no variable at all. */
  lemma SpreadVariablesAreLost(host: Host, body: Value)
    requires "functionInputVariables" !in Assoc.Keys(SpreadFields(BodyVariables(body)))
    ensures FunctionNode.VariableEntries(host, Field(Obj(PyNodeInputs(body)), "functionInputVariables")) == Ok([])
  {
    InputsLackVariables(body);
  }

  lemma InputsLackVariables(body: Value)
    requires "functionInputVariables" !in Assoc.Keys(SpreadFields(BodyVariables(body)))
    ensures Assoc.Lookup(PyNodeInputs(body), "functionInputVariables") == None
  {
    var name := "functionInputVariables";
    assert name !in ["pythonFunction", "pythonPath", "functionName"] by {
      assert |name| == 22;
    }
    PyNodeInputsOverride(body, name);
  }

  /** An array or a string as the variables spreads into entries keyed by
      index, and a decimal index is never `functionInputVariables`: the
      node sees no variable, and `functionInputVariables: "x"` runs the
      code rather than failing to parse `x`. */
  lemma IndexedVariablesAreLost(host: Host, body: Value)
    requires BodyVariables(body).Arr? || BodyVariables(body).Str?
    ensures "functionInputVariables" !in Assoc.Keys(SpreadFields(BodyVariables(body)))
    ensures FunctionNode.VariableEntries(host, Field(Obj(PyNodeInputs(body)), "functionInputVariables")) == Ok([])
  {
    var f := SpreadFields(BodyVariables(body));
    forall i | 0 <= i < |f|
      ensures Assoc.Keys(f)[i] != "functionInputVariables"
    {
      assert f[i].0 == IntText(i);
      assert IsDigit(f[i].0[0]);
    }
    SpreadVariablesAreLost(host, body);
  }

  /** The three fixed entries reach the node as the body gives them. */
  lemma InputsCarryCode(body: Value)
    ensures Field(Obj(PyNodeInputs(body)), "pythonFunction") == PythonCode(body)
    ensures Field(Obj(PyNodeInputs(body)), "pythonPath") == Field(body, "pythonPath")
  {
    var e := PythonEntries(body);
    PyNodeInputsOverride(body, "pythonFunction");
    PyNodeInputsOverride(body, "pythonPath");
    assert Assoc.Lookup(e, "pythonFunction") == Some(PythonCode(body));
    assert Assoc.Lookup(e, "pythonPath") == Assoc.Lookup(e[1..], "pythonPath") == Some(Field(body, "pythonPath"));
  }

  /** The concrete case. */
  lemma SpreadVariablesAreLostExample(host: Host)
    ensures var body := Obj([("pythonFunction", Str("return a")), ("functionInputVariables", Obj([("a", Num(1))]))]);
      BodyVariables(body) == Obj([("a", Num(1))])
      && FunctionNode.VariableEntries(host, Field(Obj(PyNodeInputs(body)), "functionInputVariables")) == Ok([])
  {
    var body := Obj([("pythonFunction", Str("return a")), ("functionInputVariables", Obj([("a", Num(1))]))]);
    assert Field(body, "functionInputVariables") == Obj([("a", Num(1))]);
    assert Assoc.Keys(BodyVariables(body).fields) == ["a"];
    SpreadVariablesAreLost(host, body);
  }

  /** The corrected inputs: the variables travel under the name the node
      reads, next to the three fixed entries. */
  function PyNodeInputsCorrected(body: Value): (r: seq<(string, Value)>)
    ensures Assoc.WellFormed(r)
  {
    var r := [("functionInputVariables", BodyVariables(body))] + PythonEntries(body);
    assert Assoc.Keys(r) == ["functionInputVariables", "pythonFunction", "pythonPath", "functionName"] by {
      assert Assoc.Keys(r) == [r[0].0] + Assoc.Keys(r[1..]);
      assert Assoc.Keys(r[1..]) == [r[1].0] + Assoc.Keys(r[2..]);
      assert Assoc.Keys(r[2..]) == [r[2].0] + Assoc.Keys(r[3..]);
    }
    r
  }

  /** With the correction the node sees exactly the variables the body
      sent, and the code it runs is `pythonFunction ?? javascriptFunction`. */
  lemma CorrectedInputsReachNode(host: Host, body: Value)
    requires BodyVariables(body).Obj?
    ensures FunctionNode.VariableEntries(host, Field(Obj(PyNodeInputsCorrected(body)), "functionInputVariables"))
         == Ok(BodyVariables(body).fields)
    ensures Field(Obj(PyNodeInputsCorrected(body)), "pythonFunction") == PythonCode(body)
  {
    var r := PyNodeInputsCorrected(body);
    assert Assoc.Lookup(r, "functionInputVariables") == Some(BodyVariables(body));
    assert "functionInputVariables" != "pythonFunction";
    assert Assoc.Lookup(r, "pythonFunction") == Assoc.Lookup(r[1..], "pythonFunction") == Some(PythonCode(body));
  }

  // ---------------------------------------------------------------------
  // executeCustomFunction

  /** How the child process of the Python node ends. */
  datatype ChildEnd = ChildEnd(event: ChildEvent, stdout: string, stderr: string)

  const PythonFailurePrefix: string := "Error running custom python function: "
  const JsFailurePrefix: string := "Error running custom function: "

  /** The JavaScript node's inputs: the extracted variables, overridden
      by any field of the body. */
  function JsNodeInputs(code: string, body: Value): seq<(string, Value)> {
    Assoc.Spread([("functionInputVariables", Obj(ExtractedVariables(code)))], SpreadFields(body))
  }

  /** `{ functionInputVariables, ...body }`: every field of the body
      reaches the JavaScript node as it is, a body field named
      `functionInputVariables` replacing the extracted variables, and
      nothing else is added. */
  lemma JsInputsOverride(code: string, body: Value, k: string)
    requires Assoc.WellFormed(SpreadFields(body))
    ensures Assoc.Lookup(JsNodeInputs(code, body), k) ==
      if k in Assoc.Keys(SpreadFields(body)) then Assoc.Lookup(SpreadFields(body), k)
      else if k == "functionInputVariables" then Some(Obj(ExtractedVariables(code)))
      else None
  {
    Assoc.SpreadLookup([("functionInputVariables", Obj(ExtractedVariables(code)))], SpreadFields(body), k);
  }

  /** `executeCustomFunction` as written: the Python node gets the
      variables spread at the top level of its inputs. `variables` is
      what the variable store returns for the Python node, `child` how
      its process ends and `unlinkOk` whether removing its script works;
      `jsNode` is the JavaScript node's `init` on its node data (its
      failure is the thrown error as text). A string result goes through
      the reverse escape handling. */
  function ExecuteCustomFunction(host: Host, registry: Registry, body: Value, variables: Value,
                                 child: ChildEnd, unlinkOk: bool,
                                 jsNode: Value -> Result<Value, string>): (r: Result<Value, ServiceError>)
    ensures r.Err? ==> r.error.status == InternalServerError && StartsWith(r.error.message, ServicePrefix)
    ensures ChooseRoute(registry, body) == NoNode && Coalesce(Field(body, "javascriptFunction"), Str("")).Str? ==>
      r == Err(Rewrap("executeCustomFunction", NodeNotFound(JsNodeName)))
  {
    Execute(host, registry, body, PyNodeInputs(body), variables, child, unlinkOk, jsNode)
  }

  /** The endpoint with the corrected Python inputs, which carry the
      variables under `functionInputVariables`. */
  function ExecuteCustomFunctionCorrected(host: Host, registry: Registry, body: Value, variables: Value,
                                          child: ChildEnd, unlinkOk: bool,
                                          jsNode: Value -> Result<Value, string>): (r: Result<Value, ServiceError>)
    ensures r.Err? ==> r.error.status == InternalServerError && StartsWith(r.error.message, ServicePrefix)
    ensures ChooseRoute(registry, body) == NoNode && Coalesce(Field(body, "javascriptFunction"), Str("")).Str? ==>
      r == Err(Rewrap("executeCustomFunction", NodeNotFound(JsNodeName)))
  {
    Execute(host, registry, body, PyNodeInputsCorrected(body), variables, child, unlinkOk, jsNode)
  }

  /** The endpoint, given the inputs it hands the Python node. */
  function Execute(host: Host, registry: Registry, body: Value, pyInputs: seq<(string, Value)>, variables: Value,
                   child: ChildEnd, unlinkOk: bool,
                   jsNode: Value -> Result<Value, string>): (r: Result<Value, ServiceError>)
    ensures r.Err? ==> r.error.status == InternalServerError && StartsWith(r.error.message, ServicePrefix)
  {
    var jsCode := Coalesce(Field(body, "javascriptFunction"), Str(""));
    if !jsCode.Str? then Err(Rewrap("executeCustomFunction", ServiceError(InternalServerError, FunctionNode.TypeErrorMessage)))
    else
      match ChooseRoute(registry, body)
      case NoNode => Err(Rewrap("executeCustomFunction", NodeNotFound(JsNodeName)))
      case PythonNode =>
        var node := FunctionNode.NodeData(Obj(pyInputs), Undefined);
        var options := FunctionNode.RunOptions(Undefined, Undefined, Undefined, Undefined);
        var (result, _) := FunctionNode.Init(host, node, "", options, variables,
                                             child.event, child.stdout, child.stderr, unlinkOk);
        (match result
         case Ok(v) => Ok(ReverseEscaped(host, v))
         case Err(m) => Err(Rewrap("executeCustomFunction", ServiceError(InternalServerError, PythonFailurePrefix + m))))
      case JsNode =>
        match jsNode(Obj([("inputs", Obj(JsNodeInputs(jsCode.s, body)))]))
        case Ok(v) => Ok(ReverseEscaped(host, v))
        case Err(m) => Err(Rewrap("executeCustomFunction", ServiceError(InternalServerError, JsFailurePrefix + m)))
  }

  /** `typeof x === 'string' ? handleEscapeCharacters(x, true) : x` */
  function ReverseEscaped(host: Host, v: Value): (r: Value)
    ensures !v.Str? ==> r == v
    ensures v.Str? ==> r == Str(host.handleEscape(v.s, true))
  {
    if v.Str? then Str(host.handleEscape(v.s, true)) else v
  }

  /** The Python node's forward escape handling followed by the
      endpoint's reverse one: a result that is not a string crosses both
      steps unchanged. For a
      string the lemma is thin: `handleEscapeCharacters` is not part of
      this model, so that its two directions are inverse on the string is
      assumed, not proved, and only the composition is stated. */
  lemma TransportUndoesPostProcess(host: Host, v: Value)
    ensures !v.Str? ==> ReverseEscaped(host, FunctionNode.PostProcess(host, v, false)) == v
    ensures v.Str? && host.handleEscape(host.handleEscape(v.s, false), true) == v.s ==>
      ReverseEscaped(host, FunctionNode.PostProcess(host, v, false)) == v
  {
  }

  /** The route alone decides which runner answers: on the Python route
      the JavaScript node plays no part, and on the JavaScript route
      neither the variable store nor the child process nor the script
      clean-up does. With neither node registered the answer is the
      not-found error. */
  lemma RouteDecidesRunner(host: Host, registry: Registry, body: Value, variables: Value, otherVariables: Value,
                           child: ChildEnd, otherChild: ChildEnd, unlinkOk: bool, otherUnlinkOk: bool,
                           jsNode: Value -> Result<Value, string>, otherJsNode: Value -> Result<Value, string>)
    ensures ChooseRoute(registry, body) == PythonNode ==>
      ExecuteCustomFunction(host, registry, body, variables, child, unlinkOk, jsNode)
      == ExecuteCustomFunction(host, registry, body, variables, child, unlinkOk, otherJsNode)
    ensures ChooseRoute(registry, body) == JsNode ==>
      ExecuteCustomFunction(host, registry, body, variables, child, unlinkOk, jsNode)
      == ExecuteCustomFunction(host, registry, body, otherVariables, otherChild, otherUnlinkOk, jsNode)
    ensures ChooseRoute(registry, body) == NoNode ==>
      ExecuteCustomFunction(host, registry, body, variables, child, unlinkOk, jsNode).Err?
  {
  }

  /** `??` keeps an empty `pythonFunction`: when the JavaScript code only
      looks like Python, the Python route is taken and the node is
      handed the empty function, not that code. */
  lemma EmptyPythonFunctionWins(registry: Registry, body: Value)
    requires Field(body, "pythonFunction") == Str("")
    requires LooksLikePython(Field(body, "javascriptFunction")) && PythonNodeName in Assoc.Keys(registry)
    ensures ChooseRoute(registry, body) == PythonNode
    ensures Field(Obj(PyNodeInputs(body)), "pythonFunction") == Str("")
    ensures Field(body, "javascriptFunction") != Str("")
  {
    InputsCarryCode(body);
  }

  /** Through the endpoint as written, the Python node runs
      `pythonFunction ?? javascriptFunction` with whatever variables its
      top-level `functionInputVariables` input holds; when the body's
      variables do not themselves hold that key (an array or a string
      never does), a clean exit with stdout `out` answers with the decoded
      output, passed through the node's forward and the endpoint's reverse
      escape handling when it is a string. */
  lemma EndpointRunsPython(host: Host, registry: Registry, body: Value, variables: Value,
                           out: string, unlinkOk: bool, jsNode: Value -> Result<Value, string>)
    requires Coalesce(Field(body, "javascriptFunction"), Str("")).Str?
    requires ChooseRoute(registry, body) == PythonNode
    requires "functionInputVariables" !in Assoc.Keys(SpreadFields(BodyVariables(body)))
    requires PythonCode(body).Str?
    requires !Truthy(Field(body, "pythonPath")) || Field(body, "pythonPath").Str?
    ensures ExecuteCustomFunction(host, registry, body, variables, ChildEnd(Closed(Some(0)), out, ""), unlinkOk, jsNode)
      == Ok(ReverseEscaped(host, FunctionNode.PostProcess(host, DecodeOrRaw(host, Trim(out)), false)))
  {
    SpreadVariablesAreLost(host, body);
    InputsCarryCode(body);
    PythonRunsCleanly(host, registry, body, PyNodeInputs(body), variables, out, unlinkOk, jsNode);
  }

  /** With the corrected inputs the node receives the body's variables,
      and a clean run answers as above whenever those variables are a
      usable object. */
  lemma CorrectedEndpointRunsPython(host: Host, registry: Registry, body: Value, variables: Value,
                                    out: string, unlinkOk: bool, jsNode: Value -> Result<Value, string>)
    requires Coalesce(Field(body, "javascriptFunction"), Str("")).Str?
    requires ChooseRoute(registry, body) == PythonNode
    requires BodyVariables(body).Obj?
    requires PythonCode(body).Str?
    requires !Truthy(Field(body, "pythonPath")) || Field(body, "pythonPath").Str?
    ensures ExecuteCustomFunctionCorrected(host, registry, body, variables, ChildEnd(Closed(Some(0)), out, ""), unlinkOk, jsNode)
      == Ok(ReverseEscaped(host, FunctionNode.PostProcess(host, DecodeOrRaw(host, Trim(out)), false)))
  {
    CorrectedInputsReachNode(host, body);
    CorrectedInputsPythonPath(body);
    PythonRunsCleanly(host, registry, body, PyNodeInputsCorrected(body), variables, out, unlinkOk, jsNode);
  }

  /** On the Python route, a clean run of a node whose inputs hold usable
      variables, a string function and a usable interpreter path answers
      with the decoded output after the reverse escape handling. */
  lemma PythonRunsCleanly(host: Host, registry: Registry, body: Value, pyInputs: seq<(string, Value)>,
                          variables: Value, out: string, unlinkOk: bool, jsNode: Value -> Result<Value, string>)
    requires Coalesce(Field(body, "javascriptFunction"), Str("")).Str?
    requires ChooseRoute(registry, body) == PythonNode
    requires FunctionNode.VariableEntries(host, Field(Obj(pyInputs), "functionInputVariables")).Ok?
    requires Field(Obj(pyInputs), "pythonFunction").Str?
    requires FunctionNode.PythonPathOf(Obj(pyInputs)).Some?
    ensures Execute(host, registry, body, pyInputs, variables, ChildEnd(Closed(Some(0)), out, ""), unlinkOk, jsNode)
      == Ok(ReverseEscaped(host, FunctionNode.PostProcess(host, DecodeOrRaw(host, Trim(out)), false)))
  {
    var node := FunctionNode.NodeData(Obj(pyInputs), Undefined);
    assert !FunctionNode.IsEndingNode(node);
    FunctionNode.InitSuccess(host, node, "", FunctionNode.RunOptions(Undefined, Undefined, Undefined, Undefined),
                             variables, out, unlinkOk);
  }

  /** On the JavaScript route the node gets `{ inputs: { functionInputVariables,
      ...body } }`; its value comes back after the reverse escape handling, and its
      failure is rewrapped under the JavaScript prefix. Neither endpoint's
      Python inputs play any part. */
  lemma JsRouteResult(host: Host, registry: Registry, body: Value, variables: Value,
                      child: ChildEnd, unlinkOk: bool, jsNode: Value -> Result<Value, string>)
    requires Coalesce(Field(body, "javascriptFunction"), Str("")).Str?
    requires ChooseRoute(registry, body) == JsNode
    ensures var res := jsNode(Obj([("inputs", Obj(JsNodeInputs(Coalesce(Field(body, "javascriptFunction"), Str("")).s, body)))]));
      && ExecuteCustomFunction(host, registry, body, variables, child, unlinkOk, jsNode)
           == (if res.Ok? then Ok(ReverseEscaped(host, res.value))
               else Err(Rewrap("executeCustomFunction", ServiceError(InternalServerError, JsFailurePrefix + res.error))))
      && ExecuteCustomFunctionCorrected(host, registry, body, variables, child, unlinkOk, jsNode)
           == ExecuteCustomFunction(host, registry, body, variables, child, unlinkOk, jsNode)
  {
  }

  lemma CorrectedInputsPythonPath(body: Value)
    ensures Field(Obj(PyNodeInputsCorrected(body)), "pythonPath") == Field(body, "pythonPath")
  {
    var r := PyNodeInputsCorrected(body);
    assert Assoc.Lookup(r, "pythonPath") == Assoc.Lookup(r[1..], "pythonPath")
        == Assoc.Lookup(r[2..], "pythonPath") == Some(Field(body, "pythonPath"));
  }

  /** Every failure of the service operations is a 500 under the
      `Error: nodesService.` prefix, not-found included. */
  lemma ServiceErrorsAre500(registry: Registry, name: string, body: Value)
    ensures GetNodeByName(registry, name).Err? ==>
      GetNodeByName(registry, name).error.status == InternalServerError
      && StartsWith(GetNodeByName(registry, name).error.message, ServicePrefix)
    ensures GetSingleNodeIcon(registry, name).Err? ==>
      GetSingleNodeIcon(registry, name).error.status == InternalServerError
      && StartsWith(GetSingleNodeIcon(registry, name).error.message, ServicePrefix)
    ensures GetSingleNodeAsyncOptions(registry, name, body).Err? ==>
      GetSingleNodeAsyncOptions(registry, name, body).error.status == InternalServerError
      && StartsWith(GetSingleNodeAsyncOptions(registry, name, body).error.message, ServicePrefix)
  {
  }
}

=== FILE: process.dfy ===
/** A child interpreter process as both strategies observe it: the one
    event that settles its promise and how its exit code is printed. */
module Process {
  import opened Wrappers
  import opened Text

  /** The event that settles the promise: the process failed to start,
      or it closed with an exit code (`None` when a signal ended it). */
  datatype ChildEvent = SpawnError(message: string) | Closed(code: Option<int>)

  /** `${code}` for an exit code. */
  function CodeText(code: Option<int>): (r: string)
    ensures code.None? <==> r == "null"
  {
    match code
    case Some(c) =>
      var t := IntText(c);
      assert c < 0 ==> t[0] == '-';
      assert c >= 0 ==> IsDigit(t[0]);
      t
    case None => "null"
  }

  /** What a run did outside the bridge: the script it wrote, the
      interpreter it started, the text it sent on stdin, and whether the
      script file is still there afterwards. */
  datatype Effects = Effects(wrote: Option<string>, spawned: Option<string>, sent: Option<string>, fileLeft: bool)

  const NoEffects: Effects := Effects(None, None, None, false)
}

=== FILE: py_literal.dfy ===
/** Python `'''` string literals: how the child interpreter reads one back
    (escape sequences, the closing quotes), and the escaping the function
    node applies before it inlines text into such a literal. */
module PyLiteral {
  import opened Wrappers
  import opened Text

  const TripleQuote: string := "'''"

  /** What a backslash followed by `c` denotes in a non-raw Python string
      literal. An unrecognised escape keeps its backslash. */
  function EscapeMeaning(c: char): string {
    if c == '\\' then "\\"
    else if c == '\'' then "'"
    else if c == '"' then "\""
    else if c == 'n' then "\n"
    else if c == 't' then "\t"
    else if c == 'r' then "\r"
    else if c == 'a' then "\U{0007}"
    else if c == 'b' then "\U{0008}"
    else if c == 'f' then "\U{000C}"
    else if c == 'v' then "\U{000B}"
    else if c == '\n' then ""
    else ['\\', c]
  }

  function Prepend(p: string, r: Option<(string, string)>): Option<(string, string)> {
    match r
    case None => None
    case Some(x) => Some((p + x.0, x.1))
  }

  /** Reads the body of a `'''` literal whose opening quotes are already
      consumed: the string value it denotes and the text after the closing
      quotes, or `None` when the literal never closes. */
  function ReadTripleQuoted(s: string): Option<(string, string)>
    decreases |s|
  {
    if |s| == 0 then None
    else if StartsWith(s, TripleQuote) then Some(("", s[3..]))
    else if s[0] == '\\' then
      if |s| == 1 then None else Prepend(EscapeMeaning(s[1]), ReadTripleQuoted(s[2..]))
    else Prepend([s[0]], ReadTripleQuoted(s[1..]))
  }

  // ---------------------------------------------------------------------
  // the function node's escaping: backslashes first, then single quotes

  /** Every `c` in `s` preceded by a backslash: a global `replace` of one
      character by its escaped form. */
  function EscapeEach(s: string, c: char): (r: string)
    ensures |r| >= |s|
  {
    if |s| == 0 then ""
    else (if s[0] == c then ['\\', c] else [s[0]]) + EscapeEach(s[1..], c)
  }

  /** `s.replace(/\\/g, '\\\\')` */
  function DoubleBackslashes(s: string): string {
    EscapeEach(s, '\\')
  }

  /** `s.replace(/'/g, "\\'")` */
  function EscapeQuotes(s: string): string {
    EscapeEach(s, '\'')
  }

  /** The escaping applied to text inlined into a `'''` literal. */
  function EscapeLiteral(s: string): string {
    EscapeQuotes(DoubleBackslashes(s))
  }

  /** How one character of the input comes out of `EscapeLiteral`. */
  function EscapedChar(c: char): string {
    if c == '\\' then "\\\\" else if c == '\'' then "\\'" else [c]
  }

  lemma {:induction false} EscapeEachAppend(a: string, b: string, c: char)
    ensures EscapeEach(a + b, c) == EscapeEach(a, c) + EscapeEach(b, c)
  {
    if |a| > 0 {
      assert (a + b)[1..] == a[1..] + b;
      EscapeEachAppend(a[1..], b, c);
    } else {
      assert a + b == b;
    }
  }

  lemma EscapeLiteralCons(s: string)
    requires |s| > 0
    ensures EscapeLiteral(s) == EscapedChar(s[0]) + EscapeLiteral(s[1..])
  {
    var head := if s[0] == '\\' then "\\\\" else [s[0]];
    EscapeEachAppend(head, DoubleBackslashes(s[1..]), '\'');
    if s[0] == '\\' {
      assert EscapeQuotes(head) == "\\\\";
    } else if s[0] == '\'' {
      assert EscapeQuotes(head) == "\\'";
    } else {
      assert EscapeQuotes(head) == [s[0]];
    }
  }

  lemma EscapeLiteralAppend(a: string, b: string)
    ensures EscapeLiteral(a + b) == EscapeLiteral(a) + EscapeLiteral(b)
  {
    EscapeEachAppend(a, b, '\\');
    EscapeEachAppend(DoubleBackslashes(a), DoubleBackslashes(b), '\'');
  }

  lemma ReadClosing(rest: string)
    ensures ReadTripleQuoted(TripleQuote + rest) == Some(("", rest))
  {
    var x := TripleQuote + rest;
    assert x[..3] == TripleQuote && x[3..] == rest;
  }

  /** An ordinary character is read as itself. */
  lemma ReadOneChar(x: string)
    requires |x| > 0 && x[0] != '\\' && !StartsWith(x, TripleQuote)
    ensures ReadTripleQuoted(x) == Prepend([x[0]], ReadTripleQuoted(x[1..]))
  {
  }

  /** A character other than a backslash or a quote is read as itself. */
  lemma ReadPlainChar(c: char, t: string)
    requires c != '\\' && c != '\''
    ensures ReadTripleQuoted([c] + t) == Prepend([c], ReadTripleQuoted(t))
  {
    var x := [c] + t;
    assert x[0] == c && x[1..] == t;
    assert !StartsWith(x, TripleQuote);
    ReadOneChar(x);
  }

  /** A backslash pair is read as the escape it denotes. */
  lemma ReadEscapePair(c: char, t: string)
    ensures ReadTripleQuoted(['\\', c] + t) == Prepend(EscapeMeaning(c), ReadTripleQuoted(t))
  {
    var x := ['\\', c] + t;
    assert x[0] == '\\' && x[1] == c && x[2..] == t;
    assert !StartsWith(x, TripleQuote);
  }

  /** The escaped text, closed by `'''`, reads back as exactly the
      original text: no quote in it can end the literal early and every
      backslash in it decodes to the original character. */
  lemma {:induction false} ReadEscapedLiteral(s: string, rest: string)
    ensures ReadTripleQuoted(EscapeLiteral(s) + TripleQuote + rest) == Some((s, rest))
    decreases |s|
  {
    var text := EscapeLiteral(s) + TripleQuote + rest;
    if |s| == 0 {
      assert text == TripleQuote + rest;
      ReadClosing(rest);
    } else {
      EscapeLiteralCons(s);
      var tail := EscapeLiteral(s[1..]) + TripleQuote + rest;
      ReadEscapedLiteral(s[1..], rest);
      var e := EscapedChar(s[0]);
      assert text == e + tail;
      if s[0] == '\\' || s[0] == '\'' {
        assert e == ['\\', s[0]];
        ReadEscapePair(s[0], tail);
        assert EscapeMeaning(s[0]) == [s[0]];
      } else {
        assert e == [s[0]];
        ReadPlainChar(s[0], tail);
      }
      assert s == [s[0]] + s[1..];
    }
  }

  // ---------------------------------------------------------------------
  // reading a source file: universal newlines

  /** How the interpreter reads a script file before tokenising it: a
      CR LF pair and a lone CR each become one LF, and every other
      character is kept. Literals are read from this text, so a raw CR
      never reaches a string value. */
  function SourceNewlines(s: string): (r: string)
    ensures '\r' !in r
    ensures '\r' !in s ==> r == s
    decreases |s|
  {
    if |s| == 0 then ""
    else if s[0] == '\r' then
      "\n" + SourceNewlines(if |s| > 1 && s[1] == '\n' then s[2..] else s[1..])
    else
      assert '\r' !in s ==> s == [s[0]] + s[1..];
      [s[0]] + SourceNewlines(s[1..])
  }

  /** Normalising introduces no character but LF. */
  lemma {:induction false} NewlinesChars(s: string, c: char)
    requires c in SourceNewlines(s)
    ensures c in s || c == '\n'
    decreases |s|
  {
    if s[0] == '\r' {
      var t := if |s| > 1 && s[1] == '\n' then s[2..] else s[1..];
      if c != '\n' {
        NewlinesChars(t, c);
      }
    } else if c != s[0] {
      NewlinesChars(s[1..], c);
    }
  }

  lemma NewlinesCons(c: char, t: string)
    requires c != '\r'
    ensures SourceNewlines([c] + t) == [c] + SourceNewlines(t)
  {
    assert ([c] + t)[1..] == t;
  }

  lemma NewlinesLoneCR(t: string)
    requires |t| == 0 || t[0] != '\n'
    ensures SourceNewlines("\r" + t) == "\n" + SourceNewlines(t)
  {
    assert ("\r" + t)[1..] == t;
  }

  lemma NewlinesCRLF(t: string)
    ensures SourceNewlines("\r\n" + t) == "\n" + SourceNewlines(t)
  {
    assert ("\r\n" + t)[2..] == t;
  }

  /** Normalising line endings distributes over a concatenation unless
      a CR ends the left part and an LF starts the right one (the pair
      then becomes a single LF). */
  lemma {:induction false} NewlinesAppend(a: string, b: string)
    requires |a| == 0 || a[|a| - 1] != '\r' || |b| == 0 || b[0] != '\n'
    ensures SourceNewlines(a + b) == SourceNewlines(a) + SourceNewlines(b)
    decreases |a|
  {
    if |a| == 0 {
      assert a + b == b;
    } else if |a| == 1 && a[0] == '\r' {
      assert a == "\r" + "" && a + b == "\r" + b;
      NewlinesLoneCR(b);
      NewlinesLoneCR("");
    } else {
      var k := if a[0] != '\r' then 1 else if a[1] == '\n' then 2 else 1;
      NewlinesAppend(a[k..], b);
      NewlinesStep(a, b, k);
    }
  }

  /** One step of `NewlinesAppend`: the first character (or CR LF pair)
      of `a` is normalised on its own. */
  lemma NewlinesStep(a: string, b: string, k: nat)
    requires |a| > 0 && (a[0] == '\r' ==> |a| > 1)
    requires k == (if a[0] != '\r' then 1 else if a[1] == '\n' then 2 else 1)
    requires SourceNewlines(a[k..] + b) == SourceNewlines(a[k..]) + SourceNewlines(b)
    ensures SourceNewlines(a + b) == SourceNewlines(a) + SourceNewlines(b)
  {
    var t := a[k..];
    SplitAt(a, b, k);
    if a[0] != '\r' {
      assert a[..k] == [a[0]];
      StepCons(a[0], t, b);
    } else if a[1] == '\n' {
      assert a[..k] == "\r\n";
      StepCRLF(t, b);
    } else {
      assert a[..k] == "\r";
      assert |a| > 1 && t[0] == a[1];
      StepLoneCR(t, b);
    }
  }

  lemma StepCons(c: char, t: string, b: string)
    requires c != '\r'
    requires SourceNewlines(t + b) == SourceNewlines(t) + SourceNewlines(b)
    ensures SourceNewlines([c] + (t + b)) == SourceNewlines([c] + t) + SourceNewlines(b)
  {
    NewlinesCons(c, t + b);
    NewlinesCons(c, t);
    AppendRegroup([c], SourceNewlines(t), SourceNewlines(b));
  }

  lemma StepCRLF(t: string, b: string)
    requires SourceNewlines(t + b) == SourceNewlines(t) + SourceNewlines(b)
    ensures SourceNewlines("\r\n" + (t + b)) == SourceNewlines("\r\n" + t) + SourceNewlines(b)
  {
    NewlinesCRLF(t + b);
    NewlinesCRLF(t);
    AppendRegroup("\n", SourceNewlines(t), SourceNewlines(b));
  }

  lemma StepLoneCR(t: string, b: string)
    requires |t| > 0 && t[0] != '\n'
    requires SourceNewlines(t + b) == SourceNewlines(t) + SourceNewlines(b)
    ensures SourceNewlines("\r" + (t + b)) == SourceNewlines("\r" + t) + SourceNewlines(b)
  {
    assert (t + b)[0] == t[0];
    NewlinesLoneCR(t + b);
    NewlinesLoneCR(t);
    AppendRegroup("\n", SourceNewlines(t), SourceNewlines(b));
  }

  /** Text ending with a line break still ends with one once its line
      endings are normalised. */
  lemma {:induction false} NewlinesLastLF(s: string)
    requires |s| > 0 && s[|s| - 1] == '\n'
    ensures |SourceNewlines(s)| > 0 && SourceNewlines(s)[|SourceNewlines(s)| - 1] == '\n'
    decreases |s|
  {
    if s[0] == '\r' {
      var t := if |s| > 1 && s[1] == '\n' then s[2..] else s[1..];
      if |t| > 0 {
        NewlinesLastLF(t);
      }
    } else if |s| > 1 {
      NewlinesLastLF(s[1..]);
    }
  }

  /** Escaping one character that is neither CR nor LF commutes with
      normalising line endings. */
  lemma {:induction false} NewlinesEscapeEach(s: string, c: char)
    requires c != '\r' && c != '\n'
    ensures SourceNewlines(EscapeEach(s, c)) == EscapeEach(SourceNewlines(s), c)
    decreases |s|
  {
    if |s| == 0 {
    } else if s[0] == '\r' && |s| > 1 && s[1] == '\n' {
      NewlinesEscapeEach(s[2..], c);
      assert s[1..][1..] == s[2..];
      assert EscapeEach(s, c) == "\r\n" + EscapeEach(s[2..], c);
      NewlinesCRLF(EscapeEach(s[2..], c));
      NewlinesCRLF(s[2..]);
      assert s == "\r\n" + s[2..];
      EscapeEachCons('\n', SourceNewlines(s[2..]), c);
    } else if s[0] == '\r' {
      NewlinesEscapeEach(s[1..], c);
      var e := EscapeEach(s[1..], c);
      assert EscapeEach(s, c) == "\r" + e;
      assert |e| == 0 || e[0] != '\n' by {
        if |s[1..]| > 0 { EscapeEachCons(s[1], s[1..][1..], c); assert s[1..] == [s[1]] + s[1..][1..]; }
      }
      NewlinesLoneCR(e);
      NewlinesLoneCR(s[1..]);
      assert s == "\r" + s[1..];
      EscapeEachCons('\n', SourceNewlines(s[1..]), c);
    } else {
      NewlinesEscapeEach(s[1..], c);
      var head := if s[0] == c then ['\\', c] else [s[0]];
      assert EscapeEach(s, c) == head + EscapeEach(s[1..], c);
      NewlinesAppend(head, EscapeEach(s[1..], c));
      assert SourceNewlines(head) == head by { assert '\r' !in head; }
      NewlinesCons(s[0], s[1..]);
      assert s == [s[0]] + s[1..];
      EscapeEachCons(s[0], SourceNewlines(s[1..]), c);
    }
  }

  lemma EscapeEachCons(x: char, t: string, c: char)
    ensures EscapeEach([x] + t, c) == (if x == c then ['\\', c] else [x]) + EscapeEach(t, c)
  {
    assert ([x] + t)[1..] == t;
  }

  /** The function node's escaping commutes with normalising line
      endings. */
  lemma NewlinesEscapeLiteral(s: string)
    ensures SourceNewlines(EscapeLiteral(s)) == EscapeLiteral(SourceNewlines(s))
  {
    NewlinesEscapeEach(s, '\\');
    NewlinesEscapeEach(DoubleBackslashes(s), '\'');
  }
}

=== FILE: text.dfy ===
/** Character classes and string helpers with JavaScript semantics: the
    regular-expression classes `\s` and `\w`, `String.prototype.trim`,
    `split`/`join` on one separator character, and decimal number text. */
module Text {

  /** ECMAScript LineTerminator: the characters `^` looks behind for in
      multiline mode. */
  predicate IsLineTerminator(c: char) {
    c == '\n' || c == '\r' || c == '\U{2028}' || c == '\U{2029}'
  }

  /** ECMAScript WhiteSpace or LineTerminator: the class `\s`, and what
      `trim` removes. */
  predicate IsSpace(c: char) {
    || c == '\t' || c == '\U{000B}' || c == '\U{000C}' || c == ' '
    || c == '\U{00A0}' || c == '\U{FEFF}' || c == '\U{1680}'
    || ('\U{2000}' <= c <= '\U{200A}')
    || c == '\U{202F}' || c == '\U{205F}' || c == '\U{3000}'
    || IsLineTerminator(c)
  }

  /** `[A-Za-z_]`: a character that may start an (ASCII) identifier. */
  predicate IsIdentStart(c: char) {
    ('a' <= c <= 'z') || ('A' <= c <= 'Z') || c == '_'
  }

  predicate IsDigit(c: char) {
    '0' <= c <= '9'
  }

  /** `[A-Za-z0-9_]`: the class `\w`, which also decides `\b`. */
  predicate IsWordChar(c: char) {
    IsIdentStart(c) || IsDigit(c)
  }

  /** An ASCII identifier `[A-Za-z_][A-Za-z0-9_]*`. */
  predicate IsIdentifier(s: string) {
    |s| > 0 && IsIdentStart(s[0]) && forall k :: 1 <= k < |s| ==> IsWordChar(s[k])
  }

  predicate StartsWith(s: string, prefix: string) {
    |prefix| <= |s| && s[..|prefix|] == prefix
  }

  predicate EndsWith(s: string, suffix: string) {
    |suffix| <= |s| && s[|s| - |suffix|..] == suffix
  }

  /** `pattern` occurs in `s` starting at index `i`. */
  predicate OccursAt(s: string, pattern: string, i: int) {
    0 <= i && i + |pattern| <= |s| && s[i..i + |pattern|] == pattern
  }

  /** `String.prototype.includes`. */
  predicate Contains(s: string, pattern: string) {
    exists i :: 0 <= i <= |s| && OccursAt(s, pattern, i)
  }

  lemma ContainsMiddle(a: string, b: string, c: string)
    ensures Contains(a + b + c, b)
  {
    assert (a + b + c)[|a|..|a| + |b|] == b;
    assert OccursAt(a + b + c, b, |a|);
  }

  lemma ContainsSuffix(a: string, b: string)
    ensures Contains(a + b, b)
  {
    assert a + b + "" == a + b;
    ContainsMiddle(a, b, "");
  }

  // ---------------------------------------------------------------------
  // trim

  function TrimStart(s: string): (r: string)
    ensures |r| <= |s| && r == s[|s| - |r|..]
    ensures forall k :: 0 <= k < |s| - |r| ==> IsSpace(s[k])
    ensures |r| > 0 ==> !IsSpace(r[0])
  {
    if |s| > 0 && IsSpace(s[0]) then TrimStart(s[1..]) else s
  }

  function TrimEnd(s: string): (r: string)
    ensures |r| <= |s| && r == s[..|r|]
    ensures forall k :: |r| <= k < |s| ==> IsSpace(s[k])
    ensures |r| > 0 ==> !IsSpace(r[|r| - 1])
  {
    if |s| > 0 && IsSpace(s[|s| - 1]) then TrimEnd(s[..|s| - 1]) else s
  }

  /** `String.prototype.trim`: the longest slice of `s` that neither
      starts nor ends with white space, everything around it being white
      space. */
  function Trim(s: string): (r: string)
    ensures TrimOffset(s) + |r| <= |s|
    ensures |r| > 0 ==> !IsSpace(r[0]) && !IsSpace(r[|r| - 1])
    ensures r == s[TrimOffset(s)..TrimOffset(s) + |r|]
    ensures forall k :: 0 <= k < TrimOffset(s) ==> IsSpace(s[k])
    ensures forall k :: TrimOffset(s) + |r| <= k < |s| ==> IsSpace(s[k])
  {
    TrimEnd(TrimStart(s))
  }

  /** Where the trimmed text starts inside `s`. */
  function TrimOffset(s: string): (n: nat)
    ensures n <= |s|
  {
    |s| - |TrimStart(s)|
  }

  /** A text that already has no surrounding white space is left by
      `trim` as it is, whatever white space follows it. */
  lemma {:induction false} TrimPadded(t: string, pad: string)
    requires |t| == 0 || (!IsSpace(t[0]) && !IsSpace(t[|t| - 1]))
    requires forall k :: 0 <= k < |pad| ==> IsSpace(pad[k])
    ensures Trim(t + pad) == t
  {
    var u := t + pad;
    if |t| == 0 {
      assert u == pad;
      assert |TrimStart(u)| == 0;
    } else {
      assert TrimStart(u) == u;
      TrimEndPadded(t, pad);
    }
  }

  lemma {:induction false} TrimEndPadded(t: string, pad: string)
    requires |t| > 0 && !IsSpace(t[|t| - 1])
    requires forall k :: 0 <= k < |pad| ==> IsSpace(pad[k])
    ensures TrimEnd(t + pad) == t
    decreases |pad|
  {
    if |pad| == 0 {
      assert t + pad == t;
    } else {
      var u := t + pad;
      assert u[..|u| - 1] == t + pad[..|pad| - 1];
      TrimEndPadded(t, pad[..|pad| - 1]);
    }
  }

  // ---------------------------------------------------------------------
  // split / join on one separator character

  /** `s.split(sep)` for a one-character separator: never empty, and no
      piece holds the separator. */
  function Split(s: string, sep: char): (parts: seq<string>)
    ensures |parts| >= 1
    ensures forall i :: 0 <= i < |parts| ==> sep !in parts[i]
  {
    if |s| == 0 then [""]
    else
      var rest := Split(s[1..], sep);
      if s[0] == sep then [""] + rest
      else [[s[0]] + rest[0]] + rest[1..]
  }

  /** Concatenation regrouped, stated apart so that proofs about
      recursive text functions need not find it in a large context. */
  lemma AppendRegroup(a: string, b: string, c: string)
    ensures a + (b + c) == a + b + c
  {
  }

  /** A text cut at `k`, with more text after it. */
  lemma SplitAt(a: string, b: string, k: nat)
    requires k <= |a|
    ensures a == a[..k] + a[k..]
    ensures a + b == a[..k] + (a[k..] + b)
  {
  }

  /** `parts.join(sep)`. */
  function Join(parts: seq<string>, sep: char): string {
    if |parts| == 0 then ""
    else if |parts| == 1 then parts[0]
    else parts[0] + [sep] + Join(parts[1..], sep)
  }

  /** The joined text ends as its last part does. */
  lemma {:induction false} JoinLast(parts: seq<string>, sep: char)
    requires |parts| > 0 && |parts[|parts| - 1]| > 0
    ensures var j := Join(parts, sep); var l := parts[|parts| - 1];
      |j| > 0 && j[|j| - 1] == l[|l| - 1]
    decreases |parts|
  {
    if |parts| > 1 {
      JoinLast(parts[1..], sep);
      assert parts[1..][|parts| - 2] == parts[|parts| - 1];
    }
  }

  /** Joining the pieces of a split gives the text back. */
  lemma {:induction false} JoinSplit(s: string, sep: char)
    ensures Join(Split(s, sep), sep) == s
  {
    if |s| == 0 {
    } else {
      var rest := Split(s[1..], sep);
      JoinSplit(s[1..], sep);
      if s[0] == sep {
        assert Split(s, sep) == [""] + rest;
        assert ([""] + rest)[1..] == rest;
      } else {
        var parts := Split(s, sep);
        assert parts == [[s[0]] + rest[0]] + rest[1..];
        if |rest| == 1 {
          assert Join(parts, sep) == [s[0]] + rest[0];
        } else {
          assert parts[1..] == rest[1..];
          assert Join(parts, sep) == [s[0]] + rest[0] + [sep] + Join(rest[1..], sep);
        }
        assert s == [s[0]] + s[1..];
      }
    }
  }

  /** Splitting a join of separator-free pieces gives the pieces back. */
  lemma {:induction false} SplitJoin(parts: seq<string>, sep: char)
    requires |parts| >= 1
    requires forall i :: 0 <= i < |parts| ==> sep !in parts[i]
    ensures Split(Join(parts, sep), sep) == parts
  {
    if |parts| == 1 {
      SplitPlain(parts[0], sep);
    } else {
      SplitJoin(parts[1..], sep);
      SplitAfterPiece(parts[0], Join(parts[1..], sep), sep);
      assert parts == [parts[0]] + parts[1..];
    }
  }

  lemma {:induction false} SplitPlain(a: string, sep: char)
    requires sep !in a
    ensures Split(a, sep) == [a]
  {
    if |a| > 0 {
      SplitPlain(a[1..], sep);
      assert a == [a[0]] + a[1..];
    }
  }

  lemma {:induction false} SplitAfterPiece(a: string, t: string, sep: char)
    requires sep !in a
    ensures Split(a + [sep] + t, sep) == [a] + Split(t, sep)
  {
    if |a| == 0 {
      assert a + [sep] + t == [sep] + t;
      assert ([sep] + t)[1..] == t;
    } else {
      SplitAfterPiece(a[1..], t, sep);
      assert (a + [sep] + t)[1..] == a[1..] + [sep] + t;
      assert a == [a[0]] + a[1..];
    }
  }

  // ---------------------------------------------------------------------
  // decimal text of integers, as JavaScript prints them

  function DigitChar(d: nat): char
    requires d < 10
  {
    "0123456789"[d]
  }

  function NatText(n: nat): (r: string)
    ensures |r| > 0 && forall k :: 0 <= k < |r| ==> IsDigit(r[k])
    decreases n
  {
    if n < 10 then [DigitChar(n)] else NatText(n / 10) + [DigitChar(n % 10)]
  }

  /** `${n}` for an integer `n`. */
  function IntText(n: int): string {
    if n < 0 then "-" + NatText(-n) else NatText(n)
  }

  /** The value of a non-empty run of decimal digits. */
  function DigitsValue(s: string): nat
    requires forall k :: 0 <= k < |s| ==> IsDigit(s[k])
  {
    if |s| == 0 then 0
    else
      var last := s[|s| - 1];
      assert IsDigit(last);
      DigitsValue(s[..|s| - 1]) * 10 + (last as int - '0' as int)
  }

  /** Reading back the decimal text of a natural number gives the number. */
  lemma {:induction false} DigitsValueNatText(n: nat)
    ensures DigitsValue(NatText(n)) == n
    decreases n
  {
    if n >= 10 {
      DigitsValueNatText(n / 10);
      var t := NatText(n);
      assert t[..|t| - 1] == NatText(n / 10);
    }
  }
}

=== FILE: tool_call.dfy ===
/** One call of the Python tool: the schema check, the payload, the
    rewritten user code and the script around it, the interpreter and
    timeout read from the environment, how the child process's ending
    settles the call, and the decoding and stringifying of the result. */
module ToolCall {
  import opened Wrappers
  import opened Text
  import opened Js
  import Assoc
  import ToolCode
  import opened ToolScript
  import opened Process

  // ---------------------------------------------------------------------
  // configuration

  /** A JavaScript number as far as `Number(text)` yields one here. */
  datatype Number = Finite(n: int) | NaN

  predicate AllDigits(t: string) {
    |t| > 0 && forall k :: 0 <= k < |t| ==> IsDigit(t[k])
  }

  /** `Number(text)` for integer text: surrounding white space is
      ignored, blank text is 0, an optional sign precedes the digits, and
      anything else is `NaN`. */
  function ToNumber(s: string): (r: Number)
    ensures AllDigits(Trim(s)) ==> r == Finite(DigitsValue(Trim(s)))
    ensures Trim(s) == "" ==> r == Finite(0)
  {
    var t := Trim(s);
    if t == "" then Finite(0)
    else if AllDigits(t) then Finite(DigitsValue(t))
    else if |t| > 1 && t[0] == '-' && AllDigits(t[1..]) then
      var magnitude: int := DigitsValue(t[1..]);
      Finite(-magnitude)
    else if |t| > 1 && t[0] == '+' && AllDigits(t[1..]) then Finite(DigitsValue(t[1..]))
    else NaN
  }

  /** `${n}` for a number. */
  function NumberText(x: Number): string {
    match x
    case Finite(n) => IntText(n)
    case NaN => "NaN"
  }

  type Env = map<string, string>

  /** `env[name] || fallback`: an unset or empty variable takes the
      fallback. */
  function EnvOr(env: Env, name: string, fallback: string): (r: string)
    ensures (name !in env || env[name] == "") ==> r == fallback
    ensures name in env && env[name] != "" ==> r == env[name]
  {
    if name in env && env[name] != "" then env[name] else fallback
  }

  /** `process.env[name]`: `undefined` when unset. */
  function EnvValue(env: Env, name: string): Value {
    if name in env then Str(env[name]) else Undefined
  }

  /** `EnvOr` is JavaScript's `||` on the variable's value: it keeps the
      variable exactly when that value is truthy. */
  lemma EnvOrIsOr(env: Env, name: string, fallback: string)
    ensures Str(EnvOr(env, name, fallback)) == Or(EnvValue(env, name), Str(fallback))
    ensures EnvOr(env, name, fallback) == env[name] <== Truthy(EnvValue(env, name))
  {
  }

  const PythonPathVar: string := "TOOL_PYTHON_PATH"
  const TimeoutVar: string := "TOOL_PYTHON_TIMEOUT"

  function PythonPath(env: Env): (r: string)
    ensures r != ""
  {
    EnvOr(env, PythonPathVar, "python")
  }

  function TimeoutMs(env: Env): Number {
    ToNumber(EnvOr(env, TimeoutVar, "10000"))
  }

  /** The interpreter is `python` and the timeout 10000 ms unless the
      environment says otherwise; a decimal timeout is read as written. */
  lemma ConfigDefaults(env: Env, n: nat)
    ensures PythonPathVar !in env || env[PythonPathVar] == "" ==> PythonPath(env) == "python"
    ensures TimeoutVar !in env || env[TimeoutVar] == "" ==> TimeoutMs(env) == Finite(10000)
    ensures TimeoutVar in env && env[TimeoutVar] == NatText(n) ==> TimeoutMs(env) == Finite(n)
  {
    if TimeoutVar !in env || env[TimeoutVar] == "" {
      DefaultTimeoutText();
    }
    if TimeoutVar in env && env[TimeoutVar] == NatText(n) {
      NatTextNumber(n);
    }
  }

  lemma DefaultTimeoutText()
    ensures ToNumber("10000") == Finite(10000)
  {
    TrimDefaultTimeout();
    DigitsDefaultTimeout();
  }

  lemma TrimDefaultTimeout()
    ensures Trim("10000") == "10000"
  {
    TrimPadded("10000", "");
    assert "10000" + "" == "10000";
  }

  lemma DigitsDefaultTimeout()
    ensures AllDigits("10000") && DigitsValue("10000") == 10000
  {
    var ten := "10000";
    assert ten[..4] == "1000" && "1000"[..3] == "100" && "100"[..2] == "10" && "10"[..1] == "1";
  }

  lemma NatTextNumber(n: nat)
    ensures ToNumber(NatText(n)) == Finite(n)
  {
    TrimNatText(n);
    DigitsValueNatText(n);
  }

  lemma TrimNatText(n: nat)
    ensures Trim(NatText(n)) == NatText(n)
  {
    var t := NatText(n);
    assert IsDigit(t[0]) && IsDigit(t[|t| - 1]);
    TrimPadded(t, "");
    assert t + "" == t;
  }

  /** A blank timeout is not replaced by the default (it is not empty)
      and reads as 0 ms. */
  lemma BlankTimeoutIsZero(env: Env)
    requires TimeoutVar in env && env[TimeoutVar] == " "
    ensures TimeoutMs(env) == Finite(0)
  {
    assert TrimStart(" ") == [];
  }

  // ---------------------------------------------------------------------
  // the tool and the payload

  /** The tool as constructed: its user code (`undefined` when absent),
      its zod schema (`None` when parsing rejects the argument), and the
      variables and flow object set on it. */
  datatype Tool = Tool(
    name: string,
    code: Option<string>,
    schema: Value -> Option<Value>,
    variables: Value,
    flowObj: Value)

  /** `flowObj ? { ...flowObj, ...flowConfig } : { ...flowConfig }` */
  function FlowFields(flowObj: Value, flowConfig: Value): seq<(string, Value)> {
    if Truthy(flowObj) then Assoc.Spread(SpreadFields(flowObj), SpreadFields(flowConfig))
    else Assoc.Spread([], SpreadFields(flowConfig))
  }

  /** The payload sent on the child's stdin. */
  function Payload(host: Host, tool: Tool, arg: Value, flowConfig: Value): (p: Value)
    ensures p.Obj? && Assoc.Keys(p.fields) == ["input", "vars", "flow"]
    ensures Field(p, "input") == arg
    ensures Field(p, "vars") == host.sandboxVars(tool.variables)
  {
    var p := Obj([("input", arg), ("vars", host.sandboxVars(tool.variables)),
                  ("flow", Obj(FlowFields(tool.flowObj, flowConfig)))]);
    assert Assoc.Keys(p.fields) == ["input"] + Assoc.Keys(p.fields[1..]);
    assert Assoc.Keys(p.fields[1..]) == ["vars"] + Assoc.Keys(p.fields[2..]);
    assert "input" != "vars" && "input" != "flow" && "vars" != "flow";
    assert Assoc.Lookup(p.fields, "vars") == Assoc.Lookup(p.fields[1..], "vars");
    p
  }

  /** `flow` is the call's flow configuration laid over the tool's flow
      object key by key, or just the configuration when the flow object
      is unset: a key of the configuration always wins. */
  lemma FlowOverride(host: Host, tool: Tool, arg: Value, flowConfig: Value, k: string)
    requires Assoc.WellFormed(SpreadFields(flowConfig))
    ensures Field(Payload(host, tool, arg, flowConfig), "flow").Obj?
    ensures Assoc.Lookup(Field(Payload(host, tool, arg, flowConfig), "flow").fields, k) ==
      if k in Assoc.Keys(SpreadFields(flowConfig)) then Assoc.Lookup(SpreadFields(flowConfig), k)
      else if Truthy(tool.flowObj) then Assoc.Lookup(SpreadFields(tool.flowObj), k)
      else None
  {
    PayloadFlow(host, tool, arg, flowConfig);
    if Truthy(tool.flowObj) {
      Assoc.SpreadLookup(SpreadFields(tool.flowObj), SpreadFields(flowConfig), k);
    } else {
      Assoc.SpreadLookup([], SpreadFields(flowConfig), k);
    }
  }

  lemma PayloadFlow(host: Host, tool: Tool, arg: Value, flowConfig: Value)
    ensures Field(Payload(host, tool, arg, flowConfig), "flow") == Obj(FlowFields(tool.flowObj, flowConfig))
  {
    var p := Payload(host, tool, arg, flowConfig);
    assert "input" != "flow" && "vars" != "flow";
    assert Assoc.Lookup(p.fields, "flow") == Assoc.Lookup(p.fields[1..], "flow")
        == Assoc.Lookup(p.fields[2..], "flow") == Some(Obj(FlowFields(tool.flowObj, flowConfig)));
  }

  // ---------------------------------------------------------------------
  // the code and the script

  /** `this.code || ''`, then the `$name` and `return` rewrites. */
  function UserCode(code: Option<string>): string {
    var text := if code.Some? then code.value else "";
    ToolCode.RewriteReturns(ToolCode.StripSigils(text))
  }

  /** The script written for the tool: only `'''` in the code is
      escaped. */
  function Script(tool: Tool): string {
    ScriptTextAsWritten(UserCode(tool.code))
  }

  /** Rewritten code without backslashes reaches the interpreter as
      `user_code` with only its line endings normalised, and code without
      backslashes, CRs, sigils or line-leading `return` reaches it
      exactly as written. */
  lemma ScriptRunsUserCode(tool: Tool)
    ensures '\\' !in UserCode(tool.code) ==>
      UserCodeOf(Script(tool)) == Some(UserCodeText(UserCode(tool.code)))
    ensures tool.code.Some? && '\\' !in tool.code.value && '\r' !in tool.code.value
         && (forall i :: 0 <= i < |tool.code.value| ==> !ToolCode.SigilAt(tool.code.value, i))
         && (forall i :: !ToolCode.ReturnMatchAt(tool.code.value, i, true))
         ==> UserCodeOf(Script(tool)) == Some("\n" + tool.code.value + "\n")
  {
    if '\\' !in UserCode(tool.code) {
      ScriptCarriesCode(UserCode(tool.code));
    }
    if tool.code.Some? {
      var c := tool.code.value;
      ToolCode.StripSigilsUnchanged(c);
      ToolCode.RewriteReturnsUnchanged(c);
    }
  }

  // ---------------------------------------------------------------------
  // the child process

  /** What the child did: the settling event, whether the timer fired
      first, and everything it wrote to its two output streams. */
  datatype Child = Child(event: ChildEvent, timedOut: bool, stdout: string, stderr: string)

  /** The error a call fails with. */
  datatype ToolError =
    | InputParsing(message: string, output: string)
    | Failure(message: string)

  const TimeoutPrefix: string := "Python script timed out after "
  const ExitPrefix: string := "Python script exited with code "

  /** The `error` and `close` handlers: a start failure rejects with its
      own error; a close rejects on timeout, then on any code but 0, and
      otherwise resolves with the trimmed stdout. */
  function Settle(child: Child, timeout: Number): (r: Result<string, ToolError>)
    ensures child.event.SpawnError? ==> r == Err(Failure(child.event.message))
    ensures r.Ok? <==> child.event == Closed(Some(0)) && !child.timedOut
    ensures r.Ok? ==> r.value == Trim(child.stdout)
    ensures r.Err? ==> r.error.Failure?
  {
    match child.event
    case SpawnError(message) => Err(Failure(message))
    case Closed(code) =>
      if child.timedOut then Err(Failure(TimeoutPrefix + NumberText(timeout) + " ms"))
      else if code != Some(0) then Err(Failure(ExitPrefix + CodeText(code) + ": " + child.stderr))
      else Ok(Trim(child.stdout))
  }

  /** A timed-out run fails with a message naming the timeout whatever
      its exit code, and a failed exit reports the code and stderr while
      stdout plays no part. */
  lemma SettleFailures(child: Child, timeout: Number, otherStdout: string)
    ensures child.event.Closed? && child.timedOut ==>
      Settle(child, timeout).Err? && Contains(Settle(child, timeout).error.message, NumberText(timeout))
    ensures child.event.Closed? && !child.timedOut && child.event.code != Some(0) ==>
      Settle(child, timeout) == Err(Failure(ExitPrefix + CodeText(child.event.code) + ": " + child.stderr))
    ensures Settle(child, timeout).Err? ==> Settle(child.(stdout := otherStdout), timeout) == Settle(child, timeout)
  {
    if child.event.Closed? && child.timedOut {
      ContainsMiddle(TimeoutPrefix, NumberText(timeout), " ms");
    }
  }

  // ---------------------------------------------------------------------
  // the call

  /** The `call` step after `_call`: a truthy non-string result is
      `JSON.stringify`-ed. */
  function StringifyResult(host: Host, result: Value): (r: Value)
    ensures r.Str? || !Truthy(r)
    ensures result.Str? || !Truthy(result) ==> r == result
    ensures Truthy(result) && !result.Str? ==> r == Str(host.stringify(result))
  {
    if Truthy(result) && !result.Str? then Str(host.stringify(result)) else result
  }

  /** Stringifying loses nothing the caller's parser can recover: a
      truthy non-string result whose JSON text parses back to it is
      returned as text that decodes to that same result, and any other
      result is returned as it is. */
  lemma StringifyResultParsesBack(host: Host, v: Value)
    requires host.parse(host.stringify(v)) == Some(v)
    ensures StringifyResult(host, v) == v || DecodeOrRaw(host, StringifyResult(host, v).s) == v
    ensures Truthy(v) && !v.Str? ==> StringifyResult(host, v).Str? && DecodeOrRaw(host, StringifyResult(host, v).s) == v
  {
    if Truthy(v) && !v.Str? {
      DecodeOrRawRoundTrip(host, v);
    }
  }

  /** `_call`: write the script, start the interpreter, send the payload,
      settle, remove the script (`unlinkOk` says whether that works; a
      failure is ignored), and decode the output as JSON or keep it as
      text. */
  function RunTool(host: Host, env: Env, tool: Tool, parsed: Value, flowConfig: Value,
                   child: Child, unlinkOk: bool): (r: (Result<Value, ToolError>, Effects))
    ensures r.1 == Effects(Some(Script(tool)), Some(PythonPath(env)),
                           Some(host.stringify(Payload(host, tool, parsed, flowConfig))), !unlinkOk)
    ensures r.0.Ok? <==> Settle(child, TimeoutMs(env)).Ok?
    ensures r.0.Ok? ==> r.0.value == DecodeOrRaw(host, Trim(child.stdout))
  {
    var effects := Effects(Some(Script(tool)), Some(PythonPath(env)),
                           Some(host.stringify(Payload(host, tool, parsed, flowConfig))), !unlinkOk);
    match Settle(child, TimeoutMs(env))
    case Err(e) => (Err(e), effects)
    case Ok(out) => (Ok(DecodeOrRaw(host, out)), effects)
  }

  /** `call`: validate the argument against the schema (on failure throw
      before anything is written or started), run, then stringify. */
  function Call(host: Host, env: Env, tool: Tool, arg: Value, flowConfig: Value,
                child: Child, unlinkOk: bool): (r: (Result<Value, ToolError>, Effects))
    ensures tool.schema(arg).None? ==>
      r == (Err(InputParsing("Received tool input did not match expected schema", host.stringify(arg))),
            NoEffects)
    ensures tool.schema(arg).Some? ==> r.1.wrote.Some? && r.1.spawned.Some?
    ensures r.0.Ok? ==> r.0.value.Str? || !Truthy(r.0.value)
  {
    match tool.schema(arg)
    case None =>
      (Err(InputParsing("Received tool input did not match expected schema", host.stringify(arg))),
       NoEffects)
    case Some(parsed) =>
      var (result, effects) := RunTool(host, env, tool, parsed, flowConfig, child, unlinkOk);
      match result
      case Err(e) => (Err(e), effects)
      case Ok(v) => (Ok(StringifyResult(host, v)), effects)
  }

  /** Removing the script is best effort: whether it succeeds changes
      nothing but whether the file is left behind. */
  lemma CleanupIrrelevant(host: Host, env: Env, tool: Tool, arg: Value, flowConfig: Value, child: Child)
    ensures Call(host, env, tool, arg, flowConfig, child, true).0 == Call(host, env, tool, arg, flowConfig, child, false).0
    ensures tool.schema(arg).Some? ==>
      !Call(host, env, tool, arg, flowConfig, child, true).1.fileLeft
      && Call(host, env, tool, arg, flowConfig, child, false).1.fileLeft
  {
  }

  /** When the child runs the tool's script on the stringified payload,
      the rewritten code has no backslash, no builtin the script calls is
      rebound, and the user code prints nothing and leaves a result `b`,
      the script exits 0 with exactly the JSON of `b` on one line. */
  lemma ToolScriptPrintsResult(host: Host, stdin: string, tool: Tool, exec: (string, Globals) -> Run<Globals>,
                               payload: Value, g: Globals, b: Binding)
    requires '\\' !in UserCode(tool.code)
    requires host.pyLoad(stdin) == Some(payload)
    requires Preamble(payload).Some? && ExecReachable(Preamble(payload).value)
    requires var userCode := UserCodeText(UserCode(tool.code));
      exec(userCode, ExecGlobals(Preamble(payload).value, userCode)) == Completed("", g)
    requires SelectResult(g) == Completed("", b) && Printed(g, b).Some?
    ensures RunScript(host, stdin, Script(tool), exec) == ScriptRun(0, host.pyDumps(AsJson(b)) + "\n", "")
  {
    QuietRunPrintsResult(host, stdin, UserCode(tool.code), exec, payload, g, b);
  }

  /** That line is what the call returns: when the tool's parser reads
      the JSON back as `v`, a clean exit with that output makes the call
      return `v`, stringified when it is a truthy non-string. */
  lemma CallReturnsPrintedResult(host: Host, env: Env, tool: Tool, arg: Value, flowConfig: Value,
                                 parsed: Value, v: Value, unlinkOk: bool)
    requires tool.schema(arg) == Some(parsed)
    requires host.parse(host.pyDumps(v)) == Some(v)
    requires |host.pyDumps(v)| > 0 && !IsSpace(host.pyDumps(v)[0]) && !IsSpace(host.pyDumps(v)[|host.pyDumps(v)| - 1])
    ensures Call(host, env, tool, arg, flowConfig, Child(Closed(Some(0)), false, host.pyDumps(v) + "\n", ""), unlinkOk).0
         == Ok(StringifyResult(host, v))
  {
    var line := host.pyDumps(v);
    assert IsSpace('\n');
    TrimPadded(line, "\n");
    assert host.parse(Trim(line + "\n")) == Some(v);
    CallOnCleanExit(host, env, tool, arg, flowConfig, parsed, line + "\n", "", v, unlinkOk);
  }

  /** A clean exit whose trimmed output parses as `v` makes the call
      return `v`, stringified when it is a truthy non-string. */
  lemma CallOnCleanExit(host: Host, env: Env, tool: Tool, arg: Value, flowConfig: Value,
                        parsed: Value, out: string, err: string, v: Value, unlinkOk: bool)
    requires tool.schema(arg) == Some(parsed)
    requires host.parse(Trim(out)) == Some(v)
    ensures Call(host, env, tool, arg, flowConfig, Child(Closed(Some(0)), false, out, err), unlinkOk).0
         == Ok(StringifyResult(host, v))
  {
    var child := Child(Closed(Some(0)), false, out, err);
    assert RunTool(host, env, tool, parsed, flowConfig, child, unlinkOk).0 == Ok(v);
  }
}

=== FILE: tool_code.dfy ===
/** The text rewrites the Python tool applies to the user's code before
    embedding it in the generated script: `$name` loses its sigil, a
    line-leading `return` becomes an assignment to the capture variable,
    and `'''` is escaped. Each regular expression is modelled as the
    left-to-right scanner JavaScript's global `replace` runs. */
module ToolCode {
  import opened Wrappers
  import opened Text
  import opened PyLiteral

  // ---------------------------------------------------------------------
  // `$name` -> `name`   (the pattern /\$([a-zA-Z_][a-zA-Z0-9_]*)/g)

  /** A match of the sigil pattern starts at `i`. A `$` is never part of
      an earlier match's identifier, so every such position is a match. */
  predicate SigilAt(s: string, i: int) {
    0 <= i && i + 1 < |s| && s[i] == '$' && IsIdentStart(s[i + 1])
  }

  /** The replacement keeps the identifier and drops the `$`. Resuming
      the scan right after the `$` finds the same matches as resuming
      after the identifier, since identifier characters are never `$`. */
  function StripSigils(s: string): string {
    if |s| == 0 then ""
    else if SigilAt(s, 0) then StripSigils(s[1..])
    else [s[0]] + StripSigils(s[1..])
  }

  /** How many matches start before position `i`. */
  function SigilsBefore(s: string, i: nat): nat
    requires i <= |s|
  {
    if i == 0 then 0 else SigilsBefore(s, i - 1) + (if SigilAt(s, i - 1) then 1 else 0)
  }

  lemma {:induction false} SigilsBeforeShift(s: string, i: nat)
    requires |s| > 0 && i + 1 <= |s|
    ensures SigilsBefore(s, i + 1) == (if SigilAt(s, 0) then 1 else 0) + SigilsBefore(s[1..], i)
  {
    if i > 0 {
      SigilsBeforeShift(s, i - 1);
      assert SigilAt(s, i) == SigilAt(s[1..], i - 1);
    }
  }

  lemma {:induction false} SigilsBeforeMonotone(s: string, i: nat, j: nat)
    requires i <= j <= |s|
    ensures SigilsBefore(s, i) <= SigilsBefore(s, j)
    decreases j - i
  {
    if i < j {
      SigilsBeforeMonotone(s, i, j - 1);
    }
  }

  /** Every match loses exactly its `$` and nothing else changes: the
      output is as long as the input less the number of matches, and each
      character that does not start a match reappears, shifted left by the
      number of matches before it. */
  lemma StripSigilsSpec(s: string)
    ensures |StripSigils(s)| == |s| - SigilsBefore(s, |s|)
    ensures forall i :: 0 <= i < |s| && !SigilAt(s, i) ==>
      0 <= i - SigilsBefore(s, i) < |StripSigils(s)| && StripSigils(s)[i - SigilsBefore(s, i)] == s[i]
  {
    StripSigilsLength(s);
    StripSigilsTraced(s);
  }

  lemma StripSigilsTraced(s: string)
    ensures forall i :: 0 <= i < |s| && !SigilAt(s, i) ==>
      0 <= i - SigilsBefore(s, i) < |StripSigils(s)| && StripSigils(s)[i - SigilsBefore(s, i)] == s[i]
  {
    forall i | 0 <= i < |s| && !SigilAt(s, i)
      ensures 0 <= i - SigilsBefore(s, i) < |StripSigils(s)| && StripSigils(s)[i - SigilsBefore(s, i)] == s[i]
    {
      StripSigilsAt(s, i);
    }
  }

  lemma {:induction false} StripSigilsLength(s: string)
    ensures |StripSigils(s)| == |s| - SigilsBefore(s, |s|)
  {
    if |s| > 0 {
      StripSigilsLength(s[1..]);
      SigilsBeforeShift(s, |s| - 1);
    }
  }

  /** One character that does not start a match, traced to the output. */
  lemma {:induction false} StripSigilsAt(s: string, i: nat)
    requires i < |s| && !SigilAt(s, i)
    ensures 0 <= i - SigilsBefore(s, i) < |StripSigils(s)|
    ensures StripSigils(s)[i - SigilsBefore(s, i)] == s[i]
    decreases |s|
  {
    var t := s[1..];
    if i > 0 {
      assert SigilAt(s, i) == SigilAt(t, i - 1);
      StripSigilsAt(t, i - 1);
      SigilsBeforeShift(s, i - 1);
      assert s[i] == t[i - 1];
    }
  }

  /** Text with no match is unchanged, and only such text is. */
  lemma StripSigilsUnchanged(s: string)
    ensures StripSigils(s) == s <==> forall i :: 0 <= i < |s| ==> !SigilAt(s, i)
  {
    if forall i :: 0 <= i < |s| ==> !SigilAt(s, i) {
      NoSigilsKept(s);
    } else {
      var i :| 0 <= i < |s| && SigilAt(s, i);
      StripSigilsLength(s);
      SigilsBeforeMonotone(s, i + 1, |s|);
    }
  }

  lemma {:induction false} NoSigilsKept(s: string)
    requires forall j :: 0 <= j < |s| ==> !SigilAt(s, j)
    ensures StripSigils(s) == s
  {
    if |s| > 0 {
      forall j | 0 <= j < |s| - 1 ensures !SigilAt(s[1..], j) {
        assert SigilAt(s[1..], j) == SigilAt(s, j + 1);
      }
      NoSigilsKept(s[1..]);
    }
  }

  /** The rewrite is not idempotent: `$$a` becomes `$a`, which a second
      pass would turn into `a`. */
  lemma StripSigilsNotIdempotent()
    ensures StripSigils("$$a") == "$a"
    ensures StripSigils(StripSigils("$$a")) == "a"
  {
    assert !SigilAt("$$a", 0) && SigilAt("$$a"[1..], 0);
    assert "$$a"[1..][1..] == "a";
    assert SigilAt("$a", 0);
  }

  // ---------------------------------------------------------------------
  // line-leading `return` -> `__flowise_return =`   (/^\s*return\b/mg)

  const ReturnCapture: string := "__flowise_return ="

  /** The length of the longest run of `\s` characters starting at `i`. */
  function SpaceRun(s: string, i: nat): (n: nat)
    requires i <= |s|
    ensures i + n <= |s|
    ensures forall k :: i <= k < i + n ==> IsSpace(s[k])
    ensures i + n == |s| || !IsSpace(s[i + n])
    decreases |s| - i
  {
    if i < |s| && IsSpace(s[i]) then 1 + SpaceRun(s, i + 1) else 0
  }

  /** The word `return` at `q`, followed by a word boundary. */
  predicate ReturnWordAt(s: string, q: int) {
    OccursAt(s, "return", q) && (q + 6 == |s| || !IsWordChar(s[q + 6]))
  }

  /** `^` in multiline mode; `atStart` says whether position 0 of `s` is
      itself the start of a line (it is for the whole text). */
  predicate LineStart(s: string, i: int, atStart: bool) {
    (i == 0 && atStart) || (0 < i <= |s| && IsLineTerminator(s[i - 1]))
  }

  /** The pattern matches at `i`. `\s*` only ever backtracks onto a white
      space character, never onto `r`, so only the longest run counts. */
  predicate ReturnMatchAt(s: string, i: int, atStart: bool) {
    0 <= i <= |s| && LineStart(s, i, atStart) && ReturnWordAt(s, i + SpaceRun(s, i))
  }

  function RewriteFrom(s: string, atStart: bool): string
    decreases |s|
  {
    if |s| == 0 then ""
    else if ReturnMatchAt(s, 0, atStart) then ReturnCapture + RewriteFrom(s[SpaceRun(s, 0) + 6..], false)
    else [s[0]] + RewriteFrom(s[1..], IsLineTerminator(s[0]))
  }

  /** The return rewrite over the whole user code. */
  function RewriteReturns(s: string): string {
    RewriteFrom(s, true)
  }

  lemma {:induction false} SpaceRunShift(s: string, i: nat)
    requires 1 <= i <= |s|
    ensures SpaceRun(s, i) == SpaceRun(s[1..], i - 1)
    decreases |s| - i
  {
    if i < |s| && IsSpace(s[i]) {
      SpaceRunShift(s, i + 1);
    }
  }

  lemma ReturnMatchShift(s: string, i: int, atStart: bool)
    requires 1 <= i <= |s|
    ensures ReturnMatchAt(s, i, atStart) <==> ReturnMatchAt(s[1..], i - 1, IsLineTerminator(s[0]))
  {
    SpaceRunShift(s, i);
    var q := i + SpaceRun(s, i);
    ReturnWordShift(s, q);
    assert LineStart(s, i, atStart) <==> LineStart(s[1..], i - 1, IsLineTerminator(s[0])) by {
      assert s[i - 1] == if i == 1 then s[0] else s[1..][i - 2];
    }
  }

  lemma ReturnWordShift(s: string, q: int)
    requires 1 <= q <= |s|
    ensures ReturnWordAt(s, q) <==> ReturnWordAt(s[1..], q - 1)
  {
    assert OccursAt(s, "return", q) <==> OccursAt(s[1..], "return", q - 1) by {
      if q + 6 <= |s| {
        assert s[q..q + 6] == s[1..][q - 1..q + 5];
      }
    }
    if q + 6 < |s| {
      assert s[q + 6] == s[1..][q + 5];
    }
  }

  /** Text in which the pattern matches nowhere comes out unchanged. */
  lemma {:induction false} RewriteFromUnchanged(s: string, atStart: bool)
    requires forall i :: 0 <= i <= |s| ==> !ReturnMatchAt(s, i, atStart)
    ensures RewriteFrom(s, atStart) == s
    decreases |s|
  {
    if |s| > 0 {
      forall i | 0 <= i <= |s[1..]| ensures !ReturnMatchAt(s[1..], i, IsLineTerminator(s[0])) {
        ReturnMatchShift(s, i + 1, atStart);
      }
      RewriteFromUnchanged(s[1..], IsLineTerminator(s[0]));
      assert s == [s[0]] + s[1..];
    }
  }

  /** Text in which the pattern matches somewhere is changed. */
  lemma {:induction false} RewriteFromChanges(s: string, atStart: bool, i: int)
    requires ReturnMatchAt(s, i, atStart)
    ensures RewriteFrom(s, atStart) != s
    decreases |s|
  {
    var out := RewriteFrom(s, atStart);
    if ReturnMatchAt(s, 0, atStart) {
      assert out[0] == '_';
      assert s[0] == 'r' || IsSpace(s[0]);
    } else {
      assert i > 0;
      ReturnMatchShift(s, i, atStart);
      RewriteFromChanges(s[1..], IsLineTerminator(s[0]), i - 1);
      assert out[1..] == RewriteFrom(s[1..], IsLineTerminator(s[0]));
    }
  }

  /** The rewrite leaves text alone exactly when no line starts with
      (white space and) the word `return`: `returned` or `returns`, or a
      `return` after other code on its line, are not touched. */
  lemma RewriteReturnsUnchanged(s: string)
    ensures RewriteReturns(s) == s <==> forall i :: 0 <= i <= |s| ==> !ReturnMatchAt(s, i, true)
  {
    if forall i :: 0 <= i <= |s| ==> !ReturnMatchAt(s, i, true) {
      RewriteFromUnchanged(s, true);
    } else {
      var i :| 0 <= i <= |s| && ReturnMatchAt(s, i, true);
      RewriteFromChanges(s, true, i);
    }
  }

  /** At the start of the code, all white space before `return` is
      consumed with it, line terminators included: blank lines before the
      statement and its indentation disappear. */
  lemma LeadingSpaceConsumed(space: string, rest: string)
    requires forall k :: 0 <= k < |space| ==> IsSpace(space[k])
    requires |rest| == 0 || !IsWordChar(rest[0])
    ensures RewriteReturns(space + "return" + rest) == ReturnCapture + RewriteFrom(rest, false)
  {
    var s := space + "return" + rest;
    SpaceRunOver(s, space);
    assert s[|space|..|space| + 6] == "return";
    assert ReturnMatchAt(s, 0, true) by {
      assert |space| + 6 == |s| || s[|space| + 6] == rest[0];
    }
    assert s[|space| + 6..] == rest;
  }

  lemma {:induction false} SpaceRunOver(s: string, space: string)
    requires StartsWith(s, space) && |space| < |s| && !IsSpace(s[|space|])
    requires forall k :: 0 <= k < |space| ==> IsSpace(space[k])
    ensures SpaceRun(s, 0) == |space|
  {
    assert forall k :: 0 <= k < |space| ==> s[k] == space[k];
  }

  /** The rewrite as evidently meant for top-level code: the white space
      the pattern consumes before `return` is put back, so an indented
      `return` stays inside its block. A `return` inside a `def` of the
      user's is still replaced, since telling the two apart needs Python's
      block structure. */
  function RewriteFromKeepingIndent(s: string, atStart: bool): string
    decreases |s|
  {
    if |s| == 0 then ""
    else if ReturnMatchAt(s, 0, atStart) then
      s[..SpaceRun(s, 0)] + ReturnCapture + RewriteFromKeepingIndent(s[SpaceRun(s, 0) + 6..], false)
    else [s[0]] + RewriteFromKeepingIndent(s[1..], IsLineTerminator(s[0]))
  }

  function RewriteReturnsKeepingIndent(s: string): string {
    RewriteFromKeepingIndent(s, true)
  }

  /** As written, the white space before a line-leading `return` goes
      with it: in `if a:\n  return b` the block the `return` closed is
      left empty and Python rejects the code. */
  lemma IndentedReturnDedented(head: string, space: string, rest: string)
    requires |head| == 0 || IsLineTerminator(head[|head| - 1])
    requires forall i :: 0 <= i < |head| ==> !ReturnMatchAt(head + (space + "return" + rest), i, true)
    requires forall k :: 0 <= k < |space| ==> IsSpace(space[k])
    requires |rest| == 0 || !IsWordChar(rest[0])
    ensures RewriteReturns(head + (space + "return" + rest)) == head + ReturnCapture + RewriteFrom(rest, false)
  {
    var t := space + "return" + rest;
    PrefixCopied(head, t);
    LeadingSpaceConsumed(space, rest);
    AppendRegroup(head, ReturnCapture, RewriteFrom(rest, false));
  }

  /** The corrected rewrite keeps that white space and replaces only the
      word, so `if a:\n  return b` keeps its block. */
  lemma IndentKept(head: string, space: string, rest: string)
    requires |head| == 0 || IsLineTerminator(head[|head| - 1])
    requires forall i :: 0 <= i < |head| ==> !ReturnMatchAt(head + (space + "return" + rest), i, true)
    requires forall k :: 0 <= k < |space| ==> IsSpace(space[k])
    requires |rest| == 0 || !IsWordChar(rest[0])
    ensures RewriteReturnsKeepingIndent(head + (space + "return" + rest))
         == head + (space + ReturnCapture + RewriteFromKeepingIndent(rest, false))
  {
    KeptAtLineStart(space, rest);
    KeepingPrefixCopied(head, space + "return" + rest);
  }

  lemma KeptAtLineStart(space: string, rest: string)
    requires forall k :: 0 <= k < |space| ==> IsSpace(space[k])
    requires |rest| == 0 || !IsWordChar(rest[0])
    ensures RewriteFromKeepingIndent(space + "return" + rest, true)
         == space + ReturnCapture + RewriteFromKeepingIndent(rest, false)
  {
    var s := space + "return" + rest;
    SpaceRunOver(s, space);
    assert s[|space|..|space| + 6] == "return";
    assert ReturnMatchAt(s, 0, true) by {
      assert |space| + 6 == |s| || s[|space| + 6] == rest[0];
    }
    assert s[..|space|] == space;
    assert s[|space| + 6..] == rest;
  }

  lemma PrefixCopied(head: string, t: string)
    requires |head| == 0 || IsLineTerminator(head[|head| - 1])
    requires forall i :: 0 <= i < |head| ==> !ReturnMatchAt(head + t, i, true)
    ensures RewriteFrom(head + t, true) == head + RewriteFrom(t, true)
  {
    if |head| > 0 {
      NoMatchBeforeFromAll(head + t, |head|, true);
      RewritePrefix(head, t, true);
    } else {
      assert head + t == t;
    }
  }

  lemma KeepingPrefixCopied(head: string, t: string)
    requires |head| == 0 || IsLineTerminator(head[|head| - 1])
    requires forall i :: 0 <= i < |head| ==> !ReturnMatchAt(head + t, i, true)
    ensures RewriteFromKeepingIndent(head + t, true) == head + RewriteFromKeepingIndent(t, true)
  {
    if |head| > 0 {
      NoMatchBeforeFromAll(head + t, |head|, true);
      KeepingIndentPrefix(head, t, true);
    } else {
      assert head + t == t;
    }
  }

  /** The pattern matches at none of the first `n` positions. */
  predicate NoMatchBefore(s: string, n: nat, atStart: bool)
    decreases n
  {
    n == 0 || (|s| > 0 && !ReturnMatchAt(s, 0, atStart) && NoMatchBefore(s[1..], n - 1, IsLineTerminator(s[0])))
  }

  lemma {:induction false} NoMatchBeforeFromAll(s: string, n: nat, atStart: bool)
    requires n <= |s|
    requires forall i :: 0 <= i < n ==> !ReturnMatchAt(s, i, atStart)
    ensures NoMatchBefore(s, n, atStart)
    decreases n
  {
    if n > 0 {
      forall i | 0 <= i < n - 1 ensures !ReturnMatchAt(s[1..], i, IsLineTerminator(s[0])) {
        ReturnMatchShift(s, i + 1, atStart);
      }
      NoMatchBeforeFromAll(s[1..], n - 1, IsLineTerminator(s[0]));
    }
  }

  /** Where the pattern does not match, one character is copied. */
  lemma RewriteFromStep(s: string, atStart: bool)
    requires |s| > 0 && !ReturnMatchAt(s, 0, atStart)
    ensures RewriteFrom(s, atStart) == [s[0]] + RewriteFrom(s[1..], IsLineTerminator(s[0]))
  {
  }

  lemma KeepingIndentStep(s: string, atStart: bool)
    requires |s| > 0 && !ReturnMatchAt(s, 0, atStart)
    ensures RewriteFromKeepingIndent(s, atStart) == [s[0]] + RewriteFromKeepingIndent(s[1..], IsLineTerminator(s[0]))
  {
  }

  /** One step of the prefix argument, with the first character split off. */
  lemma NoMatchBeforeCons(c: char, rest: string, n: nat, atStart: bool)
    requires NoMatchBefore([c] + rest, n + 1, atStart)
    ensures !ReturnMatchAt([c] + rest, 0, atStart)
    ensures NoMatchBefore(rest, n, IsLineTerminator(c))
  {
    assert ([c] + rest)[1..] == rest;
  }

  /** Text before a line break in which the pattern matches nowhere is
      copied, and the rest is rewritten from a fresh line. */
  lemma {:induction false} RewritePrefix(head: string, t: string, atStart: bool)
    requires |head| > 0 && IsLineTerminator(head[|head| - 1])
    requires NoMatchBefore(head + t, |head|, atStart)
    ensures RewriteFrom(head + t, atStart) == head + RewriteFrom(t, true)
    decreases |head|
  {
    var c, h := head[0], head[1..];
    assert head == [c] + h;
    AppendRegroup([c], h, t);
    NoMatchBeforeCons(c, h + t, |h|, atStart);
    RewriteFromStep([c] + (h + t), atStart);
    assert ([c] + (h + t))[1..] == h + t;
    if |h| > 0 {
      RewritePrefix(h, t, IsLineTerminator(c));
      AppendRegroup([c], h, RewriteFrom(t, true));
    }
  }

  lemma {:induction false} KeepingIndentPrefix(head: string, t: string, atStart: bool)
    requires |head| > 0 && IsLineTerminator(head[|head| - 1])
    requires NoMatchBefore(head + t, |head|, atStart)
    ensures RewriteFromKeepingIndent(head + t, atStart) == head + RewriteFromKeepingIndent(t, true)
    decreases |head|
  {
    var c, h := head[0], head[1..];
    assert head == [c] + h;
    AppendRegroup([c], h, t);
    NoMatchBeforeCons(c, h + t, |h|, atStart);
    KeepingIndentStep([c] + (h + t), atStart);
    assert ([c] + (h + t))[1..] == h + t;
    if |h| > 0 {
      KeepingIndentPrefix(h, t, IsLineTerminator(c));
      AppendRegroup([c], h, RewriteFromKeepingIndent(t, true));
    }
  }

  /** Like the rewrite as written, the corrected one leaves text alone
      exactly when no line starts with (white space and) `return`. */
  lemma KeepingIndentUnchanged(s: string)
    ensures RewriteReturnsKeepingIndent(s) == s <==> forall i :: 0 <= i <= |s| ==> !ReturnMatchAt(s, i, true)
  {
    if forall i :: 0 <= i <= |s| ==> !ReturnMatchAt(s, i, true) {
      KeepingIndentFromUnchanged(s, true);
    } else {
      var i :| 0 <= i <= |s| && ReturnMatchAt(s, i, true);
      KeepingIndentFromChanges(s, true, i);
    }
  }

  lemma {:induction false} KeepingIndentFromUnchanged(s: string, atStart: bool)
    requires forall i :: 0 <= i <= |s| ==> !ReturnMatchAt(s, i, atStart)
    ensures RewriteFromKeepingIndent(s, atStart) == s
    decreases |s|
  {
    if |s| > 0 {
      forall i | 0 <= i <= |s[1..]| ensures !ReturnMatchAt(s[1..], i, IsLineTerminator(s[0])) {
        ReturnMatchShift(s, i + 1, atStart);
      }
      KeepingIndentFromUnchanged(s[1..], IsLineTerminator(s[0]));
      assert s == [s[0]] + s[1..];
    }
  }

  lemma {:induction false} KeepingIndentFromChanges(s: string, atStart: bool, i: int)
    requires ReturnMatchAt(s, i, atStart)
    ensures RewriteFromKeepingIndent(s, atStart) != s
    decreases |s|
  {
    var out := RewriteFromKeepingIndent(s, atStart);
    if ReturnMatchAt(s, 0, atStart) {
      var n := SpaceRun(s, 0);
      assert out[n] == '_';
      assert s[n] == 'r';
    } else {
      assert i > 0;
      ReturnMatchShift(s, i, atStart);
      KeepingIndentFromChanges(s[1..], IsLineTerminator(s[0]), i - 1);
      assert out[1..] == RewriteFromKeepingIndent(s[1..], IsLineTerminator(s[0]));
    }
  }

  // ---------------------------------------------------------------------
  // `'''` -> `\'\'\'`   (/'''/g)

  function EscapeTripleQuotes(s: string): (r: string)
    ensures |r| >= |s|
  {
    if |s| == 0 then ""
    else if StartsWith(s, TripleQuote) then "\\'\\'\\'" + EscapeTripleQuotes(s[3..])
    else [s[0]] + EscapeTripleQuotes(s[1..])
  }

  /** Escaping changes text exactly when it contains `'''`. */
  lemma EscapeTripleQuotesUnchanged(s: string)
    ensures EscapeTripleQuotes(s) == s <==> !Contains(s, TripleQuote)
  {
    if Contains(s, TripleQuote) {
      var i :| 0 <= i <= |s| && OccursAt(s, TripleQuote, i);
      EscapeTripleQuotesGrows(s, i);
    } else {
      EscapeTripleQuotesPlain(s);
    }
  }

  lemma {:induction false} EscapeTripleQuotesGrows(s: string, i: int)
    requires OccursAt(s, TripleQuote, i)
    ensures |EscapeTripleQuotes(s)| > |s|
    decreases |s|
  {
    if !StartsWith(s, TripleQuote) {
      assert i > 0;
      assert s[1..][i - 1..i + 2] == s[i..i + 3];
      EscapeTripleQuotesGrows(s[1..], i - 1);
    }
  }

  lemma {:induction false} EscapeTripleQuotesPlain(s: string)
    requires !Contains(s, TripleQuote)
    ensures EscapeTripleQuotes(s) == s
    decreases |s|
  {
    if |s| > 0 {
      assert !OccursAt(s, TripleQuote, 0);
      assert !Contains(s[1..], TripleQuote) by {
        if Contains(s[1..], TripleQuote) {
          var i :| 0 <= i <= |s[1..]| && OccursAt(s[1..], TripleQuote, i);
          assert s[i + 1..i + 4] == s[1..][i..i + 3];
          assert OccursAt(s, TripleQuote, i + 1);
        }
      }
      EscapeTripleQuotesPlain(s[1..]);
      assert s == [s[0]] + s[1..];
    }
  }

  /** For code without backslashes the escaping does its job: the
      embedded literal, closed on the line after the code, reads back as
      exactly the code. */
  lemma {:induction false} TripleEscapeSoundWithoutBackslash(s: string, rest: string)
    requires '\\' !in s
    ensures ReadTripleQuoted(EscapeTripleQuotes(s) + "\n" + TripleQuote + rest) == Some((s + "\n", rest))
    decreases |s|
  {
    if |s| == 0 {
      var text := "\n" + (TripleQuote + rest);
      assert EscapeTripleQuotes(s) + "\n" + TripleQuote + rest == text;
      ReadClosing(rest);
      ReadOneChar(text);
      assert text[1..] == TripleQuote + rest;
      assert [text[0]] + "" == s + "\n";
    } else if StartsWith(s, TripleQuote) {
      assert forall c :: c in s[3..] ==> c in s;
      TripleEscapeSoundWithoutBackslash(s[3..], rest);
      TripleCase(s, rest);
    } else {
      assert forall c :: c in s[1..] ==> c in s;
      TripleEscapeSoundWithoutBackslash(s[1..], rest);
      PlainCase(s, rest);
    }
  }

  lemma TripleCase(s: string, rest: string)
    requires StartsWith(s, TripleQuote)
    requires ReadTripleQuoted(EscapeTripleQuotes(s[3..]) + "\n" + TripleQuote + rest) == Some((s[3..] + "\n", rest))
    ensures ReadTripleQuoted(EscapeTripleQuotes(s) + "\n" + TripleQuote + rest) == Some((s + "\n", rest))
  {
    var tail := EscapeTripleQuotes(s[3..]) + "\n" + TripleQuote + rest;
    assert EscapeTripleQuotes(s) == "\\'\\'\\'" + EscapeTripleQuotes(s[3..]);
    assert EscapeTripleQuotes(s) + "\n" + TripleQuote + rest == "\\'\\'\\'" + tail;
    ReadEscapedTriple(tail);
    assert s == TripleQuote + s[3..];
    assert "'''" + (s[3..] + "\n") == s + "\n";
  }

  lemma PlainCase(s: string, rest: string)
    requires |s| > 0 && !StartsWith(s, TripleQuote) && '\\' !in s
    requires ReadTripleQuoted(EscapeTripleQuotes(s[1..]) + "\n" + TripleQuote + rest) == Some((s[1..] + "\n", rest))
    ensures ReadTripleQuoted(EscapeTripleQuotes(s) + "\n" + TripleQuote + rest) == Some((s + "\n", rest))
  {
    var e := EscapeTripleQuotes(s[1..]);
    var tail := e + "\n" + TripleQuote + rest;
    var text := EscapeTripleQuotes(s) + "\n" + TripleQuote + rest;
    assert EscapeTripleQuotes(s) == [s[0]] + e;
    assert text == [s[0]] + tail;
    assert text[1..] == tail;
    assert s[0] in s;
    PlainHeadNotTriple(s, e, tail);
    ReadOneChar(text);
    assert [s[0]] + (s[1..] + "\n") == s + "\n";
  }

  /** The first character of the escaped code does not open a `'''`. */
  lemma PlainHeadNotTriple(s: string, e: string, tail: string)
    requires |s| > 0 && !StartsWith(s, TripleQuote) && '\\' !in s
    requires e == EscapeTripleQuotes(s[1..]) && StartsWith(tail, e + "\n")
    ensures !StartsWith([s[0]] + tail, TripleQuote)
  {
    if s[0] == '\'' {
      NoQuotePairAfter(s);
      var f := e + "\n";
      var text := [s[0]] + tail;
      assert tail[..|f|] == f;
      if |f| >= 2 {
        assert text[1..3] == f[..2];
      } else {
        assert text[1] == f[0] == '\n';
      }
    } else {
      assert ([s[0]] + tail)[0] == s[0];
    }
  }



  /** After a quote that does not begin `'''`, the escaped text does not
      continue with two more quotes. */
  lemma NoQuotePairAfter(s: string)
    requires |s| > 0 && s[0] == '\'' && !StartsWith(s, TripleQuote)
    requires '\\' !in s
    ensures !StartsWith(EscapeTripleQuotes(s[1..]) + "\n", "''")
  {
    var t := s[1..];
    var e := EscapeTripleQuotes(t);
    if |t| >= 3 && StartsWith(t, TripleQuote) {
      assert (e + "\n")[0] == '\\';
    } else if |t| > 0 {
      assert e == [t[0]] + EscapeTripleQuotes(t[1..]);
      assert (e + "\n")[0] == t[0];
      if t[0] == '\'' {
        assert |s| < 3 || s[2] != '\'';
        var u := t[1..];
        if |u| == 0 {
          assert e + "\n" == "'\n";
          assert (e + "\n")[1] == '\n';
        } else {
          assert u[0] != '\'';
          assert !StartsWith(u, TripleQuote);
          assert EscapeTripleQuotes(u)[0] == u[0];
          assert (e + "\n")[1] == u[0];
        }
      }
    }
  }

  lemma ReadEscapedTriple(tail: string)
    ensures ReadTripleQuoted("\\'\\'\\'" + tail) == Prepend("'''", ReadTripleQuoted(tail))
  {
    var q := ['\\', '\''];
    assert "\\'\\'\\'" + tail == q + (q + (q + tail));
    ReadEscapePair('\'', tail);
    ReadEscapePair('\'', q + tail);
    ReadEscapePair('\'', q + (q + tail));
    match ReadTripleQuoted(tail) {
      case None =>
      case Some(r) => assert "'" + ("'" + ("'" + r.0)) == "'''" + r.0;
    }
  }


  /** Text without backslashes or quotes reads as itself. */
  lemma {:induction false} ReadPlainPrefix(p: string, x: string)
    requires '\\' !in p && '\'' !in p
    ensures ReadTripleQuoted(p + x) == Prepend(p, ReadTripleQuoted(x))
    decreases |p|
  {
    if |p| == 0 {
      assert p + x == x;
      PrependNothing(ReadTripleQuoted(x));
    } else {
      assert p[0] in p;
      assert forall c :: c in p[1..] ==> c in p;
      ReadPlainPrefix(p[1..], x);
      assert p + x == [p[0]] + (p[1..] + x);
      ReadPlainChar(p[0], p[1..] + x);
      PrependTwice([p[0]], p[1..], ReadTripleQuoted(x));
      assert [p[0]] + p[1..] == p;
    }
  }

  lemma PrependNothing(r: Option<(string, string)>)
    ensures Prepend("", r) == r
  {
    if r.Some? {
      assert "" + r.value.0 == r.value.0;
    }
  }

  lemma PrependTwice(a: string, b: string, r: Option<(string, string)>)
    ensures Prepend(a, Prepend(b, r)) == Prepend(a + b, r)
  {
    if r.Some? {
      assert a + (b + r.value.0) == a + b + r.value.0;
    }
  }


  /** But backslashes in the code are left for the literal to interpret.
      A user's `print("a\nb")` (`p` = `print("a`, `q` = `b")`) reaches the
      interpreter with a real line break inside its string, which no
      longer parses: the text read back is not the code. */
  lemma TripleEscapeLosesBackslash(p: string, q: string)
    requires '\\' !in p && '\'' !in p && '\\' !in q && '\'' !in q
    ensures ReadTripleQuoted(EscapeTripleQuotes(p + "\\n" + q) + "\n" + TripleQuote)
         == Some((p + "\n" + q + "\n", ""))
    ensures p + "\n" + q + "\n" != p + "\\n" + q + "\n"
  {
    EscapedNewlineUntouched(p, q);
    EscapedNewlineRead(p, q, "");
    assert p + "\\n" + q + "\n" + TripleQuote + "" == p + "\\n" + q + "\n" + TripleQuote;
    assert |p + "\n" + q + "\n"| != |p + "\\n" + q + "\n"|;
  }

  lemma EscapedNewlineUntouched(p: string, q: string)
    requires '\'' !in p && '\'' !in q
    ensures EscapeTripleQuotes(p + "\\n" + q) == p + "\\n" + q
  {
    var code := p + "\\n" + q;
    assert forall i :: 0 <= i < |code| ==> code[i] in p || code[i] in "\\n" || code[i] in q;
    NoQuoteNoTriple(code);
    EscapeTripleQuotesPlain(code);
  }

  lemma EscapedNewlineRead(p: string, q: string, rest: string)
    requires '\\' !in p && '\'' !in p && '\\' !in q && '\'' !in q
    ensures ReadTripleQuoted(p + "\\n" + q + "\n" + TripleQuote + rest) == Some((p + "\n" + q + "\n", rest))
  {
    var after := ['\\', 'n'] + (q + "\n" + TripleQuote + rest);
    EscapedNewlineThenPlain(q, rest);
    ReadPlainPrefix(p, after);
    assert "\\n" == ['\\', 'n'];
    assert p + "\\n" + q + "\n" + TripleQuote + rest == p + after;
    Regroup4(p, "\n", q, "\n");
  }

  lemma EscapedNewlineThenPlain(q: string, rest: string)
    requires '\\' !in q && '\'' !in q
    ensures ReadTripleQuoted(['\\', 'n'] + (q + "\n" + TripleQuote + rest)) == Some(("\n" + (q + "\n"), rest))
  {
    ClosingAfterPlain(q + "\n", rest);
    ReadEscapePair('n', q + "\n" + TripleQuote + rest);
  }

  /** Regrouping concatenations. */
  lemma Regroup4(a: string, b: string, c: string, d: string)
    ensures a + b + c + d == a + (b + (c + d))
  {
  }

  lemma ClosingAfterPlain(x: string, rest: string)
    requires '\\' !in x && '\'' !in x
    ensures ReadTripleQuoted(x + TripleQuote + rest) == Some((x, rest))
  {
    ReadClosing(rest);
    ReadPlainPrefix(x, TripleQuote + rest);
    assert x + TripleQuote + rest == x + (TripleQuote + rest);
    assert x + "" == x;
  }

  lemma NoQuoteNoTriple(s: string)
    requires '\'' !in s
    ensures !Contains(s, TripleQuote)
  {
    forall i | 0 <= i <= |s|
      ensures !OccursAt(s, TripleQuote, i)
    {
      if i + |TripleQuote| <= |s| {
        assert s[i..i + |TripleQuote|][0] == s[i];
      }
    }
  }

  /** The corrected embedding escapes backslashes as well, and any code
      whatsoever reads back unchanged. */
  lemma EmbeddedCodeReadsBack(code: string, rest: string)
    ensures ReadTripleQuoted(EscapeLiteral("\n" + code + "\n") + TripleQuote + rest) == Some(("\n" + code + "\n", rest))
  {
    ReadEscapedLiteral("\n" + code + "\n", rest);
  }

  // ---------------------------------------------------------------------
  // the escape and the interpreter's newline normalisation

  lemma EscapeTripleCons(x: char, t: string)
    requires x != '\''
    ensures EscapeTripleQuotes([x] + t) == [x] + EscapeTripleQuotes(t)
  {
    assert ([x] + t)[0] == x && ([x] + t)[1..] == t;
  }

  lemma EscapeTripleQuoteCons(t: string)
    requires !StartsWith(t, "''")
    ensures EscapeTripleQuotes("'" + t) == "'" + EscapeTripleQuotes(t)
  {
    var s := "'" + t;
    assert s[1..] == t;
    assert |s| >= 3 ==> s[1..3] == t[..2];
  }

  lemma EscapeTripleOpening(t: string)
    ensures EscapeTripleQuotes(TripleQuote + t) == "\\'\\'\\'" + EscapeTripleQuotes(t)
  {
    var s := TripleQuote + t;
    assert s[..3] == TripleQuote && s[3..] == t;
  }

  /** The first character of the escaped text: a backslash where `'''`
      opens the text, and otherwise the text's own first character. */
  lemma EscapeTripleHead(t: string)
    requires |t| > 0
    ensures |EscapeTripleQuotes(t)| > 0
    ensures EscapeTripleQuotes(t)[0] == (if StartsWith(t, TripleQuote) then '\\' else t[0])
  {
  }

  /** A line break after the text is left as it is. */
  lemma {:induction false} EscapeTripleAppendLF(s: string)
    ensures EscapeTripleQuotes(s + "\n") == EscapeTripleQuotes(s) + "\n"
    decreases |s|
  {
    if |s| == 0 {
      assert s + "\n" == ['\n'] + "";
      EscapeTripleCons('\n', "");
    } else if StartsWith(s, TripleQuote) {
      var t := s[3..];
      assert s == TripleQuote + t;
      EscapeTripleAppendLF(t);
      AppendLFTriple(t);
    } else {
      EscapeTripleAppendLF(s[1..]);
      assert s == [s[0]] + s[1..] && s + "\n" == [s[0]] + (s[1..] + "\n");
      AppendLFPlain(s[0], s[1..]);
    }
  }

  lemma AppendLFTriple(t: string)
    requires EscapeTripleQuotes(t + "\n") == EscapeTripleQuotes(t) + "\n"
    ensures EscapeTripleQuotes(TripleQuote + t + "\n") == EscapeTripleQuotes(TripleQuote + t) + "\n"
  {
    AppendRegroup(TripleQuote, t, "\n");
    EscapeTripleOpening(t + "\n");
    EscapeTripleOpening(t);
    AppendRegroup("\\'\\'\\'", EscapeTripleQuotes(t), "\n");
  }

  lemma AppendLFPlain(c: char, t: string)
    requires !StartsWith([c] + t, TripleQuote)
    requires EscapeTripleQuotes(t + "\n") == EscapeTripleQuotes(t) + "\n"
    ensures EscapeTripleQuotes([c] + (t + "\n")) == EscapeTripleQuotes([c] + t) + "\n"
  {
    AppendLFNotTriple([c] + t);
    assert [c] + t + "\n" == [c] + (t + "\n");
    PlainEscape(c, t + "\n");
    PlainEscape(c, t);
    AppendRegroup([c], EscapeTripleQuotes(t), "\n");
  }

  lemma AppendLFNotTriple(s: string)
    requires |s| > 0 && !StartsWith(s, TripleQuote)
    ensures !StartsWith(s + "\n", TripleQuote)
  {
    var x := s + "\n";
    assert x[|s|] == '\n';
    assert |s| >= 3 ==> s[..3] == x[..3];
  }

  /** A normalised text starting with anything but LF starts with the
      original text's first character, and the rest is the normalised
      rest. */
  lemma NewlinesHead(t: string)
    requires |SourceNewlines(t)| > 0 && SourceNewlines(t)[0] != '\n'
    ensures |t| > 0 && t[0] == SourceNewlines(t)[0] && t[0] != '\r'
    ensures SourceNewlines(t)[1..] == SourceNewlines(t[1..])
  {
    assert t == [t[0]] + t[1..];
    NewlinesCons(t[0], t[1..]);
  }

  /** Normalising does not create a pair of quotes at the start. */
  lemma NewlinesNoQuotePair(t: string)
    requires !StartsWith(t, "''")
    ensures !StartsWith(SourceNewlines(t), "''")
  {
    var n := SourceNewlines(t);
    if StartsWith(n, "''") {
      assert n[0] == '\'' && n[1] == '\'';
      NewlinesHead(t);
      assert n[1..][0] == '\'';
      NewlinesHead(t[1..]);
    }
  }

  /** Escaping `'''` commutes with the interpreter's normalisation of
      line endings: the escape only touches quotes, and it never puts
      anything between a CR and the LF after it. */
  lemma {:induction false} NewlinesEscapeTriple(s: string)
    ensures SourceNewlines(EscapeTripleQuotes(s)) == EscapeTripleQuotes(SourceNewlines(s))
    decreases |s|
  {
    if |s| == 0 {
    } else if StartsWith(s, TripleQuote) {
      NewlinesEscapeTriple(s[3..]);
      OpeningCommutes(s);
    } else if s[0] == '\r' && |s| > 1 && s[1] == '\n' {
      NewlinesEscapeTriple(s[2..]);
      assert s == "\r\n" + s[2..];
      CRLFCommutes(s[2..]);
    } else if s[0] == '\r' {
      NewlinesEscapeTriple(s[1..]);
      assert s == "\r" + s[1..];
      LoneCRCommutes(s[1..]);
    } else {
      NewlinesEscapeTriple(s[1..]);
      assert s == [s[0]] + s[1..];
      PlainCommutes(s[0], s[1..]);
    }
  }

  lemma OpeningCommutes(s: string)
    requires StartsWith(s, TripleQuote)
    requires SourceNewlines(EscapeTripleQuotes(s[3..])) == EscapeTripleQuotes(SourceNewlines(s[3..]))
    ensures SourceNewlines(EscapeTripleQuotes(s)) == EscapeTripleQuotes(SourceNewlines(s))
  {
    var e3 := "\\'\\'\\'";
    assert s == TripleQuote + s[3..];
    EscapeTripleOpening(s[3..]);
    NewlinesAppend(e3, EscapeTripleQuotes(s[3..]));
    NewlinesAppend(TripleQuote, s[3..]);
    EscapeTripleOpening(SourceNewlines(s[3..]));
  }

  lemma CRLFCommutes(t: string)
    requires SourceNewlines(EscapeTripleQuotes(t)) == EscapeTripleQuotes(SourceNewlines(t))
    ensures SourceNewlines(EscapeTripleQuotes("\r\n" + t)) == EscapeTripleQuotes(SourceNewlines("\r\n" + t))
  {
    EscapeTripleCRLF(t);
    NewlinesCRLF(EscapeTripleQuotes(t));
    NewlinesCRLF(t);
    EscapeTripleCons('\n', SourceNewlines(t));
  }

  lemma EscapeTripleCRLF(t: string)
    ensures EscapeTripleQuotes("\r\n" + t) == "\r\n" + EscapeTripleQuotes(t)
  {
    assert "\r\n" + t == ['\r'] + (['\n'] + t);
    EscapeTripleCons('\r', ['\n'] + t);
    EscapeTripleCons('\n', t);
  }

  lemma LoneCRCommutes(t: string)
    requires |t| == 0 || t[0] != '\n'
    requires SourceNewlines(EscapeTripleQuotes(t)) == EscapeTripleQuotes(SourceNewlines(t))
    ensures SourceNewlines(EscapeTripleQuotes("\r" + t)) == EscapeTripleQuotes(SourceNewlines("\r" + t))
  {
    var e := EscapeTripleQuotes(t);
    assert "\r" + t == ['\r'] + t;
    EscapeTripleCons('\r', t);
    if |t| > 0 {
      EscapeTripleHead(t);
    } else {
      assert e == "";
    }
    NewlinesLoneCR(e);
    NewlinesLoneCR(t);
    EscapeTripleCons('\n', SourceNewlines(t));
  }

  lemma PlainCommutes(x: char, t: string)
    requires x != '\r' && !StartsWith([x] + t, TripleQuote)
    requires SourceNewlines(EscapeTripleQuotes(t)) == EscapeTripleQuotes(SourceNewlines(t))
    ensures SourceNewlines(EscapeTripleQuotes([x] + t)) == EscapeTripleQuotes(SourceNewlines([x] + t))
  {
    PlainEscape(x, t);
    NewlinesCons(x, EscapeTripleQuotes(t));
    NewlinesCons(x, t);
    if x == '\'' {
      NewlinesNoQuotePair(t);
      EscapeTripleQuoteCons(SourceNewlines(t));
    } else {
      EscapeTripleCons(x, SourceNewlines(t));
    }
  }

  /** A first character that does not open `'''` is kept, and a quote
      there is not followed by two more. */
  lemma PlainEscape(x: char, t: string)
    requires !StartsWith([x] + t, TripleQuote)
    ensures EscapeTripleQuotes([x] + t) == [x] + EscapeTripleQuotes(t)
    ensures x == '\'' ==> !StartsWith(t, "''")
  {
    var s := [x] + t;
    assert s[0] == x && s[1..] == t;
    assert |t| >= 2 ==> s[..3] == [x] + t[..2];
  }
}

=== FILE: tool_script.dfy ===
/** The Python script the tool writes for each call, and what that script
    does once the interpreter runs it: bind the payload, copy the input's
    identifier-named properties into the globals, execute the user code,
    pick the result and print it as JSON. The user code's own effect is
    a parameter: only the text around it is modelled. */
module ToolScript {
  import opened Wrappers
  import opened Text
  import opened Js
  import Assoc
  import opened PyLiteral
  import ToolCode

  // ---------------------------------------------------------------------
  // the script text

  /** Everything before the user code: the payload preamble, the globals
      injection loop and the opening of the `user_code` literal. */
  const ScriptHeadLines: seq<string> := [
    "import sys, json, traceback",
    "",
    "payload = json.load(sys.stdin)",
    "_input = payload.get('input', {})",
    "vars = payload.get('vars', {})",
    "flow = payload.get('flow', {})",
    "",
    "# inject input properties as globals for easier access inside user code",
    "for _k, _v in _input.items():",
    "    try:",
    "        if isinstance(_k, str) and _k.isidentifier():",
    "            globals()[_k] = _v",
    "    except Exception:",
    "        pass",
    "",
    "# User code starts here",
    "user_code = '''"]

  const ScriptHead: string := Join(ScriptHeadLines, '\n')

  /** Everything after the closing quotes: `exec`, result selection and
      the final `print(json.dumps(...))`. */
  const ScriptTailLines: seq<string> := [
    "",
    "",
    "try:",
    "    exec(user_code, globals())",
    "except Exception:",
    "    traceback.print_exc(file=sys.stderr)",
    "    sys.exit(1)",
    "",
    "# Determine result:",
    "if '__flowise_user_func' in globals() and callable(globals()['__flowise_user_func']):",
    "    try:",
    "        result = globals()['__flowise_user_func'](payload)",
    "    except Exception:",
    "        traceback.print_exc(file=sys.stderr)",
    "        sys.exit(1)",
    "elif '__flowise_return' in globals():",
    "    result = globals().get('__flowise_return')",
    "elif 'result' in globals():",
    "    result = globals().get('result')",
    "else:",
    "    result = None",
    "",
    "print(json.dumps(result, default=str))",
    ""]

  const ScriptTail: string := Join(ScriptTailLines, '\n')

  /** The script around already-escaped user code. */
  function ScriptAround(escaped: string): string {
    ScriptHead + "\n" + escaped + "\n" + TripleQuote + ScriptTail
  }

  /** The script as the tool writes it: only `'''` is escaped. */
  function ScriptTextAsWritten(code: string): string {
    ScriptAround(ToolCode.EscapeTripleQuotes(code))
  }

  /** The script with the corrected escape (backslashes, then quotes). */
  function ScriptText(code: string): string {
    ScriptAround(EscapeLiteral(code))
  }

  /** The fixed head ends with the literal's opening quotes. */
  lemma HeadEndsWithQuote()
    ensures |ScriptHead| > 0 && ScriptHead[|ScriptHead| - 1] == '\''
  {
    var last := ScriptHeadLines[|ScriptHeadLines| - 1];
    assert last == "user_code = '''";
    JoinLast(ScriptHeadLines, '\n');
  }

  /** The value the interpreter gives `user_code`. The script file is
      read with its line endings normalised (so the fixed head and tail
      are compared as read too), and the literal must close exactly
      where the fixed tail begins; `None` when the script does not have
      that shape (it then fails to compile, or runs something other than
      the intended tail). */
  function UserCodeOf(script: string): (r: Option<string>)
    ensures r.Some? ==> StartsWith(SourceNewlines(script), SourceNewlines(ScriptHead))
  {
    var text := SourceNewlines(script);
    var head := SourceNewlines(ScriptHead);
    if StartsWith(text, head) then
      match ReadTripleQuoted(text[|head|..])
      case Some((body, rest)) => if rest == SourceNewlines(ScriptTail) then Some(body) else None
      case None => None
    else None
  }

  /** The text `user_code` is meant to hold for `code`: the code between
      two line breaks, with its line endings as the interpreter reads
      them. Code without a CR is kept exactly. */
  function UserCodeText(code: string): (r: string)
    ensures '\r' !in r
    ensures '\r' !in code ==> r == "\n" + code + "\n"
  {
    SourceNewlines("\n" + code + "\n")
  }

  /** As the tool writes it, code without backslashes reaches the
      interpreter with nothing changed but its line endings: `user_code`
      is the code between two line breaks, even when the code contains
      `'''`, and exactly that when the code holds no CR. */
  lemma ScriptCarriesCode(code: string)
    requires '\\' !in code
    ensures UserCodeOf(ScriptTextAsWritten(code)) == Some(UserCodeText(code))
    ensures '\r' !in code ==> UserCodeOf(ScriptTextAsWritten(code)) == Some("\n" + code + "\n")
  {
    var m := "\n" + ToolCode.EscapeTripleQuotes(code) + "\n";
    AsWrittenMiddle(code, SourceNewlines(ScriptTail));
    AroundMiddle(ToolCode.EscapeTripleQuotes(code));
    UserCodeFromMiddle(m, UserCodeText(code));
  }

  /** Windows line endings: code whose two CR-free lines are separated
      by CR LF reaches the interpreter with a plain LF between them. */
  lemma WindowsLineEndings(a: string, b: string)
    requires '\\' !in a && '\r' !in a && '\\' !in b && '\r' !in b
    ensures UserCodeOf(ScriptTextAsWritten(a + "\r\n" + b)) == Some("\n" + a + "\n" + b + "\n")
  {
    assert '\\' !in a + "\r\n" + b;
    ScriptCarriesCode(a + "\r\n" + b);
    WindowsText(a, b);
  }

  lemma WindowsText(a: string, b: string)
    requires '\r' !in a && '\r' !in b
    ensures UserCodeText(a + "\r\n" + b) == "\n" + a + "\n" + b + "\n"
  {
    assert "\n" + (a + "\r\n" + b) + "\n" == ("\n" + a) + ("\r\n" + (b + "\n"));
    assert '\r' !in "\n" + a && '\r' !in b + "\n";
    CRLFBetween("\n" + a, b + "\n");
    assert ("\n" + a) + ("\n" + (b + "\n")) == "\n" + a + "\n" + b + "\n";
  }

  lemma CRLFBetween(a: string, b: string)
    requires '\r' !in a && '\r' !in b
    ensures SourceNewlines(a + ("\r\n" + b)) == a + ("\n" + b)
  {
    if |a| > 0 {
      assert a[|a| - 1] in a;
    }
    NewlinesAppend(a, "\r\n" + b);
    NewlinesCRLF(b);
  }

  /** But a backslash in the code is read by the literal before the code
      runs: code holding `\n` between two quote- and backslash-free parts
      reaches the interpreter with a real line break in its place, so
      `user_code` is not the code the user wrote. */
  lemma ScriptReinterpretsEscapes(p: string, q: string)
    requires '\\' !in p && '\'' !in p && '\\' !in q && '\'' !in q
    ensures UserCodeOf(ScriptTextAsWritten(p + "\\n" + q))
         == Some(SourceNewlines("\n" + p) + "\n" + SourceNewlines(q + "\n"))
    ensures SourceNewlines("\n" + p) + "\n" + SourceNewlines(q + "\n") != UserCodeText(p + "\\n" + q)
    ensures '\r' !in p && '\r' !in q ==>
      UserCodeOf(ScriptTextAsWritten(p + "\\n" + q)) == Some("\n" + p + "\n" + q + "\n")
  {
    var code := p + "\\n" + q;
    ToolCode.EscapedNewlineUntouched(p, q);
    var value := SourceNewlines("\n" + p) + "\n" + SourceNewlines(q + "\n");
    ReinterpretMiddle(p, q, SourceNewlines(ScriptTail));
    AroundMiddle(code);
    UserCodeFromMiddle("\n" + code + "\n", value);
    if '\r' !in p && '\r' !in q {
      ExactWithoutCR(p, q);
    }
  }

  lemma ExactWithoutCR(p: string, q: string)
    requires '\r' !in p && '\r' !in q
    ensures SourceNewlines("\n" + p) + "\n" + SourceNewlines(q + "\n") == "\n" + p + "\n" + q + "\n"
  {
    assert '\r' !in "\n" + p && '\r' !in q + "\n";
  }

  /** The script as a fixed head, a middle ending with a line break,
      and the closing quotes before the fixed tail. */
  lemma AroundMiddle(escaped: string)
    ensures ScriptAround(escaped) == ScriptHead + (("\n" + escaped + "\n") + (TripleQuote + ScriptTail))
    ensures var m := "\n" + escaped + "\n"; |m| > 0 && m[|m| - 1] == '\n'
  {
    Regroup(ScriptHead, escaped, ScriptTail);
  }

  lemma Regroup(head: string, e: string, tail: string)
    ensures head + "\n" + e + "\n" + TripleQuote + tail == head + (("\n" + e + "\n") + (TripleQuote + tail))
  {
  }

  /** `user_code` is what the literal reads from the normalised middle,
      when the literal closes right before the fixed tail. */
  lemma UserCodeFromMiddle(m: string, value: string)
    requires |m| > 0 && m[|m| - 1] == '\n'
    requires ReadTripleQuoted(SourceNewlines(m) + (TripleQuote + SourceNewlines(ScriptTail)))
          == Some((value, SourceNewlines(ScriptTail)))
    ensures UserCodeOf(ScriptHead + (m + (TripleQuote + ScriptTail))) == Some(value)
  {
    HeadEndsWithQuote();
    NormalisedShape(ScriptHead, m, ScriptTail);
  }

  /** Normalising a script touches its parts one by one when the head
      does not end with a CR and the middle ends with a line break. */
  lemma NormalisedShape(head: string, m: string, tail: string)
    requires |head| > 0 && head[|head| - 1] != '\r' && |m| > 0 && m[|m| - 1] == '\n'
    ensures var text := SourceNewlines(head + (m + (TripleQuote + tail)));
      StartsWith(text, SourceNewlines(head))
      && text[|SourceNewlines(head)|..] == SourceNewlines(m) + (TripleQuote + SourceNewlines(tail))
  {
    NewlinesAppend(head, m + (TripleQuote + tail));
    NewlinesAppend(m, TripleQuote + tail);
    NewlinesAppend(TripleQuote, tail);
    assert SourceNewlines(TripleQuote) == TripleQuote by { assert '\r' !in TripleQuote; }
    AfterPrefix(SourceNewlines(head), SourceNewlines(m) + (TripleQuote + SourceNewlines(tail)));
  }

  /** The as-written middle of code without backslashes reads back as
      the code with its line endings normalised. */
  lemma AsWrittenMiddle(code: string, tail: string)
    requires '\\' !in code
    ensures var m := "\n" + ToolCode.EscapeTripleQuotes(code) + "\n";
      ReadTripleQuoted(SourceNewlines(m) + (TripleQuote + tail)) == Some((UserCodeText(code), tail))
  {
    var x := "\n" + code + "\n";
    EscapedMiddle(code);
    ToolCode.NewlinesEscapeTriple(x);
    assert '\\' !in x by { assert forall c :: c in x ==> c == '\n' || c in code; }
    ReadNormalisedAsWritten(x, tail);
  }

  lemma EscapedMiddle(code: string)
    requires '\\' !in code
    ensures ToolCode.EscapeTripleQuotes("\n" + code + "\n") == "\n" + ToolCode.EscapeTripleQuotes(code) + "\n"
  {
    EscapeAfterLineBreak(code);
    ToolCode.EscapeTripleAppendLF("\n" + code);
  }

  /** Backslash-free text ending with a line break, normalised and then
      escaped as the tool does, reads back as the normalised text. */
  lemma ReadNormalisedAsWritten(x: string, tail: string)
    requires '\\' !in x && |x| > 0 && x[|x| - 1] == '\n'
    ensures ReadTripleQuoted(ToolCode.EscapeTripleQuotes(SourceNewlines(x)) + (TripleQuote + tail))
         == Some((SourceNewlines(x), tail))
  {
    var s := LastLineOf(x);
    assert '\\' !in s by {
      if '\\' in s { assert '\\' in s + "\n"; NewlinesChars(x, '\\'); }
    }
    ReadEscapedLine(s, tail);
  }

  lemma ReadEscapedLine(s: string, tail: string)
    requires '\\' !in s
    ensures ReadTripleQuoted(ToolCode.EscapeTripleQuotes(s + "\n") + (TripleQuote + tail)) == Some((s + "\n", tail))
  {
    ToolCode.EscapeTripleAppendLF(s);
    ToolCode.TripleEscapeSoundWithoutBackslash(s, tail);
    assert ToolCode.EscapeTripleQuotes(s) + "\n" + (TripleQuote + tail)
        == ToolCode.EscapeTripleQuotes(s) + "\n" + TripleQuote + tail;
  }

  /** The normalised text before its final line break. */
  lemma LastLineOf(x: string) returns (s: string)
    requires |x| > 0 && x[|x| - 1] == '\n'
    ensures SourceNewlines(x) == s + "\n"
  {
    NewlinesLastLF(x);
    var y := SourceNewlines(x);
    s := y[..|y| - 1];
    assert y == s + "\n";
  }

  /** The middle of the escaped-newline code: `\n` is read as a line
      break between the two normalised parts. */
  lemma ReinterpretMiddle(p: string, q: string, tail: string)
    requires '\\' !in p && '\'' !in p && '\\' !in q && '\'' !in q
    ensures ReadTripleQuoted(SourceNewlines("\n" + (p + "\\n" + q) + "\n") + (TripleQuote + tail))
         == Some((SourceNewlines("\n" + p) + "\n" + SourceNewlines(q + "\n"), tail))
    ensures '\\' in SourceNewlines("\n" + (p + "\\n" + q) + "\n")
    ensures '\\' !in SourceNewlines("\n" + p) + "\n" + SourceNewlines(q + "\n")
  {
    var a, b := SourceNewlines("\n" + p), SourceNewlines(q + "\n");
    NormalisedEscape(p, q);
    var b0 := LastLineOf(q + "\n");
    PlainAfterNormalising("\n" + p, a, a);
    PlainAfterNormalising(q + "\n", b, b0);
    ReinterpretRead(a, b0, tail);
  }

  lemma ReinterpretRead(a: string, b0: string, tail: string)
    requires '\\' !in a && '\'' !in a && '\\' !in b0 && '\'' !in b0
    ensures ReadTripleQuoted(a + "\\n" + (b0 + "\n") + (TripleQuote + tail)) == Some((a + "\n" + (b0 + "\n"), tail))
    ensures '\\' in a + "\\n" + (b0 + "\n")
    ensures '\\' !in a + "\n" + (b0 + "\n")
  {
    ToolCode.EscapedNewlineRead(a, b0, tail);
    assert a + "\\n" + (b0 + "\n") + (TripleQuote + tail) == a + "\\n" + b0 + "\n" + TripleQuote + tail;
    assert a + "\n" + b0 + "\n" == a + "\n" + (b0 + "\n");
    assert (a + "\\n" + (b0 + "\n"))[|a|] == '\\';
  }

  /** Normalising the escaped-newline code keeps `\n` where it is. */
  lemma NormalisedEscape(p: string, q: string)
    ensures SourceNewlines("\n" + (p + "\\n" + q) + "\n")
         == SourceNewlines("\n" + p) + "\\n" + SourceNewlines(q + "\n")
  {
    var rest := q + "\n";
    assert "\n" + (p + "\\n" + q) + "\n" == ("\n" + p) + ("\\" + ("n" + rest));
    NewlinesAppend("\n" + p, "\\" + ("n" + rest));
    NewlinesCons('\\', "n" + rest);
    NewlinesCons('n', rest);
  }

  /** A part of normalised quote- and backslash-free text is itself free
      of both. */
  lemma PlainAfterNormalising(s: string, n: string, part: string)
    requires '\\' !in s && '\'' !in s && n == SourceNewlines(s)
    requires forall c :: c in part ==> c in n
    ensures '\\' !in part && '\'' !in part
  {
    if '\\' in part { NewlinesChars(s, '\\'); }
    if '\'' in part { NewlinesChars(s, '\''); }
  }

  /** A leading line break is neither a backslash nor part of `'''`. */
  lemma EscapeAfterLineBreak(code: string)
    requires '\\' !in code
    ensures '\\' !in "\n" + code
    ensures ToolCode.EscapeTripleQuotes("\n" + code) == "\n" + ToolCode.EscapeTripleQuotes(code)
  {
    var s := "\n" + code;
    assert forall c :: c in s ==> c == '\n' || c in code;
    assert !StartsWith(s, TripleQuote) by { assert s[0] == '\n'; }
    assert s[1..] == code;
  }

  lemma AfterPrefix(a: string, b: string)
    ensures StartsWith(a + b, a) && (a + b)[|a|..] == b
  {
    assert (a + b)[..|a|] == a;
  }

  /** With the corrected escape, whatever the user wrote, backslashes
      included, the interpreter's `user_code` is that code between two
      line breaks with its line endings normalised, and exactly the code
      when it holds no CR. */
  lemma CorrectedScriptCarriesCode(code: string)
    ensures UserCodeOf(ScriptText(code)) == Some(UserCodeText(code))
    ensures '\r' !in code ==> UserCodeOf(ScriptText(code)) == Some("\n" + code + "\n")
  {
    CorrectedMiddle(code, SourceNewlines(ScriptTail));
    AroundMiddle(EscapeLiteral(code));
    UserCodeFromMiddle("\n" + EscapeLiteral(code) + "\n", UserCodeText(code));
  }

  /** The corrected middle reads back as any code with its line endings
      normalised. */
  lemma CorrectedMiddle(code: string, tail: string)
    ensures var m := "\n" + EscapeLiteral(code) + "\n";
      ReadTripleQuoted(SourceNewlines(m) + (TripleQuote + tail)) == Some((UserCodeText(code), tail))
  {
    var x := "\n" + code + "\n";
    EscapedAround(code);
    NewlinesEscapeLiteral(x);
    ReadEscapedLiteral(SourceNewlines(x), tail);
    AppendRegroup(EscapeLiteral(SourceNewlines(x)), TripleQuote, tail);
  }

  lemma EscapedAround(code: string)
    ensures EscapeLiteral("\n" + code + "\n") == "\n" + EscapeLiteral(code) + "\n"
  {
    EscapeLiteralAppend("\n", code);
    EscapeLiteralAppend("\n" + code, "\n");
    assert EscapeLiteral("\n") == "\n";
  }

  // ---------------------------------------------------------------------
  // the interpreter's view

  /** How a piece of Python ends: normally with a value and what it
      printed, by an uncaught exception (its traceback), or by
      `sys.exit(status)`. */
  datatype Run<T> =
    | Completed(printed: string, value: T)
    | Raised(printed: string, trace: string)
    | Exited(printed: string, status: int)

  /** A global name's value: JSON-like data, a callable (its `str()` and
      how calling it with an argument ends), or an imported module. */
  datatype Binding =
    | Data(v: Value)
    | Callable(repr: string, call: Value -> Run<Value>)
    | Module(name: string)

  /** The script's globals. A builtin such as `print` is found only while
      no global of its name exists. */
  type Globals = map<string, Binding>

  /** What `json.dumps(x, default=str)` serialises: data as itself,
      anything else as its `str()`. */
  function AsJson(b: Binding): Value {
    match b
    case Data(v) => v
    case Callable(repr, _) => Str(repr)
    case Module(name) => Str("<module '" + name + "'>")
  }

  /** `d.get(k, dflt)` on a dict. */
  function PyGet(d: seq<(string, Value)>, k: string, dflt: Value): (r: Value)
    ensures k !in Assoc.Keys(d) ==> r == dflt
    ensures k in Assoc.Keys(d) ==> Some(r) == Assoc.Lookup(d, k)
  {
    match Assoc.Lookup(d, k)
    case Some(v) => v
    case None => dflt
  }

  // ---------------------------------------------------------------------
  // the injection loop

  /** The builtins the loop body calls are still the builtins. */
  predicate LoopIntact(g: Globals) {
    "isinstance" !in g && "str" !in g && "globals" !in g
  }

  /** No input property is named after one of those builtins. */
  predicate LoopSafe(items: seq<(string, Value)>) {
    forall i :: 0 <= i < |items| ==> items[i].0 != "isinstance" && items[i].0 != "str" && items[i].0 != "globals"
  }

  /** One turn of the loop: `_k` and `_v` are rebound, and an
      identifier-named key becomes a global. Once `isinstance`, `str` or
      (for an identifier key) `globals` names data, the turn raises
      instead; `except Exception` passes over that, unless `Exception`
      names data too, when matching the clause raises and the script
      ends (`None`). */
  function InjectOne(g: Globals, k: string, v: Value): Option<Globals> {
    var g1 := g["_k" := Data(Str(k))]["_v" := Data(v)];
    var raises := "isinstance" in g || "str" in g || (IsIdentifier(k) && "globals" in g);
    if !raises then Some(if IsIdentifier(k) then g1[k := Data(v)] else g1)
    else if "Exception" in g then None
    else Some(g1)
  }

  /** The whole loop over `_input.items()`; `None` when it ends the
      script. */
  function Inject(g: Globals, items: seq<(string, Value)>): (r: Option<Globals>)
    ensures r.Some? ==> forall x :: x in g ==> x in r.value
    decreases |items|
  {
    if |items| == 0 then Some(g)
    else
      match InjectOne(g, items[0].0, items[0].1)
      case None => None
      case Some(g1) => Inject(g1, items[1..])
  }

  lemma LoopSafeTail(items: seq<(string, Value)>)
    requires |items| > 0 && LoopSafe(items)
    ensures LoopSafe(items[1..])
  {
    forall i | 0 <= i < |items[1..]|
      ensures items[1..][i].0 != "isinstance" && items[1..][i].0 != "str" && items[1..][i].0 != "globals"
    {
      assert items[1..][i] == items[i + 1];
    }
  }

  /** While no property is named after a builtin the loop calls, the
      loop runs to the end. After it, a name other than the loop
      variables holds the input property of that name when the name is
      an identifier key of the input, and keeps its earlier binding
      otherwise. The loop variables are bound as soon as there is one
      property. */
  lemma {:induction false} InjectLookup(g: Globals, items: seq<(string, Value)>, x: string)
    requires Assoc.WellFormed(items)
    requires LoopIntact(g) && LoopSafe(items)
    requires x != "_k" && x != "_v"
    ensures Inject(g, items).Some?
    ensures IsIdentifier(x) && x in Assoc.Keys(items) ==>
      x in Inject(g, items).value && Inject(g, items).value[x] == Data(PyGet(items, x, Null))
    ensures !(IsIdentifier(x) && x in Assoc.Keys(items)) ==>
      (x in Inject(g, items).value <==> x in g) && (x in g ==> Inject(g, items).value[x] == g[x])
    ensures |items| > 0 ==> "_k" in Inject(g, items).value && "_v" in Inject(g, items).value
    decreases |items|
  {
    if |items| > 0 {
      var g1 := InjectOne(g, items[0].0, items[0].1).value;
      assert LoopIntact(g1);
      LoopSafeTail(items);
      assert Assoc.Keys(items) == [items[0].0] + Assoc.Keys(items[1..]);
      assert Assoc.WellFormed(items[1..]) by {
        forall i, j | 0 <= i < j < |items[1..]|
          ensures Assoc.Keys(items[1..])[i] != Assoc.Keys(items[1..])[j]
        {
          assert Assoc.Keys(items[1..])[i] == Assoc.Keys(items)[i + 1];
          assert Assoc.Keys(items[1..])[j] == Assoc.Keys(items)[j + 1];
        }
      }
      InjectLookup(g1, items[1..], x);
      if x == items[0].0 {
        assert x !in Assoc.Keys(items[1..]) by {
          forall j | 0 <= j < |items[1..]| ensures Assoc.Keys(items[1..])[j] != x {
            assert Assoc.Keys(items[1..])[j] == Assoc.Keys(items)[j + 1];
          }
        }
      }
      if |items[1..]| == 0 {
        assert Inject(g, items) == Some(g1);
      } else {
        InjectLoopVars(g1, items[1..]);
      }
    }
  }

  lemma {:induction false} InjectLoopVars(g: Globals, items: seq<(string, Value)>)
    requires |items| > 0 && Inject(g, items).Some?
    ensures "_k" in Inject(g, items).value && "_v" in Inject(g, items).value
    decreases |items|
  {
    var g1 := InjectOne(g, items[0].0, items[0].1).value;
    if |items| > 1 {
      InjectLoopVars(g1, items[1..]);
    } else {
      assert Inject(g, items) == Inject(g1, items[1..]) == Some(g1);
    }
  }

  /** Once one of the loop's builtins names data, the loop binds nothing
      new: every name but `_k` and `_v` keeps its binding. The loop still
      runs to the end while `Exception` is untouched, and ends the script
      when `Exception` names data and every turn raises. */
  lemma {:induction false} InjectAfterBreak(g: Globals, items: seq<(string, Value)>, x: string)
    requires !LoopIntact(g)
    requires x != "_k" && x != "_v"
    ensures "Exception" !in g ==> Inject(g, items).Some?
    ensures ("isinstance" in g || "str" in g) && "Exception" in g && |items| > 0 ==> Inject(g, items).None?
    ensures Inject(g, items).Some? ==>
      (x in Inject(g, items).value <==> x in g) && (x in g ==> Inject(g, items).value[x] == g[x])
    decreases |items|
  {
    if |items| > 0 {
      match InjectOne(g, items[0].0, items[0].1)
      case None =>
      case Some(g1) =>
        assert !LoopIntact(g1) && ("Exception" in g1 <==> "Exception" in g);
        assert (x in g1 <==> x in g) && (x in g ==> g1[x] == g[x]);
        InjectAfterBreak(g1, items[1..], x);
    }
  }

  /** With no `Exception` global and no property of that name, the loop
      cannot end the script. */
  lemma {:induction false} InjectNoCrash(g: Globals, items: seq<(string, Value)>)
    ensures "Exception" !in g && "Exception" !in Assoc.Keys(items) ==> Inject(g, items).Some?
    decreases |items|
  {
    if |items| > 0 && "Exception" !in g && "Exception" !in Assoc.Keys(items) {
      assert Assoc.Keys(items) == [items[0].0] + Assoc.Keys(items[1..]);
      var g1 := InjectOne(g, items[0].0, items[0].1).value;
      assert "Exception" !in g1;
      InjectNoCrash(g1, items[1..]);
    }
  }

  // ---------------------------------------------------------------------
  // the preamble

  /** The globals the preamble binds before the injection loop. */
  function BaseGlobals(payload: Value, input: Value): (g: Globals)
    requires payload.Obj?
    ensures "payload" in g
    ensures "vars" in g && g["vars"] == Data(PyGet(payload.fields, "vars", Obj([])))
    ensures "flow" in g && g["flow"] == Data(PyGet(payload.fields, "flow", Obj([])))
    ensures UserFuncName !in g && ReturnName !in g && ResultName !in g
    ensures LoopIntact(g) && "Exception" !in g
  {
    map[
      "sys" := Module("sys"), "json" := Module("json"), "traceback" := Module("traceback"),
      "payload" := Data(payload), "_input" := Data(input),
      "vars" := Data(PyGet(payload.fields, "vars", Obj([]))),
      "flow" := Data(PyGet(payload.fields, "flow", Obj([])))]
  }

  /** The input the preamble reads: `payload.get('input', {})`. */
  function InputOf(payload: Value): Value
    requires payload.Obj?
  {
    PyGet(payload.fields, "input", Obj([]))
  }

  /** The globals after the injection loop, from the parsed payload:
      the imported modules, `payload`, `_input`, `vars`, `flow`, then the
      injected input properties. `None` when the payload or its input is
      not a dict (the `.get` or `.items()` call raises), or when the
      injection loop ends the script; it cannot end it unless some input
      property is named `Exception`. */
  function Preamble(payload: Value): (r: Option<Globals>)
    ensures r.Some? ==> payload.Obj? && InputOf(payload).Obj?
    ensures payload.Obj? && InputOf(payload).Obj? && "Exception" !in Assoc.Keys(InputOf(payload).fields) ==> r.Some?
    ensures r.Some? ==> "payload" in r.value && "vars" in r.value && "flow" in r.value
  {
    if !payload.Obj? then None
    else
      var input := InputOf(payload);
      if !input.Obj? then None
      else
        InjectNoCrash(BaseGlobals(payload, input), input.fields);
        Inject(BaseGlobals(payload, input), input.fields)
  }

  /** An input property named `vars` or `flow` replaces the preamble's
      binding of that name, since the injection runs after it; without
      such a property the user code sees the payload's own entry. */
  lemma PreambleShadowing(payload: Value, name: string)
    requires payload.Obj? && InputOf(payload).Obj?
    requires Assoc.WellFormed(InputOf(payload).fields) && LoopSafe(InputOf(payload).fields)
    requires name == "vars" || name == "flow"
    ensures Preamble(payload).Some?
    ensures var input := InputOf(payload);
      Preamble(payload).value[name] ==
        if name in Assoc.Keys(input.fields) then Data(PyGet(input.fields, name, Null))
        else Data(PyGet(payload.fields, name, Obj([])))
  {
    var input := InputOf(payload);
    assert IsIdentifier("vars") by { assert forall k :: 1 <= k < 4 ==> IsWordChar("vars"[k]); }
    assert IsIdentifier("flow") by { assert forall k :: 1 <= k < 4 ==> IsWordChar("flow"[k]); }
    var g0 := BaseGlobals(payload, input);
    InjectLookup(g0, input.fields, name);
  }

  /** The globals `exec` receives: the assignment `user_code = '''…'''`
      follows the injection loop, so `user_code` names the code text,
      whatever input property of that name the loop bound. */
  function ExecGlobals(g: Globals, userCode: string): (r: Globals)
    ensures "user_code" in r && r["user_code"] == Data(Str(userCode))
    ensures forall x :: x != "user_code" ==> (x in r <==> x in g)
  {
    g["user_code" := Data(Str(userCode))]
  }

  /** An input property named `user_code` is bound by the loop and then
      replaced by the code text before `exec` runs; every other global the
      loop leaves is what `exec` sees. */
  lemma UserCodePropertyReplaced(payload: Value, userCode: string, x: string)
    requires payload.Obj? && InputOf(payload).Obj?
    requires Assoc.WellFormed(InputOf(payload).fields) && LoopSafe(InputOf(payload).fields)
    requires "user_code" in Assoc.Keys(InputOf(payload).fields)
    ensures Preamble(payload).Some?
    ensures "user_code" in Preamble(payload).value && Preamble(payload).value["user_code"] == Data(PyGet(InputOf(payload).fields, "user_code", Null))
    ensures ExecGlobals(Preamble(payload).value, userCode)["user_code"] == Data(Str(userCode))
    ensures x != "user_code" && x in Preamble(payload).value ==>
      ExecGlobals(Preamble(payload).value, userCode)[x] == Preamble(payload).value[x]
  {
    var input := InputOf(payload);
    assert IsIdentifier("user_code") by { assert forall k :: 1 <= k < 9 ==> IsWordChar("user_code"[k]); }
    InjectLookup(BaseGlobals(payload, input), input.fields, "user_code");
  }

  // ---------------------------------------------------------------------
  // result selection

  const UserFuncName: string := "__flowise_user_func"
  const ReturnName: string := "__flowise_return"
  const ResultName: string := "result"

  predicate UserFuncCallable(g: Globals) {
    UserFuncName in g && g[UserFuncName].Callable?
  }

  /** The `if/elif` chain after `exec`: call a callable
      `__flowise_user_func` with `payload`, else take `__flowise_return`,
      else `result`, else `None`. The chain calls `globals()`, and
      `callable` when the user function exists; either raises once it
      names data. An exit inside the call turns into an error when
      `Exception` names data, since matching the `except` clause raises. */
  function SelectResult(g: Globals): (r: Run<Binding>)
    ensures "globals" !in g && !UserFuncCallable(g) && (UserFuncName in g ==> "callable" !in g) ==>
      r.Completed? && r.printed == ""
  {
    if "globals" in g then Raised("", "TypeError")
    else if UserFuncName in g && "callable" in g then Raised("", "TypeError")
    else if UserFuncCallable(g) then
      if "payload" !in g then Raised("", "NameError")
      else
        match g[UserFuncName].call(AsJson(g["payload"]))
        case Completed(out, v) => Completed(out, Data(v))
        case Raised(out, trace) => Raised(out, trace)
        case Exited(out, status) => if "Exception" in g then Raised(out, "TypeError") else Exited(out, status)
    else if ReturnName in g then Completed("", g[ReturnName])
    else if ResultName in g then Completed("", g[ResultName])
    else Completed("", Data(Null))
  }

  /** Selection depends on nothing but the three names and the builtins
      it calls: two global maps that agree on them select the same way. */
  lemma SelectResultFrame(g: Globals, h: Globals)
    requires forall n :: n in SelectNames ==> (n in g <==> n in h)
    requires forall n :: n in SelectNames && n in g ==> g[n] == h[n]
    ensures SelectResult(g) == SelectResult(h)
  {
    assert UserFuncName in SelectNames && ReturnName in SelectNames && ResultName in SelectNames;
    assert "globals" in SelectNames && "callable" in SelectNames;
    assert "payload" in SelectNames && "Exception" in SelectNames;
  }

  const SelectNames: set<string> :=
    {UserFuncName, ReturnName, ResultName, "globals", "callable", "payload", "Exception"}

  /** The first of `names` bound in `g`. */
  function FirstBound(g: Globals, names: seq<string>): (r: Option<string>)
    ensures r.Some? ==> r.value in names && r.value in g
    ensures r.None? <==> forall i :: 0 <= i < |names| ==> names[i] !in g
    ensures r.Some? ==> exists i :: (0 <= i < |names| && names[i] == r.value &&
      forall j :: 0 <= j < i ==> names[j] !in g)
  {
    if |names| == 0 then None
    else if names[0] in g then Some(names[0])
    else
      match FirstBound(g, names[1..])
      case None => None
      case Some(n) =>
        assert forall j :: 1 <= j < |names| ==> names[j] == names[1..][j - 1];
        Some(n)
  }

  /** Without a callable user function, the result is the binding of the
      first of `__flowise_return` and `result` that is bound, and `None`
      when neither is. */
  lemma SelectResultFirstBound(g: Globals)
    requires "globals" !in g && !UserFuncCallable(g) && (UserFuncName in g ==> "callable" !in g)
    ensures SelectResult(g) ==
      match FirstBound(g, [ReturnName, ResultName])
      case Some(n) => Completed("", g[n])
      case None => Completed("", Data(Null))
  {
    var r := FirstBound(g, [ReturnName, ResultName]);
    if ReturnName in g {
      assert r == Some(ReturnName);
    } else if ResultName in g {
      assert [ReturnName, ResultName][1..] == [ResultName];
      assert FirstBound(g, [ResultName]) == Some(ResultName);
      assert r == Some(ResultName);
    } else {
      assert [ReturnName, ResultName][1] == ResultName;
    }
  }

  // ---------------------------------------------------------------------
  // the run

  /** `exec(user_code, globals())` reaches the user code: neither `exec`
      nor `globals` names data. */
  predicate ExecReachable(g: Globals) {
    "exec" !in g && "globals" !in g
  }

  /** The final `print(json.dumps(result, default=str))` has its `print`
      and the `json` module it imported. */
  predicate PrintIntact(g: Globals) {
    "print" !in g && "json" in g && g["json"].Module? && g["json"].name == "json"
  }

  /** What the final line prints, given the globals and the result; `None`
      when it raises. A result that is not data is printed through
      `default=str`, which raises when `str` names data. */
  function Printed(g: Globals, b: Binding): (r: Option<Value>)
    ensures r.Some? <==> PrintIntact(g) && (b.Data? || "str" !in g)
    ensures r.Some? ==> r.value == AsJson(b)
  {
    if !PrintIntact(g) then None
    else if b.Data? then Some(b.v)
    else if "str" in g then None
    else Some(AsJson(b))
  }

  /** Exit status and the two output streams of one interpreter run. */
  datatype ScriptRun = ScriptRun(status: int, stdout: string, stderr: string)

  /** The interpreter running `script` with `stdin` on its standard
      input. `exec` is the effect of the user code: given the text of
      `user_code` and the globals it receives, how it ends. A `sys.exit` inside the
      user code becomes an error when `Exception` names data. */
  function RunScript(host: Host, stdin: string, script: string,
                     exec: (string, Globals) -> Run<Globals>): (r: ScriptRun)
    ensures UserCodeOf(script).None? ==> r.status == 1 && r.stdout == ""
    ensures r.status == 0 && r.stderr == "" ==> UserCodeOf(script).Some?
  {
    match UserCodeOf(script)
    case None => ScriptRun(1, "", "SyntaxError")
    case Some(userCode) =>
      match host.pyLoad(stdin)
      case None => ScriptRun(1, "", "JSONDecodeError")
      case Some(payload) =>
        match Preamble(payload)
        case None => ScriptRun(1, "", "AttributeError")
        case Some(g) =>
          if !ExecReachable(g) then ScriptRun(1, "", "TypeError")
          else
            match exec(userCode, ExecGlobals(g, userCode))
            case Raised(out, trace) => ScriptRun(1, out, trace)
            case Exited(out, status) =>
              if "Exception" in g then ScriptRun(1, out, "TypeError") else ScriptRun(status, out, "")
            case Completed(out, g') => Finish(host, out, g')
  }

  /** The part of the script after the user code, which printed `out` and
      left the globals `g`: result selection, then the final print. */
  function Finish(host: Host, out: string, g: Globals): (r: ScriptRun)
    ensures r.status == 0 ==> SelectResult(g).Completed? || SelectResult(g).Exited?
  {
    match SelectResult(g)
    case Raised(out', trace) => ScriptRun(1, out + out', trace)
    case Exited(out', status) => ScriptRun(status, out + out', "")
    case Completed(out', b) =>
      match Printed(g, b)
      case None => ScriptRun(1, out + out', "TypeError")
      case Some(v) => ScriptRun(0, out + out' + host.pyDumps(v) + "\n", "")
  }

  /** `RunScript` taken one stage at a time: a run in which nothing but
      the final `print` writes to stdout ends with status 0 and exactly
      the JSON of the selected result on one line. */
  lemma RunScriptSteps(host: Host, stdin: string, script: string, exec: (string, Globals) -> Run<Globals>,
                       userCode: string, payload: Value, g: Globals, b: Binding)
    requires UserCodeOf(script) == Some(userCode)
    requires host.pyLoad(stdin) == Some(payload)
    requires Preamble(payload).Some? && ExecReachable(Preamble(payload).value)
    requires exec(userCode, ExecGlobals(Preamble(payload).value, userCode)) == Completed("", g)
    requires SelectResult(g) == Completed("", b) && Printed(g, b).Some?
    ensures RunScript(host, stdin, script, exec) == ScriptRun(0, host.pyDumps(AsJson(b)) + "\n", "")
  {
    assert RunScript(host, stdin, script, exec) == Finish(host, "", g);
    FinishQuiet(host, g, b);
  }

  lemma FinishQuiet(host: Host, g: Globals, b: Binding)
    requires SelectResult(g) == Completed("", b) && Printed(g, b).Some?
    ensures Finish(host, "", g) == ScriptRun(0, host.pyDumps(AsJson(b)) + "\n", "")
  {
    assert "" + "" == "";
  }

  /** For code without backslashes, as the tool writes the script: when
      nothing else prints and no builtin the script calls is rebound, the
      run exits 0 and its stdout is the JSON of the selected result plus
      a line break; this is the text the tool decodes. */
  lemma QuietRunPrintsResult(host: Host, stdin: string, code: string,
                             exec: (string, Globals) -> Run<Globals>, payload: Value, g: Globals, b: Binding)
    requires '\\' !in code
    requires host.pyLoad(stdin) == Some(payload)
    requires Preamble(payload).Some? && ExecReachable(Preamble(payload).value)
    requires exec(UserCodeText(code), ExecGlobals(Preamble(payload).value, UserCodeText(code))) == Completed("", g)
    requires SelectResult(g) == Completed("", b) && Printed(g, b).Some?
    ensures RunScript(host, stdin, ScriptTextAsWritten(code), exec) == ScriptRun(0, host.pyDumps(AsJson(b)) + "\n", "")
  {
    ScriptCarriesCode(code);
    RunScriptSteps(host, stdin, ScriptTextAsWritten(code), exec, UserCodeText(code), payload, g, b);
  }

  /** The same for any code once the literal escapes backslashes too. */
  lemma CorrectedRunPrintsResult(host: Host, stdin: string, code: string,
                                 exec: (string, Globals) -> Run<Globals>, payload: Value, g: Globals, b: Binding)
    requires host.pyLoad(stdin) == Some(payload)
    requires Preamble(payload).Some? && ExecReachable(Preamble(payload).value)
    requires exec(UserCodeText(code), ExecGlobals(Preamble(payload).value, UserCodeText(code))) == Completed("", g)
    requires SelectResult(g) == Completed("", b) && Printed(g, b).Some?
    ensures RunScript(host, stdin, ScriptText(code), exec) == ScriptRun(0, host.pyDumps(AsJson(b)) + "\n", "")
  {
    CorrectedScriptCarriesCode(code);
    RunScriptSteps(host, stdin, ScriptText(code), exec, UserCodeText(code), payload, g, b);
  }

  /** Input properties can answer for the user code: if the code binds
      nothing, an input property named `result` (or `__flowise_return`)
      is what the script selects. A property named `__flowise_user_func`
      is data, never callable, so it is skipped. */
  lemma InputPropertyBecomesResult(payload: Value, name: string)
    requires payload.Obj? && InputOf(payload).Obj?
    requires Assoc.WellFormed(InputOf(payload).fields) && LoopSafe(InputOf(payload).fields)
    requires name == ReturnName || name == ResultName
    requires var keys := Assoc.Keys(InputOf(payload).fields);
      name in keys && (name == ResultName ==> ReturnName !in keys) &&
      (UserFuncName in keys ==> "callable" !in keys)
    ensures Preamble(payload).Some?
    ensures SelectResult(Preamble(payload).value) == Completed("", Data(PyGet(InputOf(payload).fields, name, Null)))
  {
    var input := InputOf(payload);
    var g0 := BaseGlobals(payload, input);
    PreambleIsInject(payload);
    assert "globals" !in g0 && "callable" !in g0;
    InjectKeepsSelection(g0, input.fields);
    InjectBindsResult(g0, input.fields, name);
    SelectBoundResult(Inject(g0, input.fields).value, name);
  }

  lemma PreambleIsInject(payload: Value)
    requires payload.Obj? && InputOf(payload).Obj?
    ensures Preamble(payload) == Inject(BaseGlobals(payload, InputOf(payload)), InputOf(payload).fields)
  {
  }

  /** The loop binds neither `globals` nor `callable` when no input key
      names them, and a `__flowise_user_func` it binds is data. */
  lemma InjectKeepsSelection(g0: Globals, items: seq<(string, Value)>)
    requires Assoc.WellFormed(items) && LoopIntact(g0) && LoopSafe(items)
    requires "globals" !in g0 && "callable" !in g0 && UserFuncName !in g0
    requires UserFuncName in Assoc.Keys(items) ==> "callable" !in Assoc.Keys(items)
    ensures Inject(g0, items).Some?
    ensures var g := Inject(g0, items).value;
      "globals" !in g && !UserFuncCallable(g) && (UserFuncName in g ==> "callable" !in g)
  {
    InjectLookup(g0, items, "globals");
    InjectLookup(g0, items, "callable");
    InjectLookup(g0, items, UserFuncName);
  }

  /** An input property named `__flowise_return` or `result` is bound
      by the loop, and `__flowise_return` stays unbound when no input key
      names it. */
  lemma InjectBindsResult(g0: Globals, items: seq<(string, Value)>, name: string)
    requires Assoc.WellFormed(items) && LoopIntact(g0) && LoopSafe(items)
    requires ReturnName !in g0
    requires name == ReturnName || name == ResultName
    requires name in Assoc.Keys(items) && (name == ResultName ==> ReturnName !in Assoc.Keys(items))
    ensures Inject(g0, items).Some?
    ensures var g := Inject(g0, items).value;
      name in g && g[name] == Data(PyGet(items, name, Null)) && (name == ResultName ==> ReturnName !in g)
  {
    ResultSourcesAreIdentifiers();
    InjectLookup(g0, items, name);
    if name == ResultName {
      InjectLookup(g0, items, ReturnName);
    }
  }


  /** Without a callable user function and with `globals` and `callable`
      untouched, a bound `__flowise_return`, or else a bound `result`, is
      the selected result. */
  lemma SelectBoundResult(g: Globals, name: string)
    requires "globals" !in g && !UserFuncCallable(g) && (UserFuncName in g ==> "callable" !in g)
    requires name in g && (name == ReturnName || (name == ResultName && ReturnName !in g))
    ensures SelectResult(g) == Completed("", g[name])
  {
  }

  lemma ResultSourcesAreIdentifiers()
    ensures IsIdentifier(ReturnName) && IsIdentifier(ResultName)
  {
    assert forall k :: 1 <= k < |ReturnName| ==> IsWordChar(ReturnName[k]);
    assert forall k :: 1 <= k < |ResultName| ==> IsWordChar(ResultName[k]);
  }

  /** Regrouping concatenations. */
  lemma Regroup6(a: string, b: string, c: string, d: string, e: string, f: string)
    ensures a + b + c + d + e + f == a + (b + c + d + e + f)
  {
  }

  lemma Regroup4(a: string, b: string, c: string, d: string)
    ensures a + (b + c + d) == a + b + c + d
  {
  }

  /** A script whose globals have `exec` or `globals` rebound to data
      after the preamble exits 1 before the user code runs. */
  lemma ExecUnreachableFails(host: Host, stdin: string, script: string,
                             exec: (string, Globals) -> Run<Globals>, payload: Value)
    requires UserCodeOf(script).Some?
    requires host.pyLoad(stdin) == Some(payload)
    requires Preamble(payload).Some? && !ExecReachable(Preamble(payload).value)
    ensures RunScript(host, stdin, script, exec) == ScriptRun(1, "", "TypeError")
  {
  }

  /** A run whose final `print(json.dumps(...))` raises exits 1 with only
      what the code printed on stdout. */
  lemma PrintBrokenFails(host: Host, stdin: string, script: string, exec: (string, Globals) -> Run<Globals>,
                         userCode: string, payload: Value, g: Globals, b: Binding)
    requires UserCodeOf(script) == Some(userCode)
    requires host.pyLoad(stdin) == Some(payload)
    requires Preamble(payload).Some? && ExecReachable(Preamble(payload).value)
    requires exec(userCode, ExecGlobals(Preamble(payload).value, userCode)) == Completed("", g)
    requires SelectResult(g) == Completed("", b) && Printed(g, b).None?
    ensures RunScript(host, stdin, script, exec) == ScriptRun(1, "", "TypeError")
  {
    assert RunScript(host, stdin, script, exec) == Finish(host, "", g);
    FinishBroken(host, g, b);
  }

  lemma FinishBroken(host: Host, g: Globals, b: Binding)
    requires SelectResult(g) == Completed("", b) && Printed(g, b).None?
    ensures Finish(host, "", g) == ScriptRun(1, "", "TypeError")
  {
    assert "" + "" == "";
  }

  // ---------------------------------------------------------------------
  // input properties named after builtins

  const GlobalsInput: Value := Obj([("input", Obj([("globals", Num(0)), ("a", Num(1))]))])

  /** A property named `globals` stops the loop from binding the ones
      after it and then breaks `exec`: with input `{"globals": 0, "a": 1}`
      the name `a` is never bound and the script exits 1 whatever the
      code. */
  lemma GlobalsPropertyStopsScript(host: Host, stdin: string, code: string,
                                   exec: (string, Globals) -> Run<Globals>)
    requires '\\' !in code
    requires host.pyLoad(stdin) == Some(GlobalsInput)
    ensures Preamble(GlobalsInput).Some? && "a" !in Preamble(GlobalsInput).value
    ensures RunScript(host, stdin, ScriptTextAsWritten(code), exec) == ScriptRun(1, "", "TypeError")
  {
    GlobalsPropertyStopsInjection();
    ScriptCarriesCode(code);
    ExecUnreachableFails(host, stdin, ScriptTextAsWritten(code), exec, GlobalsInput);
  }

  lemma GlobalsPropertyStopsInjection()
    ensures Preamble(GlobalsInput).Some?
    ensures "a" !in Preamble(GlobalsInput).value && "globals" in Preamble(GlobalsInput).value
  {
    var items := [("globals", Num(0)), ("a", Num(1))];
    assert InputOf(GlobalsInput) == Obj(items);
    var g0 := BaseGlobals(GlobalsInput, Obj(items));
    assert IsIdentifier("globals") by { assert forall k :: 1 <= k < 7 ==> IsWordChar("globals"[k]); }
    var g1 := InjectOne(g0, "globals", Num(0)).value;
    assert "globals" in g1 && "Exception" !in g1 && "a" !in g1;
    assert items[1..] == [("a", Num(1))];
    InjectAfterBreak(g1, items[1..], "a");
    InjectAfterBreak(g1, items[1..], "globals");
    assert Preamble(GlobalsInput) == Inject(g1, items[1..]);
  }

  const JsonInput: Value := Obj([("input", Obj([("json", Num(1))]))])

  /** A property named `json` replaces the imported module, so the final
      `print(json.dumps(...))` raises: with input `{"json": 1}`, code
      that only sets `result = 2` makes the script exit 1. */
  lemma JsonPropertyBreaksPrint(host: Host, stdin: string, code: string,
                                exec: (string, Globals) -> Run<Globals>)
    requires '\\' !in code
    requires host.pyLoad(stdin) == Some(JsonInput)
    requires Preamble(JsonInput).Some?
    requires exec(UserCodeText(code), ExecGlobals(Preamble(JsonInput).value, UserCodeText(code))) ==
      Completed("", Preamble(JsonInput).value[ResultName := Data(Num(2))])
    ensures RunScript(host, stdin, ScriptTextAsWritten(code), exec) == ScriptRun(1, "", "TypeError")
  {
    JsonPropertyReplacesModule();
    var g := Preamble(JsonInput).value[ResultName := Data(Num(2))];
    assert SelectResult(g) == Completed("", Data(Num(2)));
    ScriptCarriesCode(code);
    PrintBrokenFails(host, stdin, ScriptTextAsWritten(code), exec, UserCodeText(code), JsonInput, g, Data(Num(2)));
  }

  lemma JsonPropertyReplacesModule()
    ensures Preamble(JsonInput).Some?
    ensures var g := Preamble(JsonInput).value;
      ExecReachable(g) && "json" in g && g["json"] == Data(Num(1)) && "globals" !in g && UserFuncName !in g
  {
    var items := [("json", Num(1))];
    assert InputOf(JsonInput) == Obj(items);
    var g0 := BaseGlobals(JsonInput, Obj(items));
    assert IsIdentifier("json") by { assert forall k :: 1 <= k < 4 ==> IsWordChar("json"[k]); }
    assert Preamble(JsonInput) == InjectOne(g0, "json", Num(1));
  }
}

=== FILE: wrappers.dfy ===
/** Failure-compatible wrappers used throughout the model. */
module Wrappers {

  /** A value that may be absent (JavaScript `undefined`, a missing key). */
  datatype Option<+T> = None | Some(value: T)

  /** A completed computation: a value, or the error it was rejected with. */
  datatype Result<+T, +E> = Ok(value: T) | Err(error: E)
}
